=== FILE: README.md ===
# Health-Management-Frontend: a Dafny model of its logic

Health-Management-Frontend is a React front end for a clinic. Patients book, list and
cancel appointments and read their prescriptions. Doctors keep a weekly availability,
browse their patients and write prescriptions. Most of the code renders pages and calls a
REST back end. This project models the sequential logic between those calls:

- the session: startup token check, login, register, logout, password reset and profile
  update, both in the context provider and in the `useAuth` hook (`AuthContext`,
  `UseAuth`, `Session`, `Users`);
- the route guard and the sidebar's role tables (`RouteGuard`, `Sidebar`);
- the availability editor with its overlap test (`Schedule`);
- the form validators, the registration page's role domain rule and the prescription
  form's medication list (`Validations`, `Register`, `CreatePrescription`);
- the booking page: the login redirect, where it finds doctors and slots in a reply, the
  default slots and the endpoint fallback chain (`BookAppointment`, with `Uri` for
  `encodeURIComponent`);
- the list pages: status filters, search, cancel updates, pagination and the doctor
  list's query URL (`AppointmentList`, `PrescriptionList`, `PatientList`, `DoctorList`,
  `Pagination`);
- the patient dashboard's counts and rows and the appointment details page
  (`PatientDashboard`, `AppointmentDetails`, `AppointmentStatus`);
- the theme provider (`Theme`) and the cookie helper (`CookieManager`).

The model is functional. Each handler is a pure function from the page's state and the
outcome of its request to the next state, the request it sent and the path it navigates
to. HTTP replies, stored tokens, `now` and the browser's colour preference are
parameters. JSON values are a `Json` datatype with JavaScript truthiness, `x || fallback`
and object spread. Shared helpers live in `Wrappers`, `Strings` (the JavaScript string
methods the pages use), `Lists`, `Json` and `Backend`.

## Model

| member | source | states |
|---|---|---|
| RouteGuard.Decide | src/components/ProtectedRoute.jsx:15-47 | Loading gives the placeholder. No user gives a redirect to `/login` carrying the location. A required role the user lacks gives a redirect to the user's home. Anything else renders the children. |
| RouteGuard.LoadingNeverRedirects | src/components/ProtectedRoute.jsx:15-22 | While loading, the result is the placeholder for every user, role and location. |
| RouteGuard.SignedInNeverToLogin | src/components/ProtectedRoute.jsx:25-47 | A signed-in user is never redirected to `/login`. |
| RouteGuard.MismatchAvoidsRequiredHome | src/components/ProtectedRoute.jsx:31-42 | A role-mismatch redirect never targets the dashboard of the role the route demanded. |
| RouteGuard.MismatchTargets | src/components/ProtectedRoute.jsx:34-42 | On a mismatch, doctor, patient and admin go to their own dashboards and any other role goes to `/`. |
| Users.HomePathInjective | src/components/ProtectedRoute.jsx:34-42 | Distinct roles have distinct homes, and no known role's home is `/`. |
| Users.Merge | src/context/AuthContext.jsx:140 | `{...currentUser, ...user}`: the keys are the union, the update's values win and the others are kept. |
| AuthContext.CheckLoggedIn | src/context/AuthContext.jsx:17-40 | No token means no request and no user. A verified token gives the returned user. Any failure removes the token and leaves no user. Loading always ends. |
| AuthContext.Login | src/context/AuthContext.jsx:46-75 | Error is cleared first. Success stores the token, sets the user, navigates to the role's home and returns the body. A failure sets the server message or the fallback, returns null and touches neither token nor user. A success without a `user` stores the token, then fails on reading the role: the user is cleared, the error reads 'Login failed. Please try again.' and nothing navigates. |
| AuthContext.Register | src/context/AuthContext.jsx:78-93 | Never writes the token or the user; a failure sets an error. |
| AuthContext.Logout | src/context/AuthContext.jsx:96-100 | Removes the token and the user and navigates to `/login`. |
| AuthContext.PassThrough | src/context/AuthContext.jsx:103-127 | The password-reset calls return the body whatever its `success` flag says, only a rejection sets an error, and the session is unchanged. |
| AuthContext.UpdateProfile | src/context/AuthContext.jsx:130-150 | Success merges the returned user into the current one. A failure or a rejection keeps the user and sets the server message, else 'Failed to update profile'. |
| AuthContext.LogoutIdempotent | src/context/AuthContext.jsx:96-100 | Logging out twice equals logging out once. |
| AuthContext.UserHasTokenPreserved | src/context/AuthContext.jsx:46-150 | Every transition keeps "a current user comes with a stored token", except a profile update while signed out. |
| AuthContext.UpdateProfileSignedOut | src/context/AuthContext.jsx:140 | A signed-out profile update that succeeds still creates a user without a token. |
| AuthContext.LoginHomeIsGuardTarget | src/context/AuthContext.jsx:56-64 | Login navigates where the route guard would send the same user on a role mismatch. |
| UseAuth.CheckAuthStatus | src/hooks/useAuth.js:13-39 | Startup as in the provider, with the user cleared explicitly on every failure. |
| UseAuth.Login | src/hooks/useAuth.js:45-78 | The provider's login with `loading` raised while pending and lowered on every exit. |
| UseAuth.Register | src/hooks/useAuth.js:81-103 | Never signs in; loading ends on every path. |
| UseAuth.Logout | src/hooks/useAuth.js:106-110 | Removes the token and the user and navigates to `/login`. |
| UseAuth.UpdateProfile | src/hooks/useAuth.js:113-141 | Without a token it fails with 'Authentication required', sends nothing, returns null and keeps the user. |
| UseAuth.ForgotPassword | src/hooks/useAuth.js:144-163 | Returns the body only when `success` is set; never touches the session. A failure sets the server message, else 'Password reset request failed'; a rejection the server message, else 'Password reset request failed. Please try again.'. |
| UseAuth.ResetPassword | src/hooks/useAuth.js:166-188 | Returns the body only when `success` is set; never touches the session. A failure sets the server message, else 'Password reset failed'; a rejection the server message, else 'Password reset failed. Please try again.'. |
| UseAuth.StartupAgrees | src/hooks/useAuth.js:13-39 | The hook's startup ends in the same state as the provider's. |
| UseAuth.LoginAgrees | src/hooks/useAuth.js:45-78 | The hook's login agrees with the provider's in token, user, navigation and result. |
| UseAuth.ResetDiffersFromProvider | src/hooks/useAuth.js:166-188 | On a non-success reply the provider returns the body and the hook returns null. |
| Sidebar.NavTables | src/components/Sidebar/Sidebar.jsx:42-75 | Doctor and patient get 6 items and admin gets 5, each under its dashboard prefix, first the dashboard root, with distinct paths. Any other role gets one Home item at `/`. |
| Sidebar.AtMostOneActive | src/components/Sidebar/Sidebar.jsx:104 | With distinct paths, at most one link is active: the one whose path equals the pathname. |
| Sidebar.HandleLogout | src/components/Sidebar/Sidebar.jsx:34-39 | Clears the token and loads `/login`. |
| Sidebar.LogoutLikeProvider | src/components/Sidebar/Sidebar.jsx:34-39 | Leaves the same token slot and target as the provider's `logout`. The reload that follows starts signed out, and the guard sends every protected page to `/login`. |
| Schedule.OverlapsIsIntersection | src/pages/Schedule/Schedule.jsx:96-101 | For proper intervals, the three-clause test equals same-day half-open intersection. |
| Schedule.FindOverlap | src/pages/Schedule/Schedule.jsx:96-101 | Returns the first slot the new one overlaps, or none when it overlaps no slot. |
| Schedule.AddTimeSlot | src/pages/Schedule/Schedule.jsx:82-125 | Missing fields, a backward slot and an overlap each leave availability unchanged with their message. Success appends exactly the slot and resets the form. |
| Schedule.AddRejectsBackwardSlot | src/pages/Schedule/Schedule.jsx:89-93 | A start at or after the end is rejected with 'End time must be after start time'. |
| Schedule.AddAcceptsExactlyDisjoint | src/pages/Schedule/Schedule.jsx:95-109 | A complete, forward slot is added exactly when it intersects no slot of its day. |
| Schedule.AddPreservesWellFormed | src/pages/Schedule/Schedule.jsx:84-109 | Forward slots that are pairwise disjoint per day stay so after any add. |
| Schedule.RemoveTimeSlot | src/pages/Schedule/Schedule.jsx:127-138 | `splice(index, 1)`: an index inside the list removes that element, a negative one counts from the end, one below minus the length removes the first element, and one at or past the end removes nothing; the rest keep their order. |
| Schedule.RemovePreservesWellFormed | src/pages/Schedule/Schedule.jsx:127-130 | Removal keeps the availability well formed. |
| Schedule.SlotsOn | src/pages/Schedule/Schedule.jsx:182 | Exactly the slots naming the day, kept in the availability's order (a subsequence). |
| Schedule.SlotsOnCounts | src/pages/Schedule/Schedule.jsx:182 | A day's bucket holds each slot of that day as many times as the availability does, and no other slot. |
| Schedule.AvailabilityByDay | src/pages/Schedule/Schedule.jsx:178-186 | Maps exactly the seven weekdays, each to a subsequence of the availability holding only that day's slots. |
| Schedule.UnknownDayInNoBucket | src/pages/Schedule/Schedule.jsx:178-186 | A slot naming no weekday appears in no bucket. |
| Schedule.AddUpdatesOneBucket | src/pages/Schedule/Schedule.jsx:178-186 | A successful add extends only its day's bucket, by the new slot at the end. |
| Validations.IsEmailMatchesPattern | src/utils/validations.js:2 | The email predicate holds exactly when the text splits into a local part, `@`, a domain prefix, `.` and two or more letters, as the pattern demands. |
| Validations.ValidateEmail | src/utils/validations.js:14-18 | Empty gives 'Email is required'. Otherwise the result is '' exactly for a pattern match, and 'Please enter a valid email address' for any other text. |
| Validations.ScanPassword | src/utils/validations.js:5 | The one-pass scan accepts exactly the strong passwords: length 8 or more, allowed characters only, a letter and a digit. |
| Validations.ValidatePassword | src/utils/validations.js:20-26 | Empty gives 'Password is required'; otherwise '' exactly for a strong password. |
| Validations.ValidateConfirmPassword | src/utils/validations.js:28-32 | An empty confirmation is reported before a mismatch; '' exactly for a non-empty equal confirmation. |
| Validations.ValidateName | src/utils/validations.js:34-39 | An empty name gives the required message; otherwise a pattern failure gives the invalid message before the length is looked at; a matching one-character name is too short. Valid exactly for a pattern match of length 2 or more. |
| Validations.NamePatternAllowed | src/utils/validations.js:11 | The name pattern, read left to right, holds exactly for a non-empty text of letters, whitespace, `'` and `-`. |
| Validations.ValidatePhone | src/utils/validations.js:41-45 | Empty gives 'Phone number is required'. The result is '' exactly for an optional `+` followed by 10 to 15 digits, and 'Please enter a valid phone number' for any other non-empty text. |
| Validations.ValidateDate | src/utils/validations.js:47-59 | Empty gives 'Date is required'. A non-empty date before today gives 'Date cannot be in the past'. Otherwise the result is ''. |
| Validations.BlankIsTrimEmpty | src/utils/validations.js:140 | `x.trim() === ''` holds exactly for whitespace-only text. |
| Validations.ValidateLoginForm | src/utils/validations.js:62-75 | Errors hold exactly the failing fields, and isValid holds exactly when there are none. The email error is 'Email is required' or the invalid-address message. The password error is 'Password is required' for an empty password and the weak-password message otherwise. |
| Validations.CollectFacts | src/utils/validations.js:77-101 | For checks on distinct properties, run in order as `if (message) errors.field = message`: a property is present exactly when its check failed, it holds that message, and no other property appears. |
| Validations.RegistrationErrors | src/utils/validations.js:77-101 | The five registration checks leave no other property, and the errors are empty exactly when every message is. |
| Validations.ValidateRegistrationForm | src/utils/validations.js:77-101 | Name, email, password and confirmation each have an error exactly when that field fails its validator, and carry that validator's message. The phone has one only when given and not matching the pattern. isValid exactly when there are none. |
| Validations.ValidateAppointmentForm | src/utils/validations.js:103-121 | `doctorId` has an error exactly when it is empty, `date` when it is empty or in the past, `timeSlot` when empty, and `reason` when blank, each with its own message and nothing else. isValid exactly when there are none. |
| Validations.MedicationErrors | src/utils/validations.js:137-151 | One entry per blank name, dosage or frequency. |
| Validations.MedicationItems | src/utils/validations.js:135-155 | The sparse error array has an entry exactly at the incomplete medications. |
| Validations.MedicationsError | src/utils/validations.js:132-160 | A missing or empty list gives the one message; otherwise per-index errors, or none when all are complete. |
| Validations.ValidatePrescriptionForm | src/utils/validations.js:123-170 | isValid holds exactly when patient, diagnosis, every medication and start date are present. The errors have no keys besides patientId, diagnosis, medications and startDate. Each key is present exactly when its check fails. The messages are 'Please select a patient', 'Diagnosis is required', the medications entry, and 'Start date is required'. |
| Validations.FormatServerErrors | src/utils/validations.js:173-193 | Precedence: no response or data, then a string body, then a truthy `message`, then a joined `errors` array, then the fallback. |
| Validations.FormatServerErrorsTruthy | src/utils/validations.js:173-193 | The message is falsy only for an `errors` array that joins to the empty text. |
| Validations.FormatServerErrorsList | src/utils/validations.js:188-190 | A body of string `errors` and no message gives them joined with ", ". |
| Register.Domain | src/pages/Auth/Register/Register.jsx:47-53 | Patient, doctor and admin map to `@patients.com`, `@doctors.com` and `@admin.com`. Each domain is `@` followed by text without `@`. |
| Register.OneRolePerEmail | src/pages/Auth/Register/Register.jsx:47-58 | No email passes the domain check of two different roles. |
| Register.Username | src/pages/Auth/Register/Register.jsx:109-115 | The text before the first `@`, or the whole email when there is none; it holds no `@`. |
| Register.UpdateEmailDomain | src/pages/Auth/Register/Register.jsx:106-131 | The email becomes the username followed by the role's domain. Name, password and confirmation are unchanged. |
| Register.UpdatedEmailFitsRole | src/pages/Auth/Register/Register.jsx:127-130 | After picking a role the email ends with that role's domain. |
| Register.UpdateLastPickWins | src/pages/Auth/Register/Register.jsx:106-131 | Picking r1 then r2 equals picking r2 alone, and repeating a pick changes nothing. |
| Register.HandleSubmit | src/pages/Auth/Register/Register.jsx:30-97 | Missing fields, then a password mismatch, then a wrong domain. A request is sent exactly when all checks pass, and success navigates to `/login`. |
| Register.PickedRolePassesDomainCheck | src/pages/Auth/Register/Register.jsx:55 | With a name and matching passwords, picking any role gets the request sent. |
| Register.FailureAlwaysExplained | src/pages/Auth/Register/Register.jsx:82-93 | A failed request always leaves a non-empty message. |
| CreatePrescription.InitialForm | src/pages/Prescription/CreatePrescription/CreatePrescription.jsx:16-23 | The form starts with exactly one empty medication. |
| CreatePrescription.SetFieldOnlyThatField | src/pages/Prescription/CreatePrescription/CreatePrescription.jsx:65-68 | Setting a field changes that field and no other. |
| CreatePrescription.HandleMedicationChange | src/pages/Prescription/CreatePrescription/CreatePrescription.jsx:62-74 | Changes only the named field of row i; other rows and form fields are unchanged. |
| CreatePrescription.AddMedication | src/pages/Prescription/CreatePrescription/CreatePrescription.jsx:76-84 | Appends one empty medication and keeps the earlier ones. |
| CreatePrescription.Without | src/pages/Prescription/CreatePrescription/CreatePrescription.jsx:91 | Drops exactly index i (nothing when i is out of range) and keeps the order. |
| CreatePrescription.RemoveMedication | src/pages/Prescription/CreatePrescription/CreatePrescription.jsx:86-96 | A single row stays; otherwise only row i goes. |
| CreatePrescription.EditsKeepAMedication | src/pages/Prescription/CreatePrescription/CreatePrescription.jsx:62-96 | Every edit keeps at least one medication row. |
| CreatePrescription.CheckMessage | src/pages/Prescription/CreatePrescription/CreatePrescription.jsx:102-119 | Passes exactly when a patient is chosen, the trimmed diagnosis is non-empty and every medication has name, dosage and frequency; otherwise the first failing check's message, in the order patient, diagnosis, medication fields. Duration and instructions are optional. |
| CreatePrescription.HandleSubmit | src/pages/Prescription/CreatePrescription/CreatePrescription.jsx:98-150 | A failed check sends nothing. Without a token it fails with 'Authentication required' and sends nothing. Otherwise it posts the form. |
| CreatePrescription.ChecksAgreeWithValidator | src/pages/Prescription/CreatePrescription/CreatePrescription.jsx:102-119 | The page's checks pass exactly when the shared prescription validator reports no patient, diagnosis or medication error. |
| Uri.Encode | src/pages/Appointments/BookAppointment/BookAppointment.jsx:33 | `encodeURIComponent`: unreserved characters stay, the others become their UTF-8 escapes. |
| Uri.EncodeAlphabet | src/pages/Appointments/BookAppointment/BookAppointment.jsx:33 | An encoding holds only unreserved characters and `%`, so no `&`, `=`, `?`, `#` or `/` is left to break the query. |
| Uri.DecodeEncode | src/pages/Appointments/BookAppointment/BookAppointment.jsx:33 | Decoding an encoding gives the text back. |
| BookAppointment.LoginRedirectCarriesLocation | src/pages/Appointments/BookAppointment/BookAppointment.jsx:33 | The redirect value holds no `&`, `#`, `=`, `?` or `/`, and decodes to the location. |
| BookAppointment.OnAuthChange | src/pages/Appointments/BookAppointment/BookAppointment.jsx:29-36 | A visitor gets the authentication message and the login redirect; a signed-in user is left alone. |
| BookAppointment.FirstArray | src/pages/Appointments/BookAppointment/BookAppointment.jsx:71-73 | The first array-valued property in JavaScript's enumeration order, if any. |
| BookAppointment.ArrayIn | src/pages/Appointments/BookAppointment/BookAppointment.jsx:63-68 | The body if an array, else its `data`, else the named property, whichever is first an array. |
| BookAppointment.DoctorsComeFromBody | src/pages/Appointments/BookAppointment/BookAppointment.jsx:63-78 | The doctors found are the body or one of its array properties. |
| BookAppointment.FetchDoctors | src/pages/Appointments/BookAppointment/BookAppointment.jsx:52-98 | A non-empty list is shown. An empty or missing list gives 'No doctors available at this time' and an empty list. An invalid body or a rejection gives its message. |
| BookAppointment.GenerateDefaultTimeSlots | src/pages/Appointments/BookAppointment/BookAppointment.jsx:137-144 | The loop over the hours 9 to 16 yields sixteen slots, each equal to the closed form: hour `9 + k/2`, `:00` for even k and `:30` for odd. They are exactly the defaults the slot list falls back to. |
| BookAppointment.Pad2Digits | src/pages/Appointments/BookAppointment/BookAppointment.jsx:140-141 | `padStart(2, '0')` of an hour below 100 is two digits that read back as the hour. |
| BookAppointment.SlotTextShape | src/pages/Appointments/BookAppointment/BookAppointment.jsx:140-141 | Every default slot is `HH:MM` with minutes 00 or 30. |
| BookAppointment.DefaultSlotsAscending | src/pages/Appointments/BookAppointment/BookAppointment.jsx:137-144 | The defaults are strictly increasing, from 09:00 to 16:30. |
| BookAppointment.FetchAvailableSlots | src/pages/Appointments/BookAppointment/BookAppointment.jsx:100-134 | The server's array by the same precedence, else the defaults; a rejection also gives the defaults. |
| BookAppointment.RefreshSlots | src/pages/Appointments/BookAppointment/BookAppointment.jsx:44-50 | Slots are cleared unless the user is signed in and a doctor and a date are chosen. |
| BookAppointment.SlotsNeverEmptyOnceChosen | src/pages/Appointments/BookAppointment/BookAppointment.jsx:44-50 | With both chosen, the list is never empty unless the server itself sends an empty `slots` array. |
| BookAppointment.TryEndpoints | src/pages/Appointments/BookAppointment/BookAppointment.jsx:174-188 | The booking lands on the first defined endpoint that accepts it. Requests go, in order, to the defined endpoints up to that one. |
| BookAppointment.HandleSubmit | src/pages/Appointments/BookAppointment/BookAppointment.jsx:154-207 | An invalid date gives 'Invalid time value' and sends nothing. A booking navigates to the dashboard exactly when some endpoint accepts it. When all fail, no error is shown. |
| BookAppointment.FallbackNeverReached | src/pages/Appointments/BookAppointment/BookAppointment.jsx:174-188 | As written, only the first endpoint is ever posted to. |
| BookAppointment.FallbackReachesEveryEndpoint | src/pages/Appointments/BookAppointment/BookAppointment.jsx:174-188 | With the three endpoints defined, the booking succeeds exactly when one accepts, after trying each earlier one. |
| BookAppointment.EnabledSubmitSendsCompleteBooking | src/pages/Appointments/BookAppointment/BookAppointment.jsx:344 | An enabled button posts one booking naming the doctor, the time and a reason. |
| AppointmentList.StatusFilter | src/pages/Appointments/AppointmentList/AppointmentList.jsx:36-53 | Keeps exactly the entries the named filter selects, in order and each as often as fetched; 'all' or an unknown name keeps everything. |
| AppointmentList.UpcomingPastDisjoint | src/pages/Appointments/AppointmentList/AppointmentList.jsx:39-46 | No entry is both upcoming and past. |
| AppointmentList.Search | src/pages/Appointments/AppointmentList/AppointmentList.jsx:107-113 | The render fails exactly when some appointment's doctor name or reason is present but neither null nor a string. Otherwise it keeps exactly the entries whose lower-cased doctor name or reason contains the lower-cased term, with absent fields as '', in order; an empty term keeps all. |
| AppointmentList.EmptyTermMatchesAll | src/pages/Appointments/AppointmentList/AppointmentList.jsx:107-113 | An empty term matches every appointment. |
| AppointmentList.NonTextFieldFailsSearch | src/pages/Appointments/AppointmentList/AppointmentList.jsx:108-109 | One doctor name or reason that is not a string (nor null) fails the whole search, whatever the term. |
| AppointmentList.DisplayedIsSubsequence | src/pages/Appointments/AppointmentList/AppointmentList.jsx:36-113 | When the page renders, what it lists is a subsequence of what was fetched. |
| AppointmentList.CancelById | src/pages/Appointments/AppointmentList/AppointmentList.jsx:75-77 | Entries with the id become 'cancelled'; other fields, entries, length and order are kept. |
| AppointmentList.CancelSettlesTheId | src/pages/Appointments/AppointmentList/AppointmentList.jsx:75-77 | Cancelled entries pass the 'cancelled' filter and offer no actions, the rest are untouched, and cancelling twice equals once. |
| AppointmentList.HandleCancel | src/pages/Appointments/AppointmentList/AppointmentList.jsx:61-81 | A declined confirmation sends nothing and changes nothing. A success cancels by id. A failure alerts the message and keeps the list. |
| AppointmentList.ActionsExactlyForUpcoming | src/pages/Appointments/AppointmentList/AppointmentList.jsx:233 | A row offers its actions exactly when the 'upcoming' filter keeps it. |
| AppointmentList.StatusBadge | src/pages/Appointments/AppointmentList/AppointmentList.jsx:83-94 | Scheduled, completed and cancelled get their colours and labels; anything else shows the raw status on grey. |
| AppointmentList.BadgesFollowCancel | src/pages/Appointments/AppointmentList/AppointmentList.jsx:83-94 | Rows with actions show 'Scheduled'. After a cancel, the rows with the id show 'Cancelled' and the others keep their badge. |
| AppointmentList.FetchAppointments | src/pages/Appointments/AppointmentList/AppointmentList.jsx:19-59 | No token means no request. An array reply's list is exactly its data under the status filter: every kept appointment is there, nothing else, in order. A non-array `data.data` under upcoming, past or cancelled keeps the list and gives 'Failed to fetch appointments'; so does a missing body under any filter. Under any other filter the non-array value is stored, and the page can no longer render. A failure keeps the list and sets the message. |
| AppointmentList.UnrenderableExactly | src/pages/Appointments/AppointmentList/AppointmentList.jsx:36-56 | After a fetch the page holds a non-array list exactly when the fetch stored one. The other case is that it already held one and the fetch left the list alone. |
| PrescriptionList.StatusFilter | src/pages/Prescription/PrescriptionList/PrescriptionList.jsx:36-51 | The three status filters keep exactly their status, in order and each as often as fetched; 'all' keeps everything. |
| Json.LowerOrEmpty | src/pages/Prescription/PrescriptionList/PrescriptionList.jsx:85-86 | `x?.toLowerCase() || ''` throws exactly on a present value that is neither null nor a string; an absent or null one reads as ''. |
| PrescriptionList.MedicationText | src/pages/Prescription/PrescriptionList/PrescriptionList.jsx:87 | Throws exactly when `medications` is present but not an array, or some entry's name is not a string (a missing or null name included, since `med.name` has no `?.`); absent medications read as ''. |
| PrescriptionList.Search | src/pages/Prescription/PrescriptionList/PrescriptionList.jsx:84-93 | The render fails exactly when reading the doctor name, diagnosis or medication names of some prescription throws. Otherwise it keeps exactly the entries whose doctor name, diagnosis or joined medication names contain the term, case-insensitively, with absent fields as '', in order; an empty term keeps all. |
| PrescriptionList.EmptyTermMatchesAll | src/pages/Prescription/PrescriptionList/PrescriptionList.jsx:84-93 | An empty term matches every prescription. |
| PrescriptionList.MedicationNameFinds | src/pages/Prescription/PrescriptionList/PrescriptionList.jsx:87 | A term inside any one medication's name finds the prescription whenever the search does not throw on it. |
| PrescriptionList.UnnamedMedicationFailsSearch | src/pages/Prescription/PrescriptionList/PrescriptionList.jsx:87 | One medication whose name is not a string fails the whole search, whatever the term. |
| PrescriptionList.DisplayedIsSubsequence | src/pages/Prescription/PrescriptionList/PrescriptionList.jsx:36-93 | When the list renders, it is a subsequence of the fetched one. |
| PrescriptionList.StatusBadge | src/pages/Prescription/PrescriptionList/PrescriptionList.jsx:61-72 | Active, completed and cancelled get their own label; any other status shows as it came. |
| PrescriptionList.BadgeMatchesFilters | src/pages/Prescription/PrescriptionList/PrescriptionList.jsx:61-72 | A coloured badge appears exactly for the statuses a filter selects, labelled with the capitalised status. |
| PrescriptionList.FetchPrescriptions | src/pages/Prescription/PrescriptionList/PrescriptionList.jsx:19-59 | No token means no request. An array reply's list is exactly its data under the status filter: every kept prescription is there, nothing else, in order. A non-array `data.data` under active, completed or cancelled keeps the list and gives 'Failed to fetch prescriptions'; so does a missing body under any filter. Under any other filter the non-array value is stored, and the page can no longer render. A failure keeps the list and sets the message. |
| PrescriptionList.UnrenderableExactly | src/pages/Prescription/PrescriptionList/PrescriptionList.jsx:36-53 | After a fetch the page holds a non-array list exactly when the fetch stored one. The other case is that it already held one and the fetch left the list alone. |
| PatientList.Prev | src/pages/Patients/PatientList/PatientList.jsx:76-79 | `max(p-1, 1)`. |
| PatientList.Next | src/pages/Patients/PatientList/PatientList.jsx:81-84 | `min(p+1, totalPages)`. |
| PatientList.ButtonsKeepPageInRange | src/pages/Patients/PatientList/PatientList.jsx:76-84 | From a page in range both buttons stay in range, and each button is disabled exactly when clicking it would change nothing. |
| PatientList.HandleFilterChange | src/pages/Patients/PatientList/PatientList.jsx:52-55 | The filter takes the value and the page goes back to 1; nothing else changes. |
| PatientList.FetchPatients | src/pages/Patients/PatientList/PatientList.jsx:21-45 | No token means no request. A reply gives the patients, and the page count defaults to 1. A failure sets the message. |
| PatientList.NameFilter | src/pages/Patients/PatientList/PatientList.jsx:57-59 | The render fails exactly when some patient is `null` or has a present, non-null, non-string name. Otherwise it keeps exactly the patients whose name contains the term case-insensitively, in order. |
| PatientList.EmptyTermKeepsNamed | src/pages/Patients/PatientList/PatientList.jsx:57-59 | Whether the list renders does not depend on the term. When it does, an empty term keeps exactly the patients that have a name. |
| Pagination.PageItems | src/pages/Doctors/DoctorList/DoctorList.jsx:91-101 | The items are numbered 1 to totalPages, and item k is active exactly when k is the current page. |
| Pagination.OneActiveItem | src/pages/Doctors/DoctorList/DoctorList.jsx:95 | Exactly one item is active when the current page is in range, and none otherwise. |
| DoctorList.QueryParams | src/pages/Doctors/DoctorList/DoctorList.jsx:45-47 | `page` and `limit=9` come first. `specialization` follows only when non-empty, and `search` comes last, only when non-empty. |
| DoctorList.QueryIsJoinedParams | src/pages/Doctors/DoctorList/DoctorList.jsx:45-47 | The query text is the parameters joined with `&`. |
| DoctorList.UrlCarriesParams | src/pages/Doctors/DoctorList/DoctorList.jsx:45-47 | The URL is the path plus the joined parameters, and it splits back into them when the inputs hold no `&`. |
| DoctorList.SearchTextIsNotEncoded | src/pages/Doctors/DoctorList/DoctorList.jsx:47 | A `&` in the search text splits it into a separate parameter. |
| DoctorList.WithRatings | src/pages/Doctors/DoctorList/DoctorList.jsx:52-55 | `ratings` becomes the existing truthy value or `[]`, every other property is kept, and `null` throws. |
| DoctorList.WithRatingsSettles | src/pages/Doctors/DoctorList/DoctorList.jsx:52-55 | The result's ratings are truthy, and normalising again changes nothing. |
| DoctorList.WithRatingsAll | src/pages/Doctors/DoctorList/DoctorList.jsx:52-55 | The map succeeds exactly when no doctor is `null`, element by element. |
| DoctorList.DoctorsOf | src/pages/Doctors/DoctorList/DoctorList.jsx:52-55 | Defined exactly when `doctors` is an array without `null`; every result is an object with truthy ratings. |
| DoctorList.FetchDoctors | src/pages/Doctors/DoctorList/DoctorList.jsx:41-65 | Requests the URL. Success sets the doctors and both page numbers, each defaulting to 1. A thrown map gives 'Failed to fetch doctors', and a rejection gives its message or that text. |
| DoctorList.HandlePageChange | src/pages/Doctors/DoctorList/DoctorList.jsx:67-70 | Sets the page and fetches it. |
| DoctorList.FetchSpecializations | src/pages/Doctors/DoctorList/DoctorList.jsx:30-39 | An array reply is kept; anything else, or a failure, gives no options. |
| DoctorList.SpecializationOptions | src/pages/Doctors/DoctorList/DoctorList.jsx:176-179 | The empty "All Specializations" value first, then one value per specialization, as text. |
| DoctorList.OptionsFollowReply | src/pages/Doctors/DoctorList/DoctorList.jsx:30-39 | After the fetch every option but the first comes from the reply's array, in order. A failed or non-array reply leaves only "All Specializations", which sends no `specialization` parameter. |
| DoctorList.EnabledButtonsStayInRange | src/pages/Doctors/DoctorList/DoctorList.jsx:82-110 | From a page in range, each button is enabled exactly when its target is in range. |
| DoctorList.NextIsNotClamped | src/pages/Doctors/DoctorList/DoctorList.jsx:104-109 | Past the page count, Next stays enabled and leads further out. |
| DoctorList.VisitorIsBroughtBackToBooking | src/pages/Doctors/DoctorList/DoctorList.jsx:286-291 | A visitor's target is the login redirect for the booking path, and it decodes to the signed-in target. |
| PatientDashboard.CancelAppointment | src/pages/Dashboard/PatientDashboard/PatientDashboard.jsx:96-103 | Removes every appointment with the id and keeps each other one, as often as it occurred, in order. |
| PatientDashboard.CancelRemovesExactlyTheId | src/pages/Dashboard/PatientDashboard/PatientDashboard.jsx:99 | The length drops by the number of entries with the id, and cancelling twice equals once. |
| PatientDashboard.UpcomingCount | src/pages/Dashboard/PatientDashboard/PatientDashboard.jsx:141-142 | The number of appointments dated now or later. |
| PatientDashboard.ActiveCount | src/pages/Dashboard/PatientDashboard/PatientDashboard.jsx:147-148 | The number of prescriptions with status 'active'. |
| PatientDashboard.ActiveAndOtherPrescriptions | src/pages/Dashboard/PatientDashboard/PatientDashboard.jsx:147-148 | Active and non-active prescriptions add up to all of them. |
| PatientDashboard.Distinct | src/pages/Dashboard/PatientDashboard/PatientDashboard.jsx:145 | `[...new Set(xs)]`: the same values, with no repeats. |
| PatientDashboard.DistinctDoctorCount | src/pages/Dashboard/PatientDashboard/PatientDashboard.jsx:144-145 | At most the number of appointments, and positive when there are any. |
| PatientDashboard.DistinctDoctorCountIsSetSize | src/pages/Dashboard/PatientDashboard/PatientDashboard.jsx:144-145 | The count equals the number of distinct doctorId values. |
| PatientDashboard.CancelKeepsDoctorCountDown | src/pages/Dashboard/PatientDashboard/PatientDashboard.jsx:144-145 | Cancelling never raises the doctor count. |
| PatientDashboard.RowCancelMatchesBadge | src/pages/Dashboard/PatientDashboard/PatientDashboard.jsx:250-265 | A row offers Cancel exactly when its badge is neither success nor danger, and cancelling removes that row. |
| AppointmentStatus.BadgeClass | src/pages/Dashboard/PatientDashboard/PatientDashboard.jsx:250-253 | Confirmed, completed and cancelled map to primary, success and danger, and anything else to warning. |
| AppointmentStatus.CancellableByBadge | src/pages/Dashboard/PatientDashboard/PatientDashboard.jsx:250-265 | Cancel shows exactly for a primary or warning badge. |
| AppointmentStatus.Label | src/pages/Dashboard/PatientDashboard/PatientDashboard.jsx:255 | The first character in upper case, the rest unchanged; an already capitalised status is unchanged. |
| AppointmentDetails.Fallback | src/pages/Appointments/AppointmentDetails/AppointmentDetails.jsx:34-45 | The stand-in carries the route id and status 'confirmed'. |
| AppointmentDetails.LoadedAppointment | src/pages/Appointments/AppointmentDetails/AppointmentDetails.jsx:15-57 | A truthy body gives `data.data || data`; a falsy body or a rejection gives the stand-in. |
| AppointmentDetails.MentionsCastFailure | src/pages/Appointments/AppointmentDetails/AppointmentDetails.jsx:81 | `?.includes` is a substring test on text and an element test on arrays. It is false on a missing value and throws on any other value. |
| AppointmentDetails.HandleCancel | src/pages/Appointments/AppointmentDetails/AppointmentDetails.jsx:63-87 | A numeric id navigates without a request; otherwise it requests `/appointments/<route id>`. A 500 with the cast message navigates, and other failures show 'Failed to cancel appointment'. |
| AppointmentDetails.NumericRouteCancelsLocally | src/pages/Appointments/AppointmentDetails/AppointmentDetails.jsx:34-70 | A stand-in for a digit route id cancels with no request; any other stand-in goes to the server. |
| AppointmentDetails.CancelVisibleByBadge | src/pages/Appointments/AppointmentDetails/AppointmentDetails.jsx:154 | Cancel shows exactly for a present status with a primary or warning badge; the stand-in always shows it. |
| AppointmentDetails.Formatted | src/pages/Appointments/AppointmentDetails/AppointmentDetails.jsx:90-101 | A falsy input gives 'N/A', otherwise the locale's text. |
| AppointmentDetails.FallbackDateAndTime | src/pages/Appointments/AppointmentDetails/AppointmentDetails.jsx:34-45 | The stand-in's date is `2023-12-15` and its time `10:00`. |
| AppointmentDetails.FallbackShowsDateAndTime | src/pages/Appointments/AppointmentDetails/AppointmentDetails.jsx:90-101 | The stand-in's date and time lines never read 'N/A'. |
| AppointmentDetails.StatusText | src/pages/Appointments/AppointmentDetails/AppointmentDetails.jsx:214 | An absent status gives 'Pending' and text gives its label; any other value throws. |
| AppointmentDetails.StatusTextNeverEmpty | src/pages/Appointments/AppointmentDetails/AppointmentDetails.jsx:214 | A shown label is never empty. |
| Theme.InitialTheme | src/context/ThemeContext.jsx:9-20 | A non-empty saved theme wins; otherwise 'dark' exactly when the system prefers dark. |
| Theme.InitialFontSize | src/context/ThemeContext.jsx:23 | The saved size, or 'medium'. |
| Theme.Toggle | src/context/ThemeContext.jsx:49-51 | 'light' gives 'dark' and anything else gives 'light'. |
| Theme.ToggleInvolution | src/context/ThemeContext.jsx:49-51 | Toggling twice is the identity on light and dark. |
| Theme.SetSpecificTheme | src/context/ThemeContext.jsx:54-58 | Only 'light' and 'dark' are taken; anything else keeps the theme. |
| Theme.ChangeFontSize | src/context/ThemeContext.jsx:61-65 | Only small, medium and large are taken. |
| Theme.ThemeEffect | src/context/ThemeContext.jsx:26-36 | Sets the attribute and the stored value. Sets `dark-theme` exactly for 'dark' and touches no other class. |
| Theme.FontEffect | src/context/ThemeContext.jsx:39-46 | Sets the attribute and the stored value, leaves one font class for the size, and touches no other class. |
| Theme.EffectsIdempotent | src/context/ThemeContext.jsx:26-46 | Re-running either effect changes nothing. |
| Theme.Mount | src/context/ThemeContext.jsx:9-46 | Mounting gives the initial state and a consistent document and storage. |
| Theme.ActionsKeepConsistent | src/context/ThemeContext.jsx:26-65 | Every action followed by its effect keeps document and storage in step with the state. |
| Theme.OneFontClass | src/context/ThemeContext.jsx:44-45 | One of the three sizes gives exactly its font class; any other size gives none. |
| Theme.ReloadRestores | src/context/ThemeContext.jsx:9-23 | A reload reads back the stored theme and size, whatever the system prefers. |
| CookieManager.SetWritesPair | src/utils/cookieManager.js:2-5 | The text starts with `name=value` before the first `;` and ends with `max-age=` days times 86400. |
| CookieManager.RemoveWritesEmptyPair | src/utils/cookieManager.js:13-15 | The text starts with `name=` and ends with the 1970 expiry. |
| CookieManager.FirstMatch | src/utils/cookieManager.js:9 | The index of the first piece whose trimmed text starts with `name=`, or none when none does. |
| CookieManager.MatchHasEquals | src/utils/cookieManager.js:10 | A matching piece splits on `=` into at least two parts. |
| CookieManager.Find | src/utils/cookieManager.js:9-10 | Null exactly when no piece matches; otherwise the second `=`-part of the first match. |
| CookieManager.NameMatchesExactly | src/utils/cookieManager.js:9 | For names without `=`, `n=v` starts with `name=` exactly when n is name. |
| CookieManager.PieceMatches | src/utils/cookieManager.js:9 | A well-formed piece matches exactly its own name, so `tokens` and `xtoken` do not match `token`. |
| CookieManager.PieceValue | src/utils/cookieManager.js:10 | The value read is the value up to its first `=`: the whole value without `=`, and '' for an empty one. |
| CookieManager.GetFindsFirstNamed | src/utils/cookieManager.js:7-11 | On a cookie string of well-formed pieces, `get` returns the first named piece's truncated value, and null when no piece has the name. |

## Left out

- Requests, storage, navigation, timers and logging are not performed. Their outcomes are parameters and their effects are returned values.
- Each asynchronous handler is one atomic step. Overlapping requests and React's batching of state updates are not modelled.
- Dates and times are integers, and `now` is a parameter. `toLocaleDateString`/`toLocaleTimeString` output is an opaque string parameter. In `validateDate` the comparison with today's midnight is a boolean parameter.
- Floating point is left out: the doctor list's average rating (`toFixed`) and the doctor profile's stars.
- `toLowerCase`/`toUpperCase` change ASCII letters only; other scripts' case mappings are not modelled.
- Strings are sequences of Unicode scalar values. Where JavaScript counts UTF-16 code units (the index keys of a spread string, `length` checks) the two agree only on the Basic Multilingual Plane.
- Object keys are assumed distinct in a `Json` object; a duplicate key is read as its first occurrence. The fields of a `Json` object are in JavaScript's property enumeration order (integer-like keys first), not necessarily their order in the JSON text.
- src/utils/api.js is not part of this model beyond the list of functions `appointmentAPI` defines. The same goes for storage.js, UserContext.jsx and DoctorDashboard.jsx (fetch plumbing and mock data).
- The submit handler of Login.jsx refers to undefined variables and calls `login` twice; the model follows the provider's and the hook's `login` instead.
- Presentation-only pages and components (Home, About, Contact, Footer, Navbar, buttons, ForgotPassword's empty handler, the route table) have no logic to model.
- CreatePrescription's `fetchPatients` only loads the patient dropdown, so it is not modelled.
- PatientDashboard's `handleViewAppointment` (a plain navigation) and greeting are not modelled. Its `Array.isArray` guards, which count 0 for a non-array list, are not modelled either: the lists are sequences.
- PatientList.FetchPatients: a page count that is not a number reaches the pagination loop as it is; Pagination.PageItems takes an integer count.
- DoctorList.PrevDisabled: takes the current page as an integer. The page comes from the server through `|| 1` and may be a string, where `=== 1` is false and `currentPage - 1` converts it; this is not modelled.
- DoctorList.NextDisabled: takes both pages as integers. A string page from the server makes `currentPage + 1` a concatenation (`"2"` gives `"21"`), and `===` against a number is false; this is not modelled.
- AppointmentList.StatusFilter: the fetched entries are records, so a `null` entry, on which reading `status` throws, is not modelled. The same holds for PrescriptionList.StatusFilter.
- Pagination.PageItems: the numbered items only; their click handlers are HandlePageChange and the PatientList buttons.
- AppointmentDetails.HandleCancel: when `includes` throws inside the catch block the rejection goes unhandled; the model returns a result with no navigation and no error.
- CookieManager.SetWritesPair: `days` is an integer, while JavaScript accepts any number and writes its decimal text. The `Secure=` attribute is a flag the page computes from `location.protocol`.
- CookieManager.GetFindsFirstNamed covers cookie strings made of well-formed pieces (no `;` inside a piece, blank text only before a name); `Find` covers any string.
- How a browser turns the written `set`/`remove` text into the cookie string that `get` reads is not modelled.

## Findings

| source | as written | input that shows it | evidently intended | confidence | as-written member | corrected member |
|---|---|---|---|---|---|---|
| src/pages/Appointments/BookAppointment/BookAppointment.jsx:174-188 | The fallbacks call `appointmentAPI.createPatientAppointment` and `createAppointmentAlternative`, which src/utils/api.js:95-103 does not define. Calling them throws a `TypeError` before any request, so the error is swallowed with no message. | The first endpoint rejects the booking. | The alternatives are tried in turn, and the booking succeeds if any of them accepts. | not executed | BookAppointment.FallbackNeverReached | BookAppointment.FallbackReachesEveryEndpoint |

=== FILE: appointment_details.dfy ===
/**
  The appointment details page: the appointment it shows (the reply, or a stand-in
  carrying the route id when the request fails), the cancel flow that skips the request
  for numeric ids and treats an id-cast failure on the server as done, when the Cancel
  button shows, and the `N/A` and `Pending` fallbacks.
 */
module AppointmentDetails {
  import opened Wrappers
  import opened Strings
  import opened Json
  import AppointmentStatus

  const DashboardPath := "/patient-dashboard"
  const CancelFailed := "Failed to cancel appointment"
  const CastFailure := "Cast to ObjectId failed"

  // ---------------------------------------------------------------------------------------
  // Loading
  // ---------------------------------------------------------------------------------------

  /** The properties of the stand-in, in the order the mock object lists them. */
  function MockFields(routeId: string): seq<(string, Json)> {
    [("_id", JStr(routeId)), ("date", JStr("2023-12-15")), ("time", JStr("10:00")),
     ("doctorName", JStr("Dr. Sarah Johnson")), ("doctorId", JStr("101")),
     ("department", JStr("Cardiology")), ("status", JStr("confirmed")),
     ("notes", JStr("Regular checkup appointment")), ("location", JStr("Main Hospital, Room 305")),
     ("duration", JNum(30))]
  }

  /** The stand-in shown when the request fails: a confirmed appointment with the route id. */
  function Fallback(routeId: string): (a: Json)
    ensures a.JObj? && Get(a, "_id") == Some(JStr(routeId)) && Get(a, "status") == Some(JStr("confirmed"))
  {
    LookupFirst(MockFields(routeId), "_id", 0);
    LookupFirst(MockFields(routeId), "status", 6);
    JObj(MockFields(routeId))
  }

  /** The stand-in's date and time. */
  lemma FallbackDateAndTime(routeId: string)
    ensures Get(Fallback(routeId), "date") == Some(JStr("2023-12-15"))
    ensures Get(Fallback(routeId), "time") == Some(JStr("10:00"))
  {
    LookupFirst(MockFields(routeId), "date", 1);
    LookupFirst(MockFields(routeId), "time", 2);
  }

  /**
    `fetchAppointmentDetails()`: `reply` is the response body, `None` when the request
    rejects. A truthy body gives `data.data || data`; a falsy one, or a rejection, the
    stand-in.
   */
  function LoadedAppointment(routeId: string, reply: Option<Json>): (a: Json)
    ensures reply.Some? && Truthy(reply.value) ==> a == OrElse(Get(reply.value, "data"), reply.value) && Truthy(a)
    ensures !(reply.Some? && Truthy(reply.value)) ==> a == Fallback(routeId)
  {
    if reply.Some? && Truthy(reply.value) then OrElse(Get(reply.value, "data"), reply.value)
    else Fallback(routeId)
  }

  // ---------------------------------------------------------------------------------------
  // Cancelling
  // ---------------------------------------------------------------------------------------

  /** `/^[0-9]+$/.test(text)` */
  predicate Numeric(text: string) {
    |text| > 0 && AllDigits(text)
  }

  /** `appointment._id && /^[0-9]+$/.test(appointment._id)`: the test reads the id as text. */
  predicate IsMockId(appointment: Json) {
    var id := Get(appointment, "_id");
    id.Some? && Truthy(id.value) && Numeric(Text(id.value))
  }

  /** A failed cancel: `err.response?.status` and `err.response?.data?.error`. */
  datatype CancelReply = CancelDone | CancelError(status: Option<int>, error: Option<Json>)

  /**
    `error?.includes('Cast to ObjectId failed')`: a substring test on a string, an element
    test on an array, nothing on `null` or an absent value; on any other value `includes`
    is not a function and the call throws (`None`).
   */
  function MentionsCastFailure(error: Option<Json>): (r: Option<bool>)
    ensures error.None? || error == Some(JNull) ==> r == Some(false)
    ensures error.Some? && error.value.JStr? ==> r == Some(Includes(error.value.s, CastFailure))
    ensures error.Some? && error.value.JArr? ==> r == Some(JStr(CastFailure) in error.value.items)
    ensures r.None? <==> error.Some? && !(error.value.JNull? || error.value.JStr? || error.value.JArr?)
  {
    match error
    case None => Some(false)
    case Some(JNull) => Some(false)
    case Some(JStr(s)) => Some(Includes(s, CastFailure))
    case Some(JArr(items)) => Some(JStr(CastFailure) in items)
    case Some(_) => None
  }

  /** The request sent (its path), where the page navigates to, and the error it shows. */
  datatype CancelResult = CancelResult(request: Option<string>, navigate: Option<string>, error: Option<string>)

  /**
    `handleCancelAppointment()`. The mock test reads the loaded appointment's `_id`, the
    request uses the route id. A failure navigates anyway when the server answered 500
    with the id-cast message; when that test itself throws, the handler stops with
    nothing shown.
   */
  function HandleCancel(appointment: Json, routeId: string, reply: CancelReply): (r: CancelResult)
    ensures appointment.JNull? ==> r == CancelResult(None, None, Some(CancelFailed))
    ensures IsMockId(appointment) ==> r == CancelResult(None, Some(DashboardPath), None)
    ensures !appointment.JNull? && !IsMockId(appointment) ==> r.request == Some("/appointments/" + routeId)
    ensures r.navigate.Some? ==> r.navigate == Some(DashboardPath) && r.error.None?
    ensures r.error.Some? ==> r.error == Some(CancelFailed) && r.navigate.None?
    ensures !appointment.JNull? && !IsMockId(appointment) && reply.CancelDone? ==> r.navigate == Some(DashboardPath)
    ensures !appointment.JNull? && !IsMockId(appointment) && reply.CancelError? ==>
              (r.navigate.Some? <==> reply.status == Some(500) && MentionsCastFailure(reply.error) == Some(true))
              && (r.error.Some? <==> reply.status != Some(500) || MentionsCastFailure(reply.error) == Some(false))
  {
    if appointment.JNull? then CancelResult(None, None, Some(CancelFailed))
    else if IsMockId(appointment) then CancelResult(None, Some(DashboardPath), None)
    else
      var request := Some("/appointments/" + routeId);
      match reply
      case CancelDone => CancelResult(request, Some(DashboardPath), None)
      case CancelError(status, error) =>
        if status != Some(500) then CancelResult(request, None, Some(CancelFailed))
        else
          match MentionsCastFailure(error)
          case Some(true) => CancelResult(request, Some(DashboardPath), None)
          case Some(false) => CancelResult(request, None, Some(CancelFailed))
          case None => CancelResult(request, None, None)
  }

  /**
    When loading fails for a route id made of digits, the stand-in carries that id, so
    cancelling it returns to the dashboard without any request; for any other route id the
    stand-in is cancelled through the server.
   */
  lemma NumericRouteCancelsLocally(routeId: string, reply: CancelReply)
    ensures Numeric(routeId) ==> HandleCancel(Fallback(routeId), routeId, reply) == CancelResult(None, Some(DashboardPath), None)
    ensures !Numeric(routeId) ==> HandleCancel(Fallback(routeId), routeId, reply).request == Some("/appointments/" + routeId)
  {
    assert Text(JStr(routeId)) == routeId;
    assert Truthy(JStr(routeId)) <==> routeId != "";
  }

  // ---------------------------------------------------------------------------------------
  // Display
  // ---------------------------------------------------------------------------------------

  /** `appointment.status && status !== 'completed' && status !== 'cancelled'` */
  predicate CancelVisible(appointment: Json) {
    var status := Get(appointment, "status");
    status.Some? && Truthy(status.value) && AppointmentStatus.Cancellable(status)
  }

  /**
    The button shows exactly for a present, non-empty status that is neither completed nor
    cancelled, which is a status whose badge is blue or yellow; the stand-in always has it.
   */
  lemma CancelVisibleByBadge(appointment: Json, routeId: string)
    ensures CancelVisible(appointment) <==>
              && Get(appointment, "status").Some? && Truthy(Get(appointment, "status").value)
              && AppointmentStatus.BadgeClass(Get(appointment, "status")) in {AppointmentStatus.Primary, AppointmentStatus.Warning}
    ensures CancelVisible(Fallback(routeId))
  {
    AppointmentStatus.CancellableByBadge(Get(appointment, "status"));
  }

  /** `formatDate(x)` and `formatTime(x)`: `N/A` for a falsy value, else the locale's text. */
  function Formatted(value: Option<Json>, localized: string): (r: string)
    ensures !(value.Some? && Truthy(value.value)) ==> r == "N/A"
    ensures value.Some? && Truthy(value.value) ==> r == localized
  {
    if value.Some? && Truthy(value.value) then localized else "N/A"
  }

  /**
    The stand-in carries a date and a time, so its details never read `N/A`: both lines
    show the locale's text.
   */
  lemma FallbackShowsDateAndTime(routeId: string, date: string, time: string)
    ensures Formatted(Get(Fallback(routeId), "date"), date) == date
    ensures Formatted(Get(Fallback(routeId), "time"), time) == time
  {
    FallbackDateAndTime(routeId);
    assert Truthy(JStr("2023-12-15")) && Truthy(JStr("10:00"));
  }

  /**
    The badge text: the capitalised status when it is a non-empty string, `Pending` when
    it is absent or falsy; any other truthy value has no `charAt`, and the render throws.
   */
  function StatusText(status: Option<Json>): (r: Option<string>)
    ensures !(status.Some? && Truthy(status.value)) ==> r == Some("Pending")
    ensures status.Some? && status.value.JStr? && status.value.s != "" ==> r == Some(AppointmentStatus.Label(status.value.s))
    ensures r.None? <==> status.Some? && Truthy(status.value) && !status.value.JStr?
  {
    if !(status.Some? && Truthy(status.value)) then Some("Pending")
    else if status.value.JStr? then Some(AppointmentStatus.Label(status.value.s))
    else None
  }

  /** A shown label is never empty: either `Pending` or a capitalised, non-empty status. */
  lemma StatusTextNeverEmpty(status: Option<Json>)
    requires StatusText(status).Some?
    ensures StatusText(status).value != ""
  {
  }
}

=== FILE: appointment_list.dfy ===
/**
  The patient's appointment list: the status filter applied to the fetched list (with the
  current time a parameter), the search over doctor name and reason, the cancel-by-id
  update, and which rows offer the cancel and details actions.
 */
module AppointmentList {
  import opened Wrappers
  import opened Strings
  import opened Backend
  import opened Json
  import Lists
  import Session

  /**
    An appointment as the page reads it. `dateTime` is `new Date(app.dateTime)` as a time
    value, `None` when it is not a valid date (every comparison with it is then false).
    `doctorName` is `doctor?.name` (`None` when `doctor` is missing, `null` or has no `name`) and `reason`
    the `reason` property, as decoded JSON.
   */
  datatype Appointment = Appointment(id: string, status: Option<string>, dateTime: Option<int>,
                                     doctorName: Option<Json>, reason: Option<Json>)

  const Cancelled := "cancelled"

  /** `app.status === 'scheduled' && new Date(app.dateTime) > new Date()` */
  predicate Upcoming(a: Appointment, now: int) {
    a.status == Some("scheduled") && a.dateTime.Some? && a.dateTime.value > now
  }

  /** `new Date(app.dateTime) < new Date() || app.status === 'completed'` */
  predicate Past(a: Appointment, now: int) {
    (a.dateTime.Some? && a.dateTime.value < now) || a.status == Some("completed")
  }

  /** Whether the filter named `filter` keeps `a`; `all` and unknown names keep everything. */
  predicate Kept(filter: string, now: int, a: Appointment) {
    if filter == "upcoming" then Upcoming(a, now)
    else if filter == "past" then Past(a, now)
    else if filter == "cancelled" then a.status == Some(Cancelled)
    else true
  }

  /** The filter `fetchAppointments` applies to `response.data.data`. */
  function StatusFilter(apps: seq<Appointment>, filter: string, now: int): (r: seq<Appointment>)
    ensures forall i :: 0 <= i < |r| ==> r[i] in apps && Kept(filter, now, r[i])
    ensures forall i :: 0 <= i < |apps| && Kept(filter, now, apps[i]) ==> apps[i] in r
    ensures Lists.SubsequenceOf(r, apps)
    ensures filter != "upcoming" && filter != "past" && filter != "cancelled" ==> r == apps
    ensures forall a :: multiset(r)[a] == if Kept(filter, now, a) then multiset(apps)[a] else 0
  {
    Lists.FilterIsSubsequence(apps, a => Kept(filter, now, a));
    Lists.Filter(apps, a => Kept(filter, now, a))
  }

  /** No appointment is both upcoming and past, so the two filters never share an entry. */
  lemma UpcomingPastDisjoint(apps: seq<Appointment>, now: int)
    ensures forall i, j :: 0 <= i < |StatusFilter(apps, "upcoming", now)| && 0 <= j < |StatusFilter(apps, "past", now)| ==>
              StatusFilter(apps, "upcoming", now)[i] != StatusFilter(apps, "past", now)[j]
  {
  }

  /** Reading the doctor name or the reason of `a` with `?.toLowerCase()` throws. */
  predicate Throws(a: Appointment) {
    LowerOrEmpty(a.doctorName).None? || LowerOrEmpty(a.reason).None?
  }

  /** The search callback's answer for an appointment on which it does not throw. */
  predicate Matches(a: Appointment, termLower: string) {
    Includes(LowerOrEmpty(a.doctorName).GetOr(""), termLower) || Includes(LowerOrEmpty(a.reason).GetOr(""), termLower)
  }

  /**
    The search box: `None` when the callback throws on any appointment, which fails the
    render; otherwise the appointments whose lower-cased doctor name or reason contains the
    lower-cased term, in order.
   */
  function Search(apps: seq<Appointment>, term: string): (r: Option<seq<Appointment>>)
    ensures r.None? <==> exists i :: 0 <= i < |apps| && Throws(apps[i])
    ensures r.Some? ==> forall i :: 0 <= i < |r.value| ==> r.value[i] in apps && Matches(r.value[i], ToLower(term))
    ensures r.Some? ==> forall i :: 0 <= i < |apps| && Matches(apps[i], ToLower(term)) ==> apps[i] in r.value
    ensures r.Some? ==> Lists.SubsequenceOf(r.value, apps)
    ensures r.Some? && term == "" ==> r.value == apps
  {
    if exists i :: 0 <= i < |apps| && Throws(apps[i]) then None
    else
      Lists.FilterIsSubsequence(apps, a => Matches(a, ToLower(term)));
      EmptyTermMatchesAll(apps, term);
      Some(Lists.Filter(apps, a => Matches(a, ToLower(term))))
  }

  lemma EmptyTermMatchesAll(apps: seq<Appointment>, term: string)
    ensures term == "" ==> forall i :: 0 <= i < |apps| ==> Matches(apps[i], ToLower(term))
  {
    if term == "" {
      forall i | 0 <= i < |apps| ensures Matches(apps[i], ToLower(term)) {
        IncludesEmpty(LowerOrEmpty(apps[i].doctorName).GetOr(""));
      }
    }
  }

  /**
    What the page lists, when it renders: the search applied to the filtered fetch, a
    subsequence of what was fetched.
   */
  lemma DisplayedIsSubsequence(fetched: seq<Appointment>, filter: string, now: int, term: string)
    ensures Search(StatusFilter(fetched, filter, now), term).Some? ==>
              Lists.SubsequenceOf(Search(StatusFilter(fetched, filter, now), term).value, fetched)
  {
    var f := StatusFilter(fetched, filter, now);
    if Search(f, term).Some? {
      Lists.SubsequenceTransitive(Search(f, term).value, f, fetched);
    }
  }

  /** A doctor name or reason that is present but neither `null` nor a string fails the whole search. */
  lemma NonTextFieldFailsSearch(apps: seq<Appointment>, j: nat, term: string)
    requires j < |apps|
    requires || (apps[j].doctorName.Some? && !apps[j].doctorName.value.JNull? && !apps[j].doctorName.value.JStr?)
             || (apps[j].reason.Some? && !apps[j].reason.value.JNull? && !apps[j].reason.value.JStr?)
    ensures Search(apps, term).None?
  {
    assert Throws(apps[j]);
  }

  /** `appointments.map(app => app._id === id ? {...app, status: 'cancelled'} : app)` */
  function CancelById(apps: seq<Appointment>, id: string): (r: seq<Appointment>)
    ensures |r| == |apps|
    ensures forall i :: 0 <= i < |apps| ==> r[i].id == apps[i].id && r[i].dateTime == apps[i].dateTime
                                             && r[i].doctorName == apps[i].doctorName && r[i].reason == apps[i].reason
    ensures forall i :: 0 <= i < |apps| ==> r[i].status == if apps[i].id == id then Some(Cancelled) else apps[i].status
  {
    seq(|apps|, i requires 0 <= i < |apps| => if apps[i].id == id then apps[i].(status := Some(Cancelled)) else apps[i])
  }

  /**
    After a cancel every entry with that id is cancelled and shows no actions, the rest are
    untouched, and cancelling again changes nothing.
   */
  lemma CancelSettlesTheId(apps: seq<Appointment>, id: string, now: int)
    ensures forall i :: 0 <= i < |apps| && apps[i].id == id ==>
              Kept("cancelled", now, CancelById(apps, id)[i]) && !CanAct(CancelById(apps, id)[i], now)
    ensures forall i :: 0 <= i < |apps| && apps[i].id != id ==> CancelById(apps, id)[i] == apps[i]
    ensures CancelById(CancelById(apps, id), id) == CancelById(apps, id)
  {
    var r := CancelById(apps, id);
    forall i | 0 <= i < |apps| && apps[i].id != id ensures r[i] == apps[i] {
      assert r[i].status == apps[i].status;
    }
  }

  /** The body of the delete call: done, or rejected with `err.response?.data?.message`. */
  datatype CancelReply = Deleted | DeleteFailed(message: Option<string>)

  /** The list afterwards, the path of the delete request if one was sent, and the alert shown, if any. */
  datatype CancelResult = CancelResult(appointments: seq<Appointment>, request: Option<string>, alert: Option<string>)

  /** `handleCancelAppointment(id)`, with the answer to `window.confirm` a parameter. */
  function HandleCancel(apps: seq<Appointment>, id: string, confirmed: bool, reply: CancelReply): (r: CancelResult)
    ensures !confirmed ==> r == CancelResult(apps, None, None)
    ensures confirmed ==> r.request == Some("/api/patients/appointments/" + id)
    ensures confirmed && reply.Deleted? ==> r.appointments == CancelById(apps, id) && r.alert.None?
    ensures confirmed && reply.DeleteFailed? ==>
              r.appointments == apps && r.alert == Some(MessageOr(reply.message, "Failed to cancel appointment"))
  {
    if !confirmed then CancelResult(apps, None, None)
    else
      var request := Some("/api/patients/appointments/" + id);
      match reply
      case Deleted => CancelResult(CancelById(apps, id), request, None)
      case DeleteFailed(m) => CancelResult(apps, request, Some(MessageOr(m, "Failed to cancel appointment")))
  }

  /** `appointment.status === 'scheduled' && new Date(appointment.dateTime) > new Date()`: the row shows its actions. */
  predicate CanAct(a: Appointment, now: int) {
    a.status == Some("scheduled") && a.dateTime.Some? && now < a.dateTime.value
  }

  /** A row shows the cancel and details actions exactly when the `upcoming` filter would keep it. */
  lemma ActionsExactlyForUpcoming(apps: seq<Appointment>, now: int, i: nat)
    requires i < |apps|
    ensures CanAct(apps[i], now) <==> apps[i] in StatusFilter(apps, "upcoming", now)
  {
    var r := StatusFilter(apps, "upcoming", now);
    if apps[i] in r {
      var k :| 0 <= k < |r| && r[k] == apps[i];
    }
  }

  /** A badge: its Bootstrap background and its text. */
  datatype Badge = Badge(bg: string, text: string)

  /** `getStatusBadge(status)`; an absent status renders as empty text. */
  function StatusBadge(status: Option<string>): (b: Badge)
    ensures status == Some("scheduled") ==> b == Badge("primary", "Scheduled")
    ensures status == Some("completed") ==> b == Badge("success", "Completed")
    ensures status == Some(Cancelled) ==> b == Badge("danger", "Cancelled")
    ensures status != Some("scheduled") && status != Some("completed") && status != Some(Cancelled) ==>
              b == Badge("secondary", status.GetOr(""))
  {
    match status
    case Some("scheduled") => Badge("primary", "Scheduled")
    case Some("completed") => Badge("success", "Completed")
    case Some("cancelled") => Badge("danger", "Cancelled")
    case _ => Badge("secondary", status.GetOr(""))
  }

  /**
    A row offering actions wears the blue `Scheduled` badge, and after a cancel every row
    with that id wears the red `Cancelled` one while the others keep theirs.
   */
  lemma BadgesFollowCancel(apps: seq<Appointment>, id: string, now: int)
    ensures forall i :: 0 <= i < |apps| && CanAct(apps[i], now) ==> StatusBadge(apps[i].status) == Badge("primary", "Scheduled")
    ensures forall i :: 0 <= i < |apps| ==>
              StatusBadge(CancelById(apps, id)[i].status) ==
                (if apps[i].id == id then Badge("danger", "Cancelled") else StatusBadge(apps[i].status))
  {
  }

  /** The filters under which `fetchAppointments` calls `.filter` on the fetched value. */
  predicate CallsFilter(filter: string) {
    filter == "upcoming" || filter == "past" || filter == "cancelled"
  }

  /**
    The page's state. `appointments` is `None` once it holds a fetched value that is not an
    array: the render's `appointments.filter(…)` then throws.
   */
  datatype ListState = ListState(appointments: Option<seq<Appointment>>, loading: bool, error: Option<string>)

  /**
    The list request's outcome: `Loaded` when `response.data.data` is an array; `NotAList`
    when it is not, with `hasBody` false when `response.data` itself is null or absent, so
    that reading `.data` from it throws; or a rejection with `err.response?.data?.message`.
   */
  datatype FetchReply = Loaded(data: seq<Appointment>) | NotAList(hasBody: bool) | FetchFailed(message: Option<string>)

  /**
    `fetchAppointments()`: no request without a token; an array reply replaces the list with
    its filtered data. A value that is not an array makes `.filter` throw under the three
    status filters, and the catch, finding no `response` on the `TypeError`, shows the
    generic message; under any other filter the value is stored as it came.
   */
  function FetchAppointments(st: ListState, store: Session.Store, filter: string, now: int, reply: FetchReply): (r: ListState)
    ensures !r.loading
    ensures !Session.HasToken(store) ==> r == st.(error := Some("Authentication required"), loading := false)
    ensures Session.HasToken(store) && reply.Loaded? ==>
              r.appointments.Some? && r.error == st.error
              && Lists.SubsequenceOf(r.appointments.value, reply.data)
              && forall i :: 0 <= i < |r.appointments.value| ==> Kept(filter, now, r.appointments.value[i])
    ensures Session.HasToken(store) && reply.Loaded? ==>
              && r.appointments == Some(StatusFilter(reply.data, filter, now))
              && forall i :: 0 <= i < |reply.data| && Kept(filter, now, reply.data[i]) ==> reply.data[i] in r.appointments.value
    ensures Session.HasToken(store) && reply.NotAList? && (!reply.hasBody || CallsFilter(filter)) ==>
              r.appointments == st.appointments && r.error == Some("Failed to fetch appointments")
    ensures Session.HasToken(store) && reply.NotAList? && reply.hasBody && !CallsFilter(filter) ==>
              r.appointments.None? && r.error == st.error
    ensures Session.HasToken(store) && reply.FetchFailed? ==>
              r.appointments == st.appointments && r.error == Some(MessageOr(reply.message, "Failed to fetch appointments"))
  {
    if !Session.HasToken(store) then st.(error := Some("Authentication required"), loading := false)
    else
      match reply
      case Loaded(data) => st.(appointments := Some(StatusFilter(data, filter, now)), loading := false)
      case NotAList(hasBody) =>
        if !hasBody || CallsFilter(filter) then st.(error := Some("Failed to fetch appointments"), loading := false)
        else st.(appointments := None, loading := false)
      case FetchFailed(m) => st.(error := Some(MessageOr(m, "Failed to fetch appointments")), loading := false)
  }

  /**
    A fetch replaces the list only when it is signed in and either got an array or stored a
    non-array as it came; then the page can render exactly when the reply was an array.
    Otherwise it keeps what it held.
   */
  lemma UnrenderableExactly(st: ListState, store: Session.Store, filter: string, now: int, reply: FetchReply)
    ensures FetchAppointments(st, store, filter, now, reply).appointments.None? <==>
              if Session.HasToken(store) && (reply.Loaded? || (reply == NotAList(true) && !CallsFilter(filter)))
              then reply.NotAList? else st.appointments.None?
  {
  }
}

=== FILE: appointment_status.dfy ===
/**
  How an appointment's status is shown on the patient dashboard and on the appointment
  details page: the badge colour chosen by a chain of strict comparisons, the capitalised
  label, and whether the appointment can still be cancelled.
 */
module AppointmentStatus {
  import opened Wrappers
  import opened Strings
  import opened Json

  const Primary := "bg-primary"
  const Success := "bg-success"
  const Danger := "bg-danger"
  const Warning := "bg-warning"

  /**
    `status === 'confirmed' ? 'bg-primary' : status === 'completed' ? 'bg-success' :
    status === 'cancelled' ? 'bg-danger' : 'bg-warning'`; `None` is an absent status.
   */
  function BadgeClass(status: Option<Json>): (c: string)
    ensures c in {Primary, Success, Danger, Warning}
    ensures c == Primary <==> status == Some(JStr("confirmed"))
    ensures c == Success <==> status == Some(JStr("completed"))
    ensures c == Danger <==> status == Some(JStr("cancelled"))
  {
    if status == Some(JStr("confirmed")) then Primary
    else if status == Some(JStr("completed")) then Success
    else if status == Some(JStr("cancelled")) then Danger
    else Warning
  }

  /** `status !== 'completed' && status !== 'cancelled'` */
  predicate Cancellable(status: Option<Json>) {
    status != Some(JStr("completed")) && status != Some(JStr("cancelled"))
  }

  /**
    An appointment can be cancelled exactly when its badge is neither the completed nor the
    cancelled colour, so every warning-coloured (unknown or absent) status can be cancelled.
   */
  lemma CancellableByBadge(status: Option<Json>)
    ensures Cancellable(status) <==> BadgeClass(status) != Success && BadgeClass(status) != Danger
    ensures BadgeClass(status) == Warning ==> Cancellable(status)
  {
  }

  /**
    `status.charAt(0).toUpperCase() + status.slice(1)`: the first character upper-cased,
    the rest as it came; a status that already starts with a capital is shown unchanged.
   */
  function Label(status: string): (r: string)
    ensures |r| == |status|
    ensures |status| > 0 ==> !IsLower(r[0]) && r[1..] == status[1..]
    ensures |status| > 0 && IsLower(status[0]) ==> IsUpper(r[0])
    ensures |status| > 0 && !IsLower(status[0]) ==> r == status
  {
    var r := Capitalize(status);
    assert |status| > 0 ==> r == [r[0]] + r[1..] && status == [status[0]] + status[1..];
    r
  }
}

=== FILE: auth_context.dfy ===
/**
  The authentication provider: startup verification of a stored token, login, register,
  logout, the two password-reset requests and the profile update, as transitions of
  `Session.State` and the token slot. The provider never touches `loading` after startup.
 */
module AuthContext {
  import opened Wrappers
  import opened Users
  import opened Backend
  import opened Session
  import RouteGuard

  /** `checkLoggedIn`: verify a stored token once, on mount. */
  function CheckLoggedIn(stored: Store, reply: Outcome<Option<User>>): (s: Step<()>)
    ensures !HasToken(stored) ==> s.inflight.None? && s.store == stored && s.state.currentUser.None?
    ensures HasToken(stored) ==> s.inflight == Some(Initial)
    ensures HasToken(stored) && reply.Success? ==> s.state.currentUser == reply.payload && s.store == stored
    ensures HasToken(stored) && !reply.Success? ==> s.store.None? && s.state.currentUser.None?
    ensures !s.state.loading && s.state.error.None? && s.navigate.None?
    ensures UserHasToken(s.state, s.store)
  {
    if !HasToken(stored) then
      Step(None, Initial.(loading := false), stored, None, ())
    else
      match reply
      case Success(u) => Step(Some(Initial), State(u, false, None), stored, None, ())
      case _ => Step(Some(Initial), State(None, false, None), None, None, ())
  }

  /** `login(email, password)` */
  function Login(st: State, store: Store, reply: Outcome<LoginReply>): (s: Step<Option<LoginReply>>)
    ensures s.inflight == Some(st.(error := None))
    ensures s.state.loading == st.loading
    ensures reply.Success? && reply.payload.user.Some? ==>
              && s.store == Some(StoredText(reply.payload.token))
              && s.state.currentUser == reply.payload.user
              && s.state.error.None?
              && s.navigate == Some(HomePath(RoleOf(reply.payload.user.value)))
              && s.result == Some(reply.payload)
    ensures reply.Success? && reply.payload.user.None? ==>
              && s.store == Some(StoredText(reply.payload.token))
              && s.state.currentUser.None?
              && s.state.error == Some("Login failed. Please try again.")
              && s.navigate.None?
    ensures reply.Failure? ==>
              && s.store == store && s.state.currentUser == st.currentUser && s.navigate.None? && s.result.None?
              && s.state.error == Some(MessageOr(reply.message, "Login failed"))
    ensures reply.Thrown? ==>
              && s.store == store && s.state.currentUser == st.currentUser && s.navigate.None? && s.result.None?
              && s.state.error == Some(MessageOr(reply.message, "Login failed. Please try again."))
    ensures s.result.Some? <==> reply.Success? && reply.payload.user.Some?
  {
    LoginFrom(st.(error := None), store, reply)
  }

  /** `register(userData)`: never signs the user in. */
  function Register<P>(st: State, store: Store, reply: Outcome<P>): (s: Step<Option<P>>)
    ensures s.inflight == Some(st.(error := None))
    ensures s.store == store && s.state.currentUser == st.currentUser && s.state.loading == st.loading
    ensures s.navigate.None?
    ensures s.result.Some? <==> reply.Success?
    ensures reply.Success? ==> s.result == Some(reply.payload) && s.state.error.None?
    ensures reply.Failure? ==> s.state.error == Some(MessageOr(reply.message, "Registration failed"))
    ensures reply.Thrown? ==> s.state.error == Some(MessageOr(reply.message, "Registration failed. Please try again."))
  {
    RequestFrom(st.(error := None), store, reply, "Registration failed", "Registration failed. Please try again.")
  }

  /** `logout()` */
  function Logout(st: State, store: Store): (s: Step<()>)
    ensures s.store.None? && s.state.currentUser.None? && s.navigate == Some("/login")
    ensures s.inflight.None?
    ensures s.state.loading == st.loading && s.state.error == st.error
  {
    SignOut(st)
  }

  /**
    `requestPasswordReset` and `resetPassword` return the reply body whatever its `success`
    flag says; only a rejected request sets `error`.
   */
  function PassThrough<P>(st: State, store: Store, reply: Outcome<P>, thrown: string): (s: Step<Option<Outcome<P>>>)
    ensures s.inflight == Some(st.(error := None))
    ensures s.state.currentUser == st.currentUser && s.store == store && s.navigate.None?
    ensures !reply.Thrown? ==> s.result == Some(reply) && s.state.error.None?
    ensures reply.Thrown? ==> s.result.None? && s.state.error == Some(MessageOr(reply.message, thrown))
  {
    var pending := st.(error := None);
    if reply.Thrown? then Step(Some(pending), pending.(error := Some(MessageOr(reply.message, thrown))), store, None, None)
    else Step(Some(pending), pending, store, None, Some(reply))
  }

  function RequestPasswordReset<P>(st: State, store: Store, reply: Outcome<P>): Step<Option<Outcome<P>>> {
    PassThrough(st, store, reply, "Failed to request password reset")
  }

  function ResetPassword<P>(st: State, store: Store, reply: Outcome<P>): Step<Option<Outcome<P>>> {
    PassThrough(st, store, reply, "Failed to reset password")
  }

  /**
    `updateProfile(userData)`: sends the stored token whatever it is; a success shallow-merges
    the returned user into the current one, a failure keeps the user and sets `error`.
   */
  function UpdateProfile(st: State, store: Store, reply: Outcome<ProfileReply>): (s: Step<Option<ProfileReply>>)
    ensures s.inflight == Some(st.(error := None))
    ensures s.store == store && s.navigate.None?
    ensures reply.Success? ==> s.state.currentUser == Some(Merge(st.currentUser, reply.payload.user)) && s.state.error.None?
    ensures !reply.Success? ==> s.state.currentUser == st.currentUser && s.result.None?
    ensures !reply.Success? ==> s.state.error == Some(MessageOr(reply.message, "Failed to update profile"))
  {
    ProfileFrom(st.(error := None), store, reply, "Failed to update profile", "Failed to update profile")
  }

  /** Logging out twice leaves the same state, storage and navigation as logging out once. */
  lemma LogoutIdempotent(st: State, store: Store)
    ensures Logout(Logout(st, store).state, Logout(st, store).store) == Logout(st, store)
  {
  }

  /**
    Every transition except a profile update on a signed-out session keeps the rule that a
    current user comes with an occupied token slot.
   */
  lemma UserHasTokenPreserved(st: State, store: Store, login: Outcome<LoginReply>, other: Outcome<()>,
                              profile: Outcome<ProfileReply>)
    requires UserHasToken(st, store)
    ensures UserHasToken(Login(st, store, login).state, Login(st, store, login).store)
    ensures UserHasToken(Register(st, store, other).state, Register(st, store, other).store)
    ensures UserHasToken(Logout(st, store).state, Logout(st, store).store)
    ensures UserHasToken(RequestPasswordReset(st, store, other).state, RequestPasswordReset(st, store, other).store)
    ensures UserHasToken(ResetPassword(st, store, other).state, ResetPassword(st, store, other).store)
    ensures st.currentUser.Some? ==>
              UserHasToken(UpdateProfile(st, store, profile).state, UpdateProfile(st, store, profile).store)
  {
  }

  /**
    On a signed-out session with an empty token slot, a successful profile update reply still
    produces a current user (`{...null, ...user}` is an object), so the rule above needs its
    precondition.
   */
  lemma UpdateProfileSignedOut(st: State)
    requires st.currentUser.None?
    ensures UpdateProfile(st, None, Success(ProfileReply(None))).state.currentUser == Some(User(map[]))
    ensures !UserHasToken(UpdateProfile(st, None, Success(ProfileReply(None))).state, None)
  {
  }

  /**
    A successful login navigates to the same place the route guard sends that user when they
    open another role's route: the user's own dashboard.
   */
  lemma LoginHomeIsGuardTarget(st: State, store: Store, d: LoginReply, required: string, location: string)
    requires d.user.Some? && required != "" && RoleOf(d.user.value) != Some(required)
    ensures Login(st, store, Success(d)).navigate ==
              Some(RouteGuard.Decide(false, d.user, Some(required), location).path)
  {
  }
}

=== FILE: backend.dfy ===
/**
  What a call to the backend can come back with. The HTTP round trip itself is not
  modelled: every operation that sends a request takes its outcome as a parameter.
 */
module Backend {
  import opened Wrappers

  /**
    `Success(payload)`: the reply body has a truthy `success` flag.
    `Failure(message)`: the request resolved but `success` was falsy; `message` is the body's `message`.
    `Thrown(message)`: the request rejected; `message` is `err.response?.data?.message`.
   */
  datatype Outcome<+P> = Success(payload: P) | Failure(message: Option<string>) | Thrown(message: Option<string>)

  /** `message || fallback`: a missing or empty server message gives way to the fallback text. */
  function MessageOr(message: Option<string>, fallback: string): string {
    if message.Some? && message.value != "" then message.value else fallback
  }
}

=== FILE: book_appointment.dfy ===
/**
  The patient's booking page: the redirect to the login page for a visitor, the doctor and
  time-slot lists it extracts from loosely shaped responses (falling back to half-hour
  slots from 09:00 to 16:30), and the submission that tries a sequence of creation
  endpoints and stops at the first that accepts.
 */
module BookAppointment {
  import opened Wrappers
  import opened Strings
  import opened Json
  import opened Backend
  import Uri

  datatype Form = Form(doctorId: string, date: string, timeSlot: string, reason: string)

  datatype Page = Page(form: Form, doctors: seq<Json>, availableSlots: seq<Json>,
                       loading: bool, error: Option<string>, success: bool)

  const AuthRequired := "Authentication required. Please log in to book an appointment."
  const RedirectPrefix := "/login?redirect="
  const NoDoctors := "No doctors available at this time"
  const InvalidResponse := "Invalid API response"
  const DashboardPath := "/patient-dashboard"

  // ---------------------------------------------------------------------------------------
  // Visitors
  // ---------------------------------------------------------------------------------------

  /** `/login?redirect=${encodeURIComponent(location.pathname + location.search)}` */
  function LoginRedirect(pathname: string, search: string): string {
    RedirectPrefix + Uri.Encode(pathname + search)
  }

  /**
    The redirect carries the whole location as one query parameter: its value holds no
    `&`, `#`, `=`, `?` or `/`, and decoding it gives the location back.
   */
  lemma LoginRedirectCarriesLocation(pathname: string, search: string)
    ensures StartsWith(LoginRedirect(pathname, search), RedirectPrefix)
    ensures var v := LoginRedirect(pathname, search)[|RedirectPrefix|..];
            && (forall i :: 0 <= i < |v| ==> v[i] !in "&#=?/")
            && Uri.Decode(v) == Some(pathname + search)
  {
    var e := Uri.Encode(pathname + search);
    var r := LoginRedirect(pathname, search);
    assert r[..|RedirectPrefix|] == RedirectPrefix && r[|RedirectPrefix|..] == e;
    Uri.EncodeAlphabet(pathname + search);
    NoSeparators(e);
    Uri.DecodeEncode(pathname + search);
  }

  /** Text made of unreserved characters and `%` holds none of the URL's separators. */
  lemma NoSeparators(e: string)
    requires forall i :: 0 <= i < |e| ==> Uri.Unreserved(e[i]) || e[i] == '%'
    ensures forall i :: 0 <= i < |e| ==> e[i] !in "&#=?/"
  {
  }

  /**
    The effect on `currentUser`: a visitor sees the authentication message and is sent to
    the login page with the current location; a signed-in user is left alone.
   */
  function OnAuthChange(p: Page, signedIn: bool, pathname: string, search: string): (r: (Page, Option<string>))
    ensures signedIn ==> r == (p, None)
    ensures !signedIn ==> r.0 == p.(error := Some(AuthRequired)) && r.1 == Some(LoginRedirect(pathname, search))
  {
    if signedIn then (p, None) else (p.(error := Some(AuthRequired)), Some(LoginRedirect(pathname, search)))
  }

  // ---------------------------------------------------------------------------------------
  // Lists pulled out of a response body
  // ---------------------------------------------------------------------------------------

  /** A response from `api.get`, or the rejection with `err.response?.data?.message` and `err.message`. */
  datatype Fetched = Responded(data: Option<Json>) | Rejected(serverMessage: Option<string>, errorMessage: string)

  /** `Object.values(obj).filter(Array.isArray)[0]`, over properties in order. */
  function FirstArray(fields: seq<(string, Json)>): (r: Option<seq<Json>>)
    ensures r.None? <==> forall i :: 0 <= i < |fields| ==> !fields[i].1.JArr?
    ensures r.Some? ==> exists i :: 0 <= i < |fields| && fields[i].1 == JArr(r.value)
                          && forall j :: 0 <= j < i ==> !fields[j].1.JArr?
    decreases |fields|
  {
    if |fields| == 0 then None
    else if fields[0].1.JArr? then Some(fields[0].1.items)
    else
      var r := FirstArray(fields[1..]);
      assert forall i :: 1 <= i < |fields| ==> fields[i] == fields[1..][i - 1];
      if r.Some? then
        var k :| 0 <= k < |fields[1..]| && fields[1..][k].1 == JArr(r.value)
                 && forall j :: 0 <= j < k ==> !fields[1..][j].1.JArr?;
        assert fields[k + 1].1 == JArr(r.value);
        r
      else r
  }

  /**
    The array a body holds under the first of: the body itself, its `data` property, its
    `key` property; `None` when none of them is an array.
   */
  function ArrayIn(data: Json, key: string): (r: Option<seq<Json>>)
    ensures data.JArr? ==> r == Some(data.items)
    ensures !data.JArr? && IsArray(Get(data, "data")) ==> r == Some(Get(data, "data").value.items)
    ensures !data.JArr? && !IsArray(Get(data, "data")) ==> (r.Some? <==> IsArray(Get(data, key)))
    ensures r.Some? && !data.JArr? ==> Get(data, "data") == Some(JArr(r.value)) || Get(data, key) == Some(JArr(r.value))
  {
    if data.JArr? then Some(data.items)
    else if IsArray(Get(data, "data")) then Some(Get(data, "data").value.items)
    else if IsArray(Get(data, key)) then Some(Get(data, key).value.items)
    else None
  }

  /** Where `fetchDoctors` finds the doctors: `ArrayIn(data, "doctors")`, else the first array property. */
  function DoctorsIn(data: Json): Option<seq<Json>> {
    match ArrayIn(data, "doctors")
    case Some(list) => Some(list)
    case None => if data.JObj? then FirstArray(data.fields) else None
  }

  /** The list `fetchDoctors` shows is always an array the body holds: the body, or one of its properties. */
  lemma DoctorsComeFromBody(data: Json)
    requires DoctorsIn(data).Some?
    ensures data == JArr(DoctorsIn(data).value)
            || (data.JObj? && exists i :: 0 <= i < |data.fields| && data.fields[i].1 == JArr(DoctorsIn(data).value))
  {
    var list := DoctorsIn(data).value;
    if !data.JArr? {
      var a := ArrayIn(data, "doctors");
      if a.Some? {
        var key := if Get(data, "data") == Some(JArr(list)) then "data" else "doctors";
        assert Lookup(data.fields, key) == Some(JArr(list));
      }
    }
  }

  /** `response && response.data`: the body is present and truthy. */
  predicate UsableBody(data: Option<Json>) {
    data.Some? && Truthy(data.value)
  }

  /** `fetchDoctors()` */
  function FetchDoctors(p: Page, reply: Fetched): (r: Page)
    ensures !r.loading && r.form == p.form && r.availableSlots == p.availableSlots && r.success == p.success
    ensures |r.doctors| > 0 <==> reply.Responded? && UsableBody(reply.data)
                                 && DoctorsIn(reply.data.value).Some? && |DoctorsIn(reply.data.value).value| > 0
    ensures |r.doctors| > 0 ==> r.doctors == DoctorsIn(reply.data.value).value && r.error == p.error
    ensures |r.doctors| == 0 ==> r.doctors == [] && r.error.Some?
    ensures reply.Responded? && !UsableBody(reply.data) ==> r.error == Some(InvalidResponse)
    ensures reply.Responded? && UsableBody(reply.data) && |r.doctors| == 0 ==> r.error == Some(NoDoctors)
    ensures reply.Rejected? ==> r.error == Some("Failed to fetch doctors: " + MessageOr(reply.serverMessage, reply.errorMessage))
  {
    match reply
    case Rejected(sm, m) =>
      p.(error := Some("Failed to fetch doctors: " + MessageOr(sm, m)), loading := false, doctors := [])
    case Responded(data) =>
      if !UsableBody(data) then p.(error := Some(InvalidResponse), doctors := [], loading := false)
      else
        var found := DoctorsIn(data.value);
        if found.Some? && |found.value| > 0 then p.(doctors := found.value, loading := false)
        else p.(error := Some(NoDoctors), doctors := [], loading := false)
  }

  // ---------------------------------------------------------------------------------------
  // Default time slots
  // ---------------------------------------------------------------------------------------

  /** `String(n).padStart(2, '0')` */
  function Pad2(n: nat): string {
    var d := NatToString(n);
    if |d| < 2 then "0" + d else d
  }

  /** The `k`-th default slot: hour `9 + k / 2`, on the hour for even `k`, at half past for odd. */
  function SlotText(k: nat): string {
    Pad2(9 + k / 2) + (if k % 2 == 0 then ":00" else ":30")
  }

  /** The sixteen defaults, as a sequence of JSON strings the slot list can hold. */
  function DefaultSlots(): (r: seq<Json>)
    ensures |r| == 16 && forall k :: 0 <= k < 16 ==> r[k] == JStr(SlotText(k))
  {
    seq(16, k requires 0 <= k < 16 => JStr(SlotText(k)))
  }

  /**
    `generateDefaultTimeSlots()`: two pushes per hour for `hour` from 9 to 16, which is the
    closed form `SlotText`, so the result is what `DefaultSlots` holds.
   */
  method GenerateDefaultTimeSlots() returns (slots: seq<string>)
    ensures |slots| == 16
    ensures forall k :: 0 <= k < 16 ==> slots[k] == SlotText(k) && DefaultSlots()[k] == JStr(slots[k])
  {
    slots := [];
    var hour := 9;
    while hour < 17
      invariant 9 <= hour <= 17 && |slots| == 2 * (hour - 9)
      invariant forall k :: 0 <= k < |slots| ==> slots[k] == SlotText(k)
    {
      var next := slots + [Pad2(hour) + ":00", Pad2(hour) + ":30"];
      ExtendByHour(hour, slots, next);
      slots := next;
      hour := hour + 1;
    }
    MatchesDefaults(slots);
  }

  /** The two pushes for `hour` extend a prefix of `SlotText` by its next two entries. */
  lemma ExtendByHour(hour: nat, slots: seq<string>, next: seq<string>)
    requires 9 <= hour && |slots| == 2 * (hour - 9)
    requires forall k :: 0 <= k < |slots| ==> slots[k] == SlotText(k)
    requires next == slots + [Pad2(hour) + ":00", Pad2(hour) + ":30"]
    ensures |next| == |slots| + 2
    ensures forall k :: 0 <= k < |next| ==> next[k] == SlotText(k)
  {
    SlotTextOfHour(hour);
    ExtendByTwo(SlotText, slots, next);
  }

  /** A sequence that agrees with `SlotText` on sixteen places is what `DefaultSlots` holds. */
  lemma MatchesDefaults(slots: seq<string>)
    requires |slots| == 16 && forall k :: 0 <= k < 16 ==> slots[k] == SlotText(k)
    ensures forall k :: 0 <= k < 16 ==> DefaultSlots()[k] == JStr(slots[k])
  {
  }

  /** Appending the next two values of `f` to a prefix of `f` gives a longer prefix of `f`. */
  lemma ExtendByTwo(f: nat -> string, slots: seq<string>, next: seq<string>)
    requires forall k :: 0 <= k < |slots| ==> slots[k] == f(k)
    requires |next| == |slots| + 2 && next[..|slots|] == slots
    requires next[|slots|] == f(|slots|) && next[|slots| + 1] == f(|slots| + 1)
    ensures forall k :: 0 <= k < |next| ==> next[k] == f(k)
  {
    forall k | 0 <= k < |next|
      ensures next[k] == f(k)
    {
      if k < |slots| {
        assert next[k] == next[..|slots|][k];
      }
    }
  }

  /** The two default slots of `hour` are its `:00` and `:30` texts. */
  lemma SlotTextOfHour(hour: nat)
    requires 9 <= hour
    ensures SlotText(2 * (hour - 9)) == Pad2(hour) + ":00"
    ensures SlotText(2 * (hour - 9) + 1) == Pad2(hour) + ":30"
  {
    var n := 2 * (hour - 9);
    assert 9 + n / 2 == hour && n % 2 == 0;
    assert 9 + (n + 1) / 2 == hour && (n + 1) % 2 == 1;
  }

  /** Two decimal digits for any hour below 100. */
  lemma Pad2Digits(n: nat)
    requires n < 100
    ensures Pad2(n) == [DigitChar(n / 10), DigitChar(n % 10)]
  {
    if n >= 10 {
      assert NatToString(n) == NatToString(n / 10) + [DigitChar(n % 10)];
    }
  }

  /** Each default slot is `HH:MM`, with the minutes `00` or `30`. */
  lemma SlotTextShape(k: nat)
    requires k < 16
    ensures var h := 9 + k / 2;
            SlotText(k) == [DigitChar(h / 10), DigitChar(h % 10), ':', if k % 2 == 0 then '0' else '3', '0']
  {
    Pad2Digits(9 + k / 2);
  }

  /** The defaults run from `09:00` to `16:30` in strictly increasing order, so the dropdown lists them by time. */
  lemma DefaultSlotsAscending()
    ensures SlotText(0) == "09:00" && SlotText(15) == "16:30"
    ensures forall i, j :: 0 <= i < j < 16 ==> Less(SlotText(i), SlotText(j))
  {
    SlotTextShape(0);
    SlotTextShape(15);
    forall i, j | 0 <= i < j < 16
      ensures Less(SlotText(i), SlotText(j))
    {
      SlotsOrdered(i, j);
    }
  }

  /** An earlier default slot is less than a later one. */
  lemma SlotsOrdered(i: nat, j: nat)
    requires i < j < 16
    ensures Less(SlotText(i), SlotText(j))
  {
    SlotTextShape(i);
    SlotTextShape(j);
    var a, b := SlotText(i), SlotText(j);
    var hi, hj := 9 + i / 2, 9 + j / 2;
    if hi == hj {
      assert a[..3] == b[..3];
      LessAtFirstDifference(a, b, 3);
    } else if hi / 10 < hj / 10 {
      LessAtFirstDifference(a, b, 0);
    } else {
      assert a[..1] == b[..1];
      LessAtFirstDifference(a, b, 1);
    }
  }

  // ---------------------------------------------------------------------------------------
  // Available slots
  // ---------------------------------------------------------------------------------------

  /** `fetchAvailableSlots()`: the server's slots when it sends an array, the defaults otherwise. */
  function FetchAvailableSlots(p: Page, reply: Fetched): (r: Page)
    ensures r == p.(availableSlots := r.availableSlots, loading := false)
    ensures reply.Responded? && UsableBody(reply.data) && ArrayIn(reply.data.value, "slots").Some? ==>
              r.availableSlots == ArrayIn(reply.data.value, "slots").value
    ensures !(reply.Responded? && UsableBody(reply.data) && ArrayIn(reply.data.value, "slots").Some?) ==>
              r.availableSlots == DefaultSlots()
  {
    match reply
    case Rejected(_, _) => p.(availableSlots := DefaultSlots(), loading := false)
    case Responded(data) =>
      if UsableBody(data) && ArrayIn(data.value, "slots").Some? then
        p.(availableSlots := ArrayIn(data.value, "slots").value, loading := false)
      else p.(availableSlots := DefaultSlots(), loading := false)
  }

  /**
    The effect on the doctor, the date and `currentUser`: slots are fetched only for a
    signed-in user with both chosen, and cleared otherwise.
   */
  function RefreshSlots(p: Page, signedIn: bool, reply: Fetched): (r: Page)
    ensures !(signedIn && p.form.doctorId != "" && p.form.date != "") ==> r == p.(availableSlots := [])
    ensures r.form == p.form && r.error == p.error && r.doctors == p.doctors
  {
    if signedIn && p.form.doctorId != "" && p.form.date != "" then FetchAvailableSlots(p, reply)
    else p.(availableSlots := [])
  }

  /** Once a doctor and a date are chosen by a signed-in user, the dropdown always has something to offer. */
  lemma SlotsNeverEmptyOnceChosen(p: Page, reply: Fetched)
    requires p.form.doctorId != "" && p.form.date != ""
    requires !(reply.Responded? && UsableBody(reply.data) && ArrayIn(reply.data.value, "slots") == Some([]))
    ensures |RefreshSlots(p, true, reply).availableSlots| > 0
  {
    var r := RefreshSlots(p, true, reply);
    if !(reply.Responded? && UsableBody(reply.data) && ArrayIn(reply.data.value, "slots").Some?) {
      assert r.availableSlots == DefaultSlots();
    }
  }

  // ---------------------------------------------------------------------------------------
  // Submission
  // ---------------------------------------------------------------------------------------

  /** The body posted for a booking. */
  datatype Booking = Booking(doctorId: string, dateTime: string, reason: string)

  /** The requests sent, by endpoint index, and the endpoint that accepted, if any. */
  datatype Attempts = Attempts(sent: seq<nat>, booked: Option<nat>)

  /** `defined[k] && accepts[k]`: endpoint `k` exists and the server accepts the booking there. */
  predicate Books(defined: seq<bool>, accepts: seq<bool>, k: nat)
    requires |defined| == |accepts|
  {
    k < |defined| && defined[k] && accepts[k]
  }

  /**
    The nested `try` blocks from endpoint `i` on: calling an endpoint `appointmentAPI`
    lacks throws `TypeError` before any request; a defined one posts the booking and either
    succeeds, which ends the chain, or rejects, which moves to the next.
   */
  function TryEndpoints(defined: seq<bool>, accepts: seq<bool>, i: nat): (r: Attempts)
    requires |defined| == |accepts| && i <= |defined|
    ensures r.booked.Some? <==> exists k :: i <= k < |defined| && Books(defined, accepts, k)
    ensures r.booked.Some? ==> i <= r.booked.value && Books(defined, accepts, r.booked.value)
                               && forall k :: i <= k < r.booked.value ==> !Books(defined, accepts, k)
    ensures forall k :: k in r.sent <==>
              i <= k < (if r.booked.Some? then r.booked.value + 1 else |defined|) && defined[k]
    ensures forall a, b :: 0 <= a < b < |r.sent| ==> r.sent[a] < r.sent[b]
    decreases |defined| - i
  {
    if i == |defined| then Attempts([], None)
    else if defined[i] && accepts[i] then
      assert Books(defined, accepts, i);
      Attempts([i], Some(i))
    else
      var rest := TryEndpoints(defined, accepts, i + 1);
      assert forall j :: 0 <= j < |rest.sent| ==> i < rest.sent[j] by {
        forall j | 0 <= j < |rest.sent| ensures i < rest.sent[j] { assert rest.sent[j] in rest.sent; }
      }
      if defined[i] then rest.(sent := [i] + rest.sent) else rest
  }

  /** Which creation functions `appointmentAPI` defines, in the order the handler calls them. */
  const ApiAsWritten: seq<bool> := [true, false, false]

  /** The three endpoints the handler's fallbacks are written for, all present. */
  const ApiIntended: seq<bool> := [true, true, true]

  datatype Submission = Submission(page: Page, sent: seq<(nat, Booking)>, navigate: Option<string>)

  /**
    `handleSubmit`. `iso` is `new Date(`${date}T${timeSlot}`).toISOString()`, `None` when
    that date is invalid and the call throws `RangeError: Invalid time value`. When every
    endpoint fails the error is swallowed: loading stops and nothing is shown.
   */
  function HandleSubmit(p: Page, iso: Option<string>, defined: seq<bool>, accepts: seq<bool>): (s: Submission)
    requires |defined| == |accepts|
    ensures !s.page.loading && s.page.form == p.form && s.page.doctors == p.doctors
    ensures iso.None? ==> s.sent == [] && s.navigate.None? && s.page.success == p.success
                          && s.page.error == Some("Failed to book appointment: Invalid time value")
    ensures iso.Some? ==> s.page.error.None?
    ensures forall j :: 0 <= j < |s.sent| ==> s.sent[j].1 == Booking(p.form.doctorId, iso.value, p.form.reason)
    ensures s.navigate.Some? <==> iso.Some? && exists k :: 0 <= k < |defined| && Books(defined, accepts, k)
    ensures s.navigate.Some? ==> s.navigate == Some(DashboardPath) && s.page.success
    ensures s.navigate.None? ==> s.page.success == p.success
  {
    match iso
    case None =>
      Submission(p.(loading := false, error := Some("Failed to book appointment: Invalid time value")), [], None)
    case Some(dateTime) =>
      var body := Booking(p.form.doctorId, dateTime, p.form.reason);
      var attempts := TryEndpoints(defined, accepts, 0);
      var sent := seq(|attempts.sent|, j requires 0 <= j < |attempts.sent| => (attempts.sent[j], body));
      var pending := p.(error := None);
      if attempts.booked.Some? then
        Submission(pending.(success := true, loading := false), sent, Some(DashboardPath))
      else Submission(pending.(loading := false), sent, None)
  }

  /**
    As written, only the first endpoint is ever posted to: the two fallbacks name functions
    `appointmentAPI` does not have, so a rejection of the first ends the booking with no
    further request and no message.
   */
  lemma {:induction false} FallbackNeverReached(accepts: seq<bool>)
    requires |accepts| == 3
    ensures TryEndpoints(ApiAsWritten, accepts, 0) == Attempts([0], if accepts[0] then Some(0) else None)
  {
    var r2 := TryEndpoints(ApiAsWritten, accepts, 2);
    assert TryEndpoints(ApiAsWritten, accepts, 3) == Attempts([], None);
    assert r2 == Attempts([], None);
    assert TryEndpoints(ApiAsWritten, accepts, 1) == Attempts([], None);
  }

  /**
    With the three endpoints present, the booking goes through whenever any of them
    accepts, after posting to each earlier one in turn.
   */
  lemma {:induction false} FallbackReachesEveryEndpoint(accepts: seq<bool>)
    requires |accepts| == 3
    ensures TryEndpoints(ApiIntended, accepts, 0).booked.Some? <==> accepts[0] || accepts[1] || accepts[2]
    ensures TryEndpoints(ApiIntended, accepts, 0).sent ==
              if accepts[0] then [0] else if accepts[1] then [0, 1] else [0, 1, 2]
  {
    var r3 := TryEndpoints(ApiIntended, accepts, 3);
    assert r3 == Attempts([], None);
    var r2 := TryEndpoints(ApiIntended, accepts, 2);
    assert r2.sent == [2];
    var r1 := TryEndpoints(ApiIntended, accepts, 1);
    assert r1.sent == if accepts[1] then [1] else [1, 2];
  }

  /** `disabled={loading || success || !doctorId || !date || !timeSlot || !reason}`, negated. */
  predicate SubmitEnabled(p: Page) {
    !p.loading && !p.success && p.form.doctorId != "" && p.form.date != "" && p.form.timeSlot != "" && p.form.reason != ""
  }

  /** An enabled button posts a booking that names the doctor and gives a reason, unless the date is invalid. */
  lemma EnabledSubmitSendsCompleteBooking(p: Page, iso: string, accepts: seq<bool>)
    requires SubmitEnabled(p) && |accepts| == 3
    ensures var s := HandleSubmit(p, Some(iso), ApiAsWritten, accepts);
            && |s.sent| == 1 && s.sent[0].0 == 0
            && s.sent[0].1.doctorId != "" && s.sent[0].1.reason != "" && s.sent[0].1.dateTime == iso
  {
    FallbackNeverReached(accepts);
  }
}

=== FILE: cookie_manager.dfy ===
/**
  The cookie helper: the text `set` and `remove` assign to `document.cookie`, and `get`,
  which splits the cookie string on `;`, takes the first piece whose trimmed text starts
  with `name=`, and returns what lies between its first and second `=`.
 */
module CookieManager {
  import opened Wrappers
  import opened Strings
  import Lists

  const SecondsPerDay := 24 * 60 * 60
  const Epoch := "Thu, 01 Jan 1970 00:00:01 GMT"

  /** `set(name, value, days)`; `secure` is whether the page was served over `https:`. */
  function SetText(name: string, value: string, days: int, secure: bool): string {
    name + "=" + value + (SetFlags(secure) + MaxAge(days))
  }

  /** What `set` writes between the pair and the lifetime. */
  function SetFlags(secure: bool): string {
    "; Path=/; SameSite=Strict; Secure=" + (if secure then "true" else "false")
  }

  /** The lifetime `set` writes last: `days` whole days, in seconds. */
  function MaxAge(days: int): string {
    "; max-age=" + IntToString(days * SecondsPerDay)
  }

  /** `remove(name)` */
  function RemoveText(name: string): string {
    name + "=" + ("; Path=/; " + Expiry())
  }

  /** The expiry `remove` writes: a moment in the first second of 1970. */
  function Expiry(): string {
    "Expires=" + Epoch + ";"
  }

  /** Text ending in `suffix` ends with it. */
  lemma EndsWithConcat(x: string, suffix: string)
    ensures EndsWith(x + suffix, suffix)
  {
    assert (x + suffix)[|x|..] == suffix;
  }

  /**
    A pair without `;` followed by attributes that start with `;` is the first piece of the
    text, and the text ends with the attributes' last part.
   */
  lemma PairThenAttributes(pair: string, head: string, tail: string)
    requires ';' !in pair && |head| > 0 && head[0] == ';'
    ensures Split(pair + (head + tail), ';')[0] == pair
    ensures EndsWith(pair + (head + tail), tail)
  {
    assert (head + tail)[0] == ';';
    SplitFirstOfConcat(pair, head + tail, ';');
    assert pair + (head + tail) == (pair + head) + tail;
    EndsWithConcat(pair + head, tail);
  }

  /**
    `set` writes the pair first, then the attributes, ending with a lifetime of `days`
    whole days in seconds.
   */
  lemma SetWritesPair(name: string, value: string, days: int, secure: bool)
    requires ';' !in name && ';' !in value
    ensures Split(SetText(name, value, days, secure), ';')[0] == name + "=" + value
    ensures EndsWith(SetText(name, value, days, secure), "; max-age=" + IntToString(days * 86400))
  {
    var pair := name + "=" + value;
    assert ';' !in pair;
    assert SetFlags(secure)[0] == ';';
    PairThenAttributes(pair, SetFlags(secure), MaxAge(days));
  }

  /** `remove` writes the name with an empty value, then an expiry at the start of 1970. */
  lemma RemoveWritesEmptyPair(name: string)
    requires ';' !in name
    ensures Split(RemoveText(name), ';')[0] == name + "="
    ensures EndsWith(RemoveText(name), "Expires=" + Epoch + ";")
  {
    assert ';' !in name + "=";
    PairThenAttributes(name + "=", "; Path=/; ", Expiry());
  }

  // ---------------------------------------------------------------------------------------
  // Reading
  // ---------------------------------------------------------------------------------------

  /** `c.trim().startsWith(name + '=')` */
  predicate Matches(entry: string, name: string) {
    StartsWith(Trim(entry), name + "=")
  }

  /** `cookies.find(...)`, as the index of the first piece that matches. */
  function FirstMatch(entries: seq<string>, name: string): (r: Option<nat>)
    ensures r.Some? ==> r.value < |entries| && Matches(entries[r.value], name)
                        && forall j :: 0 <= j < r.value ==> !Matches(entries[j], name)
    ensures r.None? ==> forall j :: 0 <= j < |entries| ==> !Matches(entries[j], name)
  {
    Lists.FindIndex(entries, (e: string) => Matches(e, name))
  }

  /** A matching piece holds an `=`, so it splits into at least two parts. */
  lemma MatchHasEquals(entry: string, name: string)
    requires Matches(entry, name)
    ensures |Split(entry, '=')| >= 2
  {
    TrimCharacterization(entry);
    var a, b :| 0 <= a <= b <= |entry| && Trim(entry) == entry[a..b];
    assert Trim(entry)[|name|] == (name + "=")[|name|] == '=';
    assert entry[a + |name|] == '=';
    SplitFirst(entry, '=');
  }

  /** `entry.split('=')[1]`: the text between the first and second `=`, if there is a first. */
  function SecondPart(entry: string): Option<string> {
    var parts := Split(entry, '=');
    if |parts| >= 2 then Some(parts[1]) else None
  }

  /**
    The search `get` makes over the pieces: the second part of the first piece that
    matches, `None` when none does. A matching piece always has a second part.
   */
  function Find(entries: seq<string>, name: string): (r: Option<string>)
    ensures r.None? <==> forall j :: 0 <= j < |entries| ==> !Matches(entries[j], name)
    ensures r.Some? ==> exists j :: 0 <= j < |entries| && Matches(entries[j], name)
                                   && (forall k :: 0 <= k < j ==> !Matches(entries[k], name))
                                   && r == SecondPart(entries[j])
  {
    match FirstMatch(entries, name)
    case None => None
    case Some(i) =>
      MatchHasEquals(entries[i], name);
      SecondPart(entries[i])
  }

  /** `get(name)`: `None` is `null`. */
  function Get(cookie: string, name: string): Option<string> {
    Find(Split(cookie, ';'), name)
  }

  // ---------------------------------------------------------------------------------------
  // What `get` finds in a cookie string
  // ---------------------------------------------------------------------------------------

  /** One `name=value` piece of a cookie string, after the whitespace that follows a `;`. */
  datatype Pair = Pair(pad: string, name: string, value: string)

  function PieceText(p: Pair): string {
    p.pad + p.name + "=" + p.value
  }

  /** A piece as browsers write them: a blank lead-in, a name without `=`, no `;` anywhere. */
  predicate WellFormed(p: Pair) {
    && AllWhitespace(p.pad) && ';' !in p.pad && '=' !in p.pad
    && ';' !in p.name && '=' !in p.name && (p.name == "" || !IsWhitespace(p.name[0]))
    && ';' !in p.value
  }

  /** The cookie string made of the pieces: `pieces.join(';')`. */
  function CookieText(ps: seq<Pair>): string {
    Join(seq(|ps|, i requires 0 <= i < |ps| => PieceText(ps[i])), ";")
  }

  /** Blank text before a piece that starts with a non-blank character is all `trimStart` removes. */
  lemma {:induction false} TrimStartPad(pad: string, x: string)
    requires AllWhitespace(pad) && |x| > 0 && !IsWhitespace(x[0])
    ensures TrimStart(pad + x) == x
    decreases |pad|
  {
    if |pad| > 0 {
      assert (pad + x)[1..] == pad[1..] + x;
      TrimStartPad(pad[1..], x);
    } else {
      assert pad + x == x;
    }
  }

  /** `n + '=' + v` starts with `name + '='` exactly when `n` is `name`, for names without `=`. */
  lemma NameMatchesExactly(n: string, v: string, name: string)
    requires '=' !in n && '=' !in name
    ensures StartsWith(n + "=" + v, name + "=") <==> n == name
  {
    var x := n + "=" + v;
    if n == name {
      assert x[..|name| + 1] == name + "=";
    }
    if StartsWith(x, name + "=") {
      assert forall i :: 0 <= i < |n| ==> x[i] == n[i];
      assert forall i :: 0 <= i < |name| ==> x[i] == (name + "=")[i] == name[i];
      assert x[|n|] == '=';
      assert x[|name|] == (name + "=")[|name|] == '=';
      assert |name| == |n|;
      assert name == x[..|n|] == n;
    }
  }

  /**
    A well-formed piece matches `name` exactly when its name is `name`: `tokens=` and
    `xtoken=` are not `token`.
   */
  lemma PieceMatches(p: Pair, name: string)
    requires WellFormed(p) && '=' !in name
    ensures Matches(PieceText(p), name) <==> p.name == name
  {
    var x := p.name + "=" + p.value;
    assert PieceText(p) == p.pad + x;
    assert x[|p.name|] == '=';
    TrimStartPad(p.pad, x);
    var t := TrimEnd(x);
    assert Trim(PieceText(p)) == t;
    assert !IsWhitespace(x[|p.name|]);
    assert |t| > |p.name|;
    NameMatchesExactly(p.name, p.value, name);
    StartsWithOfPrefix(x, t, name + "=");
  }

  /** A prefix `t` of `x` starts with `q` when `x` does and `t` is long enough, and only then. */
  lemma StartsWithOfPrefix(x: string, t: string, q: string)
    requires |t| <= |x| && t == x[..|t|]
    ensures StartsWith(t, q) ==> StartsWith(x, q)
    ensures |q| <= |t| ==> (StartsWith(t, q) <==> StartsWith(x, q))
  {
    if |q| <= |t| {
      assert t[..|q|] == x[..|q|];
    }
  }

  /**
    What `get` returns for a well-formed piece is its value up to the value's first `=`:
    the whole value when it holds none, the empty text for an empty value.
   */
  lemma PieceValue(p: Pair)
    requires WellFormed(p)
    ensures SecondPart(PieceText(p)) == Some(Split(p.value, '=')[0])
    ensures '=' !in p.value ==> SecondPart(PieceText(p)) == Some(p.value)
  {
    assert PieceText(p) == (p.pad + p.name) + ['='] + p.value;
    assert '=' !in p.pad + p.name;
    SplitConcat(p.pad + p.name, p.value, '=');
    SplitFirst(p.value, '=');
  }

  /**
    Reading a cookie string: `get(name)` gives the value of the first piece named `name`,
    cut at its first `=`, and `null` when no piece has that name.
   */
  lemma GetFindsFirstNamed(ps: seq<Pair>, name: string)
    requires forall i :: 0 <= i < |ps| ==> WellFormed(ps[i])
    requires '=' !in name
    ensures Get(CookieText(ps), name).None? <==> forall i :: 0 <= i < |ps| ==> ps[i].name != name
    ensures forall k :: 0 <= k < |ps| && ps[k].name == name && (forall j :: 0 <= j < k ==> ps[j].name != name) ==>
              Get(CookieText(ps), name) == Some(Split(ps[k].value, '=')[0])
  {
    var entries := seq(|ps|, i requires 0 <= i < |ps| => PieceText(ps[i]));
    if |ps| == 0 {
      assert Split(CookieText(ps), ';') == [""];
      assert Trim("") == "";
    } else {
      assert forall k :: 0 <= k < |entries| ==> ';' !in entries[k] by {
        forall k | 0 <= k < |entries| ensures ';' !in entries[k] {
          assert entries[k] == ps[k].pad + ps[k].name + ['='] + ps[k].value;
        }
      }
      SplitJoin(entries, ';');
      assert Split(CookieText(ps), ';') == entries;
      forall i | 0 <= i < |ps| ensures (Matches(entries[i], name) <==> ps[i].name == name)
                                       && SecondPart(entries[i]) == Some(Split(ps[i].value, '=')[0]) {
        PieceMatches(ps[i], name);
        PieceValue(ps[i]);
      }
      var m := FirstMatch(entries, name);
      if m.Some? {
        forall k | 0 <= k < |ps| && ps[k].name == name && (forall j :: 0 <= j < k ==> ps[j].name != name)
          ensures k == m.value
        {
        }
      }
    }
  }
}

=== FILE: create_prescription.dfy ===
/**
  The prescription form of a doctor: a list of medication rows that can be edited, extended
  and shortened but never emptied, and the checks `handleSubmit` runs before posting it.
 */
module CreatePrescription {
  import opened Wrappers
  import opened Validations
  import Session

  datatype Form = Form(patientId: string, diagnosis: string, medications: seq<Medication>,
                       startDate: string, endDate: string, notes: string)

  const EmptyMedication: Medication := Medication("", "", "", "", "")

  /** The form on mount; `today` is the ISO date the page computes from the clock. */
  function InitialForm(today: string): (f: Form)
    ensures f.medications == [EmptyMedication] && f.startDate == today
    ensures f.patientId == "" && f.diagnosis == "" && f.endDate == "" && f.notes == ""
  {
    Form("", "", [EmptyMedication], today, "", "")
  }

  /** The input names of a medication row. */
  datatype MedicationField = MedName | MedDosage | MedFrequency | MedDuration | MedInstructions

  /** `{...med, [name]: value}` */
  function SetField(m: Medication, field: MedicationField, value: string): Medication {
    match field
    case MedName => m.(name := value)
    case MedDosage => m.(dosage := value)
    case MedFrequency => m.(frequency := value)
    case MedDuration => m.(duration := value)
    case MedInstructions => m.(instructions := value)
  }

  /** Reads one field of a row. */
  function GetField(m: Medication, field: MedicationField): string {
    match field
    case MedName => m.name
    case MedDosage => m.dosage
    case MedFrequency => m.frequency
    case MedDuration => m.duration
    case MedInstructions => m.instructions
  }

  /** Setting a field changes that field to the value and no other field. */
  lemma SetFieldOnlyThatField(m: Medication, field: MedicationField, value: string)
    ensures GetField(SetField(m, field, value), field) == value
    ensures forall g :: g != field ==> GetField(SetField(m, field, value), g) == GetField(m, g)
    ensures SetField(m, field, GetField(m, field)) == m
  {
  }

  /** `handleMedicationChange(index, e)`; the rows render one input per existing index. */
  function HandleMedicationChange(f: Form, index: int, field: MedicationField, value: string): (r: Form)
    requires 0 <= index < |f.medications|
    ensures |r.medications| == |f.medications|
    ensures GetField(r.medications[index], field) == value
    ensures forall i :: 0 <= i < |f.medications| && i != index ==> r.medications[i] == f.medications[i]
    ensures r == f.(medications := r.medications)
  {
    SetFieldOnlyThatField(f.medications[index], field, value);
    f.(medications := f.medications[index := SetField(f.medications[index], field, value)])
  }

  /** `addMedication()` */
  function AddMedication(f: Form): (r: Form)
    ensures |r.medications| == |f.medications| + 1 && r.medications[|f.medications|] == EmptyMedication
    ensures r.medications[..|f.medications|] == f.medications
    ensures r == f.(medications := r.medications)
  {
    f.(medications := f.medications + [EmptyMedication])
  }

  /** `medications.filter((_, i) => i !== index)` */
  function Without(meds: seq<Medication>, index: int): (r: seq<Medication>)
    ensures 0 <= index < |meds| ==> r == meds[..index] + meds[index + 1..]
    ensures !(0 <= index < |meds|) ==> r == meds
    decreases |meds|
  {
    if |meds| == 0 then []
    else if index == 0 then meds[1..]
    else
      var rest := Without(meds[1..], index - 1);
      assert 0 <= index < |meds| ==> [meds[0]] + meds[1..][..index - 1] == meds[..index];
      [meds[0]] + rest
  }

  /** `removeMedication(index)`: a single row is kept; otherwise the row at `index` goes. */
  function RemoveMedication(f: Form, index: int): (r: Form)
    ensures |f.medications| == 1 ==> r == f
    ensures |f.medications| != 1 && 0 <= index < |f.medications| ==>
              r.medications == f.medications[..index] + f.medications[index + 1..]
    ensures r == f.(medications := r.medications)
  {
    if |f.medications| == 1 then f
    else f.(medications := Without(f.medications, index))
  }

  /** The form always keeps at least one medication row. */
  predicate HasMedication(f: Form) {
    |f.medications| >= 1
  }

  /** Every edit of the rows keeps at least one of them. */
  lemma EditsKeepAMedication(f: Form, index: int, field: MedicationField, value: string)
    requires HasMedication(f)
    ensures HasMedication(AddMedication(f))
    ensures HasMedication(RemoveMedication(f, index))
    ensures 0 <= index < |f.medications| ==> HasMedication(HandleMedicationChange(f, index, field, value))
  {
  }

  // ---------------------------------------------------------------------------------------
  // Submission
  // ---------------------------------------------------------------------------------------

  datatype Page = Page(form: Form, error: Option<string>, success: bool, submitting: bool)

  /** How the post ends: stored, or rejected with the response's `data.message`. */
  datatype PostReply = Created | Rejected(message: Option<string>)

  const SelectPatient := "Please select a patient"
  const EnterDiagnosis := "Please enter a diagnosis"
  const MedicationFields := "Please fill in all required medication fields (name, dosage, frequency)"
  const ListPath := "/doctor-dashboard/prescriptions"

  /** The first failing client-side check's message, if any. */
  function CheckMessage(f: Form): (r: Option<string>)
    ensures r.None? <==> f.patientId != "" && !Blank(f.diagnosis) && forall i :: 0 <= i < |f.medications| ==> Complete(f.medications[i])
    ensures f.patientId == "" ==> r == Some(SelectPatient)
    ensures f.patientId != "" && Blank(f.diagnosis) ==> r == Some(EnterDiagnosis)
    ensures f.patientId != "" && !Blank(f.diagnosis) && (exists i :: 0 <= i < |f.medications| && !Complete(f.medications[i])) ==>
              r == Some(MedicationFields)
  {
    if f.patientId == "" then Some(SelectPatient)
    else if Blank(f.diagnosis) then Some(EnterDiagnosis)
    else if exists i :: 0 <= i < |f.medications| && !Complete(f.medications[i]) then Some(MedicationFields)
    else None
  }

  datatype Submission = Submission(page: Page, sent: Option<Form>, navigate: Option<string>)

  /**
    `handleSubmit`: the client-side checks in order, then the token check, then the post.
    The two-second delay before navigating is not modelled.
   */
  function HandleSubmit(p: Page, store: Session.Store, reply: PostReply): (s: Submission)
    ensures s.sent.Some? <==> CheckMessage(p.form).None? && Session.HasToken(store)
    ensures s.sent.Some? ==> s.sent.value == p.form && !s.page.submitting
    ensures s.page.form == p.form
    ensures CheckMessage(p.form).Some? ==> s.page == p.(error := CheckMessage(p.form)) && s.navigate.None?
    ensures CheckMessage(p.form).None? && !Session.HasToken(store) ==>
              s.page == p.(error := Some("Authentication required"), submitting := false) && s.navigate.None?
    ensures s.navigate.Some? <==> s.sent.Some? && reply.Created?
    ensures s.navigate.Some? ==> s.navigate == Some(ListPath) && s.page.success && s.page.error.None?
    ensures s.sent.Some? && reply.Rejected? ==>
              s.page.error == Some(if reply.message.Some? && reply.message.value != "" then reply.message.value
                                   else "Failed to create prescription")
  {
    var check := CheckMessage(p.form);
    if check.Some? then Submission(p.(error := check), None, None)
    else if !Session.HasToken(store) then
      Submission(p.(error := Some("Authentication required"), submitting := false), None, None)
    else
      match reply
      case Created => Submission(p.(error := None, success := true, submitting := false), Some(p.form), Some(ListPath))
      case Rejected(m) =>
        var message := if m.Some? && m.value != "" then m.value else "Failed to create prescription";
        Submission(p.(error := Some(message), submitting := false), Some(p.form), None)
  }

  /** The fields a prescription body carries, in the shape `validatePrescriptionForm` reads. */
  function AsPrescriptionData(f: Form): PrescriptionData {
    PrescriptionData(f.patientId, f.diagnosis, Some(f.medications), f.startDate)
  }

  /**
    The page's own checks accept a form with at least one row and a start date exactly when
    the shared prescription validator does; only their messages differ.
   */
  lemma ChecksAgreeWithValidator(f: Form)
    requires HasMedication(f) && f.startDate != ""
    ensures CheckMessage(f).None? <==> ValidatePrescriptionForm(AsPrescriptionData(f)).isValid
  {
  }
}

=== FILE: doctor_list.dfy ===
/**
  The public doctor directory: the query URL built from the page, the specialization and
  the search text; the `ratings` property every fetched doctor is given; the page count and
  page read from the reply; the rules that enable the previous/next buttons; the list of
  specializations; and where the Book button leads.
 */
module DoctorList {
  import opened Wrappers
  import opened Strings
  import opened Json
  import opened Backend
  import Uri
  import BookAppointment

  const FetchFailed := "Failed to fetch doctors"
  const DoctorsPath := "/api/doctors?"
  const BookPage := "/appointments/book"

  // ---------------------------------------------------------------------------------------
  // The list request
  // ---------------------------------------------------------------------------------------

  /**
    `/api/doctors?page=${page}&limit=9`, then `&specialization=${spec}` when `spec` is
    non-empty and `&search=${search}` when `search` is; nothing is encoded.
   */
  function DoctorsUrl(page: int, spec: string, search: string): string {
    DoctorsPath + Query(page, spec, search)
  }

  /** The part of the URL after the `?`. */
  function Query(page: int, spec: string, search: string): string {
    "page=" + IntToString(page) + "&" + "limit=9"
    + (if spec != "" then "&" + ("specialization=" + spec) else "")
    + (if search != "" then "&" + ("search=" + search) else "")
  }

  /** The query parameters the request is meant to carry, in order. */
  function QueryParams(page: int, spec: string, search: string): (ps: seq<string>)
    ensures |ps| == 2 + (if spec != "" then 1 else 0) + (if search != "" then 1 else 0)
    ensures ps[0] == "page=" + IntToString(page) && ps[1] == "limit=9"
    ensures spec != "" ==> ps[2] == "specialization=" + spec
    ensures search != "" ==> ps[|ps| - 1] == "search=" + search
  {
    ["page=" + IntToString(page), "limit=9"]
    + (if spec != "" then ["specialization=" + spec] else [])
    + (if search != "" then ["search=" + search] else [])
  }

  lemma NumberHasNoAmpersand(i: int)
    ensures '&' !in IntToString(i)
  {
    var d := NatToString(if i < 0 then -i else i);
    assert forall k :: 0 <= k < |d| ==> IsDigit(d[k]);
    if i < 0 {
      assert IntToString(i) == "-" + d;
    }
  }

  /** `[a, ...rest].join(d)` is `a`, `d`, then the join of the rest. */
  lemma JoinCons(a: string, rest: seq<string>, d: string)
    requires |rest| >= 1
    ensures Join([a] + rest, d) == a + d + Join(rest, d)
  {
    assert ([a] + rest)[1..] == rest;
  }

  /** Joins of two, three and four parts, written out. */
  lemma JoinParts(p: string, q: string, x: string, y: string)
    ensures Join([p, q], "&") == p + "&" + q
    ensures Join([p, q, x], "&") == p + "&" + q + "&" + x
    ensures Join([p, q, x, y], "&") == p + "&" + q + "&" + x + "&" + y
  {
    JoinCons(x, [y], "&");
    assert [q, x, y] == [q] + [x, y];
    JoinCons(q, [x, y], "&");
    assert [p, q, x, y] == [p] + [q, x, y];
    JoinCons(p, [q, x, y], "&");
    JoinCons(q, [x], "&");
    assert [q, x] == [q] + [x];
    assert [p, q, x] == [p] + [q, x];
    JoinCons(p, [q, x], "&");
    assert [p, q] == [p] + [q];
    JoinCons(p, [q], "&");
  }

  /** The query is the parameters joined with `&`. */
  lemma QueryIsJoinedParams(page: int, spec: string, search: string)
    ensures Query(page, spec, search) == Join(QueryParams(page, spec, search), "&")
  {
    JoinOptionals("page=" + IntToString(page), "limit=9", "specialization=" + spec, "search=" + search,
                  spec != "", search != "");
  }

  /** Two fixed parts followed by up to two optional ones, joined with `&`. */
  lemma JoinOptionals(p0: string, p1: string, a: string, b: string, hasA: bool, hasB: bool)
    ensures Join([p0, p1] + (if hasA then [a] else []) + (if hasB then [b] else []), "&")
            == p0 + "&" + p1 + (if hasA then "&" + a else "") + (if hasB then "&" + b else "")
  {
    var withA := [p0, p1] + (if hasA then [a] else []);
    JoinParts(p0, p1, a, b);
    var q := p0 + "&" + p1 + (if hasA then "&" + a else "");
    assert Join(withA, "&") == q by {
      if hasA {
        JoinSnoc([p0, p1], a, "&");
      } else {
        assert withA == [p0, p1];
      }
    }
    if hasB {
      JoinSnoc(withA, b, "&");
    } else {
      assert withA + [] == withA;
    }
  }

  /**
    The URL is the path followed by the parameters joined with `&`; when neither value holds
    an `&`, splitting the query on `&` gives exactly those parameters back.
   */
  lemma UrlCarriesParams(page: int, spec: string, search: string)
    ensures DoctorsUrl(page, spec, search) == DoctorsPath + Join(QueryParams(page, spec, search), "&")
    ensures '&' !in spec && '&' !in search ==>
              Split(DoctorsUrl(page, spec, search)[|DoctorsPath|..], '&') == QueryParams(page, spec, search)
  {
    var ps := QueryParams(page, spec, search);
    QueryIsJoinedParams(page, spec, search);
    assert DoctorsUrl(page, spec, search)[|DoctorsPath|..] == Query(page, spec, search);
    if '&' !in spec && '&' !in search {
      NumberHasNoAmpersand(page);
      forall k | 0 <= k < |ps| ensures '&' !in ps[k] {
        if k >= 2 && spec != "" && k == 2 {
          assert ps[k] == "specialization=" + spec;
        } else if k >= 2 {
          assert ps[k] == "search=" + search;
        }
      }
      SplitJoin(ps, '&');
    }
  }

  /** `[...parts, x].join(d)` is the join of `parts`, `d`, then `x`. */
  lemma {:induction false} JoinSnoc(parts: seq<string>, x: string, d: string)
    requires |parts| >= 1
    ensures Join(parts + [x], d) == Join(parts, d) + d + x
    decreases |parts|
  {
    if |parts| > 1 {
      assert (parts + [x])[1..] == parts[1..] + [x];
      JoinSnoc(parts[1..], x, d);
    } else {
      assert parts + [x] == [parts[0], x];
    }
  }

  /**
    The search text goes into the URL as typed: an `&` in it starts a parameter of its own,
    so searching for `a&b` sends `search=a` and then `b` as a further parameter.
   */
  lemma SearchTextIsNotEncoded(page: int, spec: string, a: string, b: string)
    requires a != "" && '&' !in spec && '&' !in a && '&' !in b
    ensures Split(DoctorsUrl(page, spec, a + "&" + b)[|DoctorsPath|..], '&') == QueryParams(page, spec, a) + [b]
  {
    var ps := QueryParams(page, spec, a);
    var q := Query(page, spec, a + "&" + b);
    SearchWithAmpersand(page, spec, a, b);
    QueryIsJoinedParams(page, spec, a);
    JoinSnoc(ps, b, "&");
    UrlCarriesParams(page, spec, a);
    assert forall k :: 0 <= k < |ps + [b]| ==> '&' !in (ps + [b])[k];
    SplitJoin(ps + [b], '&');
    assert DoctorsUrl(page, spec, a + "&" + b)[|DoctorsPath|..] == q;
  }

  /** Searching for `a&b` gives the query of searching for `a`, followed by `&b`. */
  lemma SearchWithAmpersand(page: int, spec: string, a: string, b: string)
    requires a != ""
    ensures Query(page, spec, a + "&" + b) == Query(page, spec, a) + "&" + b
  {
    var head := "page=" + IntToString(page) + "&" + "limit=9" + (if spec != "" then "&" + ("specialization=" + spec) else "");
    assert Query(page, spec, a + "&" + b) == head + ("&" + ("search=" + (a + "&" + b)));
    assert Query(page, spec, a) == head + ("&" + ("search=" + a));
    Regroup(head, "&", "search=", a, b);
  }

  /** Appending `&b` to the last parameter's value appends it to the whole query. */
  lemma Regroup(head: string, amp: string, key: string, a: string, b: string)
    ensures head + (amp + (key + (a + amp + b))) == head + (amp + (key + a)) + amp + b
  {
  }

  // ---------------------------------------------------------------------------------------
  // Ratings
  // ---------------------------------------------------------------------------------------

  /**
    The properties `{...doctor}` copies: an object's own, a string's characters and an
    array's elements under their indices, and none for a number or a boolean.
   */
  function SpreadFields(d: Json): seq<(string, Json)> {
    match d
    case JObj(fields) => fields
    case JStr(s) => seq(|s|, i requires 0 <= i < |s| => (NatToString(i), JStr([s[i]])))
    case JArr(items) => seq(|items|, i requires 0 <= i < |items| => (NatToString(i), items[i]))
    case _ => []
  }

  /**
    `doctor => ({...doctor, ratings: doctor.ratings || []})`; `None` when reading
    `doctor.ratings` throws, which it does on `null`.
   */
  function WithRatings(d: Json): (r: Option<Json>)
    ensures r.None? <==> d.JNull?
    ensures r.Some? ==> r.value.JObj?
    ensures r.Some? ==> Get(r.value, "ratings") == Some(if Get(d, "ratings").Some? && Truthy(Get(d, "ratings").value)
                                                      then Get(d, "ratings").value else JArr([]))
    ensures r.Some? ==> forall k :: k != "ratings" ==> Get(r.value, k) == Lookup(SpreadFields(d), k)
    ensures d.JObj? ==> r.Some? && forall k :: k != "ratings" ==> Get(r.value, k) == Get(d, k)
  {
    if d.JNull? then None
    else Some(JObj(Override(SpreadFields(d), "ratings", OrElse(Get(d, "ratings"), JArr([])))))
  }

  /** Every doctor that comes through has truthy ratings, and running the mapping again changes nothing. */
  lemma WithRatingsSettles(d: Json)
    requires !d.JNull?
    ensures Truthy(Get(WithRatings(d).value, "ratings").value)
    ensures WithRatings(WithRatings(d).value) == WithRatings(d)
  {
    var v := OrElse(Get(d, "ratings"), JArr([]));
    var f := Override(SpreadFields(d), "ratings", v);
    assert WithRatings(d) == Some(JObj(f));
    assert OrElse(Get(JObj(f), "ratings"), JArr([])) == v;
    OverrideTwice(SpreadFields(d), "ratings", v);
  }

  /** No entry is `null`. */
  predicate AllPresent(ds: seq<Json>) {
    forall i :: 0 <= i < |ds| ==> !ds[i].JNull?
  }

  /** `response.data.doctors.map(...)`: `None` when some doctor is `null`. */
  function WithRatingsAll(ds: seq<Json>): (r: Option<seq<Json>>)
    ensures r.Some? <==> AllPresent(ds)
    ensures r.Some? ==> |r.value| == |ds| && forall i :: 0 <= i < |ds| ==> Some(r.value[i]) == WithRatings(ds[i])
  {
    if AllPresent(ds) then Some(seq(|ds|, i requires 0 <= i < |ds| && !ds[i].JNull? => WithRatings(ds[i]).value))
    else None
  }

  /** The doctors a reply body yields: `data.doctors` must be an array of non-null entries. */
  function DoctorsOf(data: Json): (r: Option<seq<Json>>)
    ensures r.Some? <==> IsArray(Get(data, "doctors")) && AllPresent(Get(data, "doctors").value.items)
    ensures r.Some? ==> |r.value| == |Get(data, "doctors").value.items|
                        && forall i :: 0 <= i < |r.value| ==> r.value[i].JObj? && Get(r.value[i], "ratings").Some?
                                                               && Truthy(Get(r.value[i], "ratings").value)
  {
    var ds := Get(data, "doctors");
    if !IsArray(ds) then None
    else
      var r := WithRatingsAll(ds.value.items);
      if r.Some? then
        forall i | 0 <= i < |r.value|
          ensures r.value[i].JObj? && Get(r.value[i], "ratings").Some? && Truthy(Get(r.value[i], "ratings").value)
        {
          WithRatingsSettles(ds.value.items[i]);
        }
        r
      else r
  }

  // ---------------------------------------------------------------------------------------
  // The page's state and its transitions
  // ---------------------------------------------------------------------------------------

  /** The page's state; the page and the page count hold whatever the reply gave. */
  datatype ListState = ListState(doctors: seq<Json>, loading: bool, error: Option<string>,
                                 currentPage: Json, totalPages: Json, specializations: seq<Json>)

  /** The reply to a request: the body, or a rejection with `err.response?.data?.message`. */
  datatype Reply = Answered(data: Json) | Rejected(message: Option<string>)

  /**
    `fetchDoctors(page, spec, search)`: the URL requested and the state afterwards. A body
    without an array of non-null doctors throws inside the `try`, and the page shows the
    fallback message; a success leaves an earlier error in place.
   */
  function FetchDoctors(st: ListState, page: int, spec: string, search: string, reply: Reply): (r: (string, ListState))
    ensures r.0 == DoctorsUrl(page, spec, search)
    ensures !r.1.loading && r.1.specializations == st.specializations
    ensures reply.Answered? && DoctorsOf(reply.data).Some? ==>
              && r.1.doctors == DoctorsOf(reply.data).value && r.1.error == st.error
              && r.1.totalPages == OrElse(Get(reply.data, "totalPages"), JNum(1)) && Truthy(r.1.totalPages)
              && r.1.currentPage == OrElse(Get(reply.data, "currentPage"), JNum(1)) && Truthy(r.1.currentPage)
    ensures reply.Answered? && DoctorsOf(reply.data).None? ==> r.1 == st.(error := Some(FetchFailed), loading := false)
    ensures reply.Rejected? ==> r.1 == st.(error := Some(MessageOr(reply.message, FetchFailed)), loading := false)
  {
    var url := DoctorsUrl(page, spec, search);
    match reply
    case Rejected(m) => (url, st.(error := Some(MessageOr(m, FetchFailed)), loading := false))
    case Answered(data) =>
      match DoctorsOf(data)
      case None => (url, st.(error := Some(FetchFailed), loading := false))
      case Some(ds) =>
        (url, st.(doctors := ds, totalPages := OrElse(Get(data, "totalPages"), JNum(1)),
                  currentPage := OrElse(Get(data, "currentPage"), JNum(1)), loading := false))
  }

  /**
    `handlePageChange(n)`: the page moves to `n` at once and the list for `n` is requested
    with the current filters; a failed request leaves the page on `n`.
   */
  function HandlePageChange(st: ListState, n: int, spec: string, search: string, reply: Reply): (r: (string, ListState))
    ensures r.0 == DoctorsUrl(n, spec, search)
    ensures !(reply.Answered? && DoctorsOf(reply.data).Some?) ==> r.1.currentPage == JNum(n) && r.1.doctors == st.doctors
    ensures reply.Answered? && DoctorsOf(reply.data).Some? ==> r.1.doctors == DoctorsOf(reply.data).value
  {
    FetchDoctors(st.(currentPage := JNum(n)), n, spec, search, reply)
  }

  /** `fetchSpecializations()`: an array body is kept; anything else, or a failure, gives no options. */
  function FetchSpecializations(reply: Reply): (r: seq<Json>)
    ensures reply.Answered? && reply.data.JArr? ==> r == reply.data.items
    ensures !(reply.Answered? && reply.data.JArr?) ==> r == []
  {
    if reply.Answered? && reply.data.JArr? then reply.data.items else []
  }

  /**
    The values of the filter's `<option>`s: "All Specializations" with the empty value, then
    one option per element of the list, its value the element as text.
   */
  function SpecializationOptions(specs: seq<Json>): (r: seq<string>)
    ensures |r| == |specs| + 1 && r[0] == ""
    ensures forall i :: 0 <= i < |specs| ==> r[i + 1] == Text(specs[i])
  {
    [""] + seq(|specs|, i requires 0 <= i < |specs| => Text(specs[i]))
  }

  /**
    Every option after the first comes from the reply's array, in the reply's order; a
    failed or non-array reply leaves only "All Specializations". Choosing the first
    option sends no `specialization` parameter.
   */
  lemma OptionsFollowReply(reply: Reply, page: int, search: string)
    ensures var opts := SpecializationOptions(FetchSpecializations(reply));
            && (reply.Answered? && reply.data.JArr? ==>
                  |opts| == |reply.data.items| + 1
                  && forall i :: 0 <= i < |reply.data.items| ==> opts[i + 1] == Text(reply.data.items[i]))
            && (!(reply.Answered? && reply.data.JArr?) ==> opts == [""])
            && Query(page, opts[0], search) == Query(page, "", search)
  {
  }

  // ---------------------------------------------------------------------------------------
  // Pagination
  // ---------------------------------------------------------------------------------------

  /** `disabled={currentPage === 1}` on the previous button, which goes to `currentPage - 1`. */
  predicate PrevDisabled(currentPage: int) { currentPage == 1 }

  /** `disabled={currentPage === totalPages}` on the next button, which goes to `currentPage + 1`. */
  predicate NextDisabled(currentPage: int, totalPages: int) { currentPage == totalPages }

  /** A page the numbered items offer. */
  predicate InPages(page: int, totalPages: int) { 1 <= page <= totalPages }

  /**
    From a page in range, each button is enabled exactly when its target is in range too;
    nothing clamps the target, so the disabled flags alone keep the page in range.
   */
  lemma EnabledButtonsStayInRange(page: int, totalPages: int)
    requires InPages(page, totalPages)
    ensures !PrevDisabled(page) <==> InPages(page - 1, totalPages)
    ensures !NextDisabled(page, totalPages) <==> InPages(page + 1, totalPages)
  {
  }

  /** With the page past the count the reply reported, next stays enabled and leads further out. */
  lemma NextIsNotClamped(page: int, totalPages: int)
    requires page > totalPages
    ensures !NextDisabled(page, totalPages) && !InPages(page + 1, totalPages)
  {
  }

  // ---------------------------------------------------------------------------------------
  // The Book button
  // ---------------------------------------------------------------------------------------

  /** `${doctor._id}` */
  function IdText(d: Json): string {
    match Get(d, "_id")
    case Some(v) => Text(v)
    case None => "undefined"
  }

  /** `/appointments/book?doctorId=${doctor._id}` */
  function BookPath(d: Json): string {
    BookPage + ("?doctorId=" + IdText(d))
  }

  /** Where the Book button navigates: the booking page, or the login page carrying it. */
  function BookTarget(d: Json, signedIn: bool): string {
    if signedIn then BookPath(d) else BookAppointment.RedirectPrefix + Uri.Encode(BookPath(d))
  }

  /**
    A visitor is sent to the login page with the booking page as its `redirect` value, in
    the same form the booking page itself uses for visitors; decoding the value gives
    exactly the page a signed-in user is sent to.
   */
  lemma VisitorIsBroughtBackToBooking(d: Json)
    ensures BookTarget(d, true) == BookPath(d)
    ensures BookTarget(d, false) == BookAppointment.LoginRedirect(BookPage, "?doctorId=" + IdText(d))
    ensures var v := BookTarget(d, false)[|BookAppointment.RedirectPrefix|..];
            Uri.Decode(v) == Some(BookTarget(d, true)) && forall i :: 0 <= i < |v| ==> v[i] !in "&#=?/"
  {
    BookAppointment.LoginRedirectCarriesLocation(BookPage, "?doctorId=" + IdText(d));
  }
}

=== FILE: json.dfy ===
/**
  Decoded JSON response bodies as the front end sees them, with JavaScript's notion of
  truthiness, property access (`undefined` as `None`), object spread with one property
  overridden, and the string conversion `Array.prototype.join` applies to elements.
  Numbers are integers; the pages never depend on fractional values.
 */
module Json {
  import opened Wrappers
  import Strings

  datatype Json =
    | JNull
    | JBool(b: bool)
    | JNum(n: int)
    | JStr(s: string)
    | JArr(items: seq<Json>)
      /**
        An object's properties in JavaScript's enumeration order (`Object.keys`,
        `Object.values`, `for…in`), which lists integer-like keys first in ascending order
        and the rest in insertion order; this need not be their order in the JSON text.
       */
    | JObj(fields: seq<(string, Json)>)

  /** JavaScript truthiness: `null`, `false`, `0` and `''` are falsy, every array and object is truthy. */
  predicate Truthy(v: Json) {
    match v
    case JNull => false
    case JBool(b) => b
    case JNum(n) => n != 0
    case JStr(s) => s != ""
    case _ => true
  }

  predicate HasKey(fields: seq<(string, Json)>, key: string) {
    exists i :: 0 <= i < |fields| && fields[i].0 == key
  }

  /** The value bound to `key` by its first binding in `fields`. */
  function Lookup(fields: seq<(string, Json)>, key: string): (r: Option<Json>)
    ensures r.None? <==> !HasKey(fields, key)
    ensures r.Some? ==> exists i :: 0 <= i < |fields| && fields[i] == (key, r.value)
    decreases |fields|
  {
    if |fields| == 0 then None
    else if fields[0].0 == key then
      assert fields[0] == (key, fields[0].1);
      Some(fields[0].1)
    else
      var r := Lookup(fields[1..], key);
      assert forall i :: 1 <= i < |fields| ==> fields[i] == fields[1..][i - 1];
      assert HasKey(fields, key) ==> HasKey(fields[1..], key);
      r
  }

  /** `v[key]`: `None` stands for `undefined` (no such property, or `v` is not an object). */
  function Get(v: Json, key: string): Option<Json> {
    if v.JObj? then Lookup(v.fields, key) else None
  }

  /**
    `v?.toLowerCase() || ''` on a property read: `None` when the call throws, because the
    value is present, not `null` and not a string; an absent or `null` value reads as `''`.
   */
  function LowerOrEmpty(v: Option<Json>): (r: Option<string>)
    ensures r.None? <==> v.Some? && !v.value.JNull? && !v.value.JStr?
    ensures v.None? || v.value.JNull? ==> r == Some("")
    ensures v.Some? && v.value.JStr? ==> r == Some(Strings.ToLower(v.value.s))
  {
    if v.None? || v.value.JNull? then Some("")
    else if v.value.JStr? then Some(Strings.ToLower(v.value.s))
    else None
  }

  /** `Array.isArray(v)` */
  predicate IsArray(v: Option<Json>) {
    v.Some? && v.value.JArr?
  }

  /** Rebinds every binding of `key` to `val`, keeping the order of the properties. */
  function Rebind(fields: seq<(string, Json)>, key: string, val: Json): (r: seq<(string, Json)>)
    ensures |r| == |fields|
    ensures forall i :: 0 <= i < |r| ==> r[i].0 == fields[i].0
    ensures forall k :: k != key ==> Lookup(r, k) == Lookup(fields, k)
    ensures HasKey(fields, key) ==> Lookup(r, key) == Some(val)
    decreases |fields|
  {
    if |fields| == 0 then []
    else
      var head := if fields[0].0 == key then (key, val) else fields[0];
      var tail := Rebind(fields[1..], key, val);
      assert HasKey(fields, key) && fields[0].0 != key ==> HasKey(fields[1..], key);
      [head] + tail
  }

  /**
    `{...obj, [key]: val}`: an existing property keeps its place and takes the new value,
    a new one is appended; nothing else changes.
   */
  function Override(fields: seq<(string, Json)>, key: string, val: Json): (r: seq<(string, Json)>)
    ensures Lookup(r, key) == Some(val)
    ensures forall k :: k != key ==> Lookup(r, k) == Lookup(fields, k)
    ensures HasKey(fields, key) ==> |r| == |fields| && forall i :: 0 <= i < |r| ==> r[i].0 == fields[i].0
    ensures !HasKey(fields, key) ==> r == fields + [(key, val)]
  {
    if HasKey(fields, key) then Rebind(fields, key, val)
    else
      var r := fields + [(key, val)];
      assert forall k :: k != key ==> Lookup(r, k) == Lookup(fields, k) by {
        forall k | k != key
          ensures Lookup(r, k) == Lookup(fields, k)
        {
          LookupAppend(fields, (key, val), k);
        }
      }
      LookupAppend(fields, (key, val), key);
      r
  }

  lemma {:induction false} LookupAppend(fields: seq<(string, Json)>, b: (string, Json), k: string)
    ensures Lookup(fields + [b], k) == if HasKey(fields, k) then Lookup(fields, k)
                                      else if b.0 == k then Some(b.1) else None
    decreases |fields|
  {
    if |fields| > 0 {
      assert (fields + [b])[1..] == fields[1..] + [b];
      LookupAppend(fields[1..], b, k);
    }
  }

  /** The first binding of a key decides its value. */
  lemma {:induction false} LookupFirst(fields: seq<(string, Json)>, key: string, i: nat)
    requires i < |fields| && fields[i].0 == key
    requires forall j :: 0 <= j < i ==> fields[j].0 != key
    ensures Lookup(fields, key) == Some(fields[i].1)
    decreases i
  {
    if i > 0 {
      LookupFirst(fields[1..], key, i - 1);
    }
  }

  /** `x || fallback` for a property that may be absent. */
  function OrElse(x: Option<Json>, fallback: Json): (r: Json)
    ensures x.Some? && Truthy(x.value) ==> r == x.value
    ensures !(x.Some? && Truthy(x.value)) ==> r == fallback
    ensures Truthy(fallback) ==> Truthy(r)
  {
    if x.Some? && Truthy(x.value) then x.value else fallback
  }

  /** Every binding of `key` that `Rebind` leaves carries `val`. */
  lemma {:induction false} RebindBindsEveryKey(fields: seq<(string, Json)>, key: string, val: Json)
    ensures forall i :: 0 <= i < |fields| && fields[i].0 == key ==> Rebind(fields, key, val)[i].1 == val
    decreases |fields|
  {
    if |fields| > 0 {
      RebindBindsEveryKey(fields[1..], key, val);
    }
  }

  /** Rebinding a key that is already bound to `val` everywhere changes nothing. */
  lemma {:induction false} RebindAlreadyBound(fields: seq<(string, Json)>, key: string, val: Json)
    requires forall i :: 0 <= i < |fields| && fields[i].0 == key ==> fields[i].1 == val
    ensures Rebind(fields, key, val) == fields
    decreases |fields|
  {
    if |fields| > 0 {
      RebindAlreadyBound(fields[1..], key, val);
      assert fields == [fields[0]] + fields[1..];
    }
  }

  /** Spreading an object and setting the same property to the same value twice is the same as once. */
  lemma OverrideTwice(fields: seq<(string, Json)>, key: string, val: Json)
    ensures Override(Override(fields, key, val), key, val) == Override(fields, key, val)
  {
    var r := Override(fields, key, val);
    assert HasKey(r, key);
    if HasKey(fields, key) {
      RebindBindsEveryKey(fields, key, val);
    } else {
      assert forall i :: 0 <= i < |fields| ==> fields[i].0 != key;
    }
    RebindAlreadyBound(r, key, val);
  }

  /** `String(v)`: the text JavaScript makes of a value. */
  function Text(v: Json): string
    decreases v, 1
  {
    match v
    case JNull => "null"
    case JBool(b) => if b then "true" else "false"
    case JNum(n) => Strings.IntToString(n)
    case JStr(s) => s
    case JArr(items) => JoinText(items, ",")
    case JObj(_) => "[object Object]"
  }

  /** `items.join(sep)`: `null` elements print as the empty string, the rest as `String(x)`. */
  function JoinText(items: seq<Json>, sep: string): string
    decreases JArr(items), 0
  {
    Strings.Join(seq(|items|, i requires 0 <= i < |items| =>
      if items[i].JNull? then "" else Text(items[i])), sep)
  }

  /** Joining an array of strings joins the strings themselves. */
  lemma JoinTextOfStrings(items: seq<Json>, sep: string)
    requires forall i :: 0 <= i < |items| ==> items[i].JStr?
    ensures JoinText(items, sep) == Strings.Join(seq(|items|, i requires 0 <= i < |items| => items[i].s), sep)
  {
    var a := seq(|items|, i requires 0 <= i < |items| => if items[i].JNull? then "" else Text(items[i]));
    var b := seq(|items|, i requires 0 <= i < |items| => items[i].s);
    assert a == b;
  }
}

=== FILE: lists.dfy ===
/**
  `Array.prototype.filter` and the subsequence relation it establishes: the kept elements
  are exactly those satisfying the predicate, in their original order.
 */
module Lists {
  import opened Wrappers

  /** `a` can be obtained from `b` by deleting elements, keeping the order of the rest. */
  predicate SubsequenceOf<T(==)>(a: seq<T>, b: seq<T>)
    decreases |b|
  {
    if |a| == 0 then true
    else if |b| == 0 then false
    else if a[0] == b[0] then SubsequenceOf(a[1..], b[1..])
    else SubsequenceOf(a, b[1..])
  }

  /** `s.filter(p)` */
  function Filter<T(==,!new)>(s: seq<T>, p: T -> bool): (r: seq<T>)
    ensures forall i :: 0 <= i < |r| ==> r[i] in s && p(r[i])
    ensures forall i :: 0 <= i < |s| && p(s[i]) ==> s[i] in r
    ensures |r| <= |s|
    ensures (forall i :: 0 <= i < |s| ==> p(s[i])) ==> r == s
    ensures forall x :: multiset(r)[x] == if p(x) then multiset(s)[x] else 0
    decreases |s|
  {
    if |s| == 0 then []
    else
      var rest := Filter(s[1..], p);
      var r := if p(s[0]) then [s[0]] + rest else rest;
      KeptStep(s, p, rest, r);
      CountStep(s, p, rest, r);
      r
  }

  /** The element-wise promises of `Filter(s, p)` about its result `r`. */
  predicate KeptFacts<T(==)>(s: seq<T>, p: T -> bool, r: seq<T>) {
    && (forall i :: 0 <= i < |r| ==> r[i] in s && p(r[i]))
    && (forall i :: 0 <= i < |s| && p(s[i]) ==> s[i] in r)
    && |r| <= |s|
    && ((forall i :: 0 <= i < |s| ==> p(s[i])) ==> r == s)
  }

  /** Putting back the head of `s` when it passes carries the element-wise promises from the tail to `s`. */
  lemma KeptStep<T>(s: seq<T>, p: T -> bool, rest: seq<T>, r: seq<T>)
    requires |s| > 0 && r == if p(s[0]) then [s[0]] + rest else rest
    requires KeptFacts(s[1..], p, rest)
    ensures KeptFacts(s, p, r)
  {
    assert forall i :: 1 <= i < |s| ==> s[i] == s[1..][i - 1];
    assert p(s[0]) ==> s == [s[0]] + s[1..];
  }

  /** Putting back the head of `s` when it passes carries the count of every value from the tail to `s`. */
  lemma CountStep<T(!new)>(s: seq<T>, p: T -> bool, rest: seq<T>, r: seq<T>)
    requires |s| > 0 && r == if p(s[0]) then [s[0]] + rest else rest
    requires forall x :: multiset(rest)[x] == if p(x) then multiset(s[1..])[x] else 0
    ensures forall x :: multiset(r)[x] == if p(x) then multiset(s)[x] else 0
  {
    assert s == [s[0]] + s[1..];
    assert multiset(s) == multiset{s[0]} + multiset(s[1..]);
    if p(s[0]) {
      assert multiset(r) == multiset{s[0]} + multiset(rest);
    }
  }

  /** `s.findIndex(p)`, with `None` for `-1`. */
  function FindIndex<T>(s: seq<T>, p: T -> bool): (r: Option<nat>)
    ensures r.Some? ==> r.value < |s| && p(s[r.value]) && forall j :: 0 <= j < r.value ==> !p(s[j])
    ensures r.None? ==> forall j :: 0 <= j < |s| ==> !p(s[j])
  {
    FindIndexFrom(s, p, 0)
  }

  /** The search from index `from` on. */
  function FindIndexFrom<T>(s: seq<T>, p: T -> bool, from: nat): (r: Option<nat>)
    requires from <= |s|
    ensures r.Some? ==> from <= r.value < |s| && p(s[r.value]) && forall j :: from <= j < r.value ==> !p(s[j])
    ensures r.None? ==> forall j :: from <= j < |s| ==> !p(s[j])
    decreases |s| - from
  {
    if from == |s| then None
    else if p(s[from]) then Some(from)
    else FindIndexFrom(s, p, from + 1)
  }

  /** How many elements satisfy `p`: `s.filter(p).length`. */
  function Count<T(==,!new)>(s: seq<T>, p: T -> bool): (n: nat)
    ensures n <= |s|
    ensures n == |s| <==> forall i :: 0 <= i < |s| ==> p(s[i])
    ensures n == 0 <==> forall i :: 0 <= i < |s| ==> !p(s[i])
  {
    var r := Filter(s, p);
    FilterLengthLimits(s, p);
    |r|
  }

  /** The length of a filter is the full length exactly when every element passes, zero exactly when none does. */
  lemma {:induction false} FilterLengthLimits<T(!new)>(s: seq<T>, p: T -> bool)
    ensures |Filter(s, p)| == |s| <==> forall i :: 0 <= i < |s| ==> p(s[i])
    ensures |Filter(s, p)| == 0 <==> forall i :: 0 <= i < |s| ==> !p(s[i])
    decreases |s|
  {
    if |s| > 0 {
      FilterLengthLimits(s[1..], p);
      var rest := Filter(s[1..], p);
      LengthStep(s, p, rest, Filter(s, p));
    }
  }

  /** Putting back the head of `s` when it passes carries the two length limits from the tail to `s`. */
  lemma LengthStep<T>(s: seq<T>, p: T -> bool, rest: seq<T>, r: seq<T>)
    requires |s| > 0 && r == if p(s[0]) then [s[0]] + rest else rest
    requires |rest| <= |s| - 1
    requires |rest| == |s| - 1 <==> forall i :: 0 <= i < |s[1..]| ==> p(s[1..][i])
    requires |rest| == 0 <==> forall i :: 0 <= i < |s[1..]| ==> !p(s[1..][i])
    ensures |r| == |s| <==> forall i :: 0 <= i < |s| ==> p(s[i])
    ensures |r| == 0 <==> forall i :: 0 <= i < |s| ==> !p(s[i])
  {
    assert forall i :: 1 <= i < |s| ==> s[i] == s[1..][i - 1];
  }

  lemma {:induction false} SubsequenceOfSelf<T>(s: seq<T>)
    ensures SubsequenceOf(s, s)
    decreases |s|
  {
    if |s| > 0 {
      SubsequenceOfSelf(s[1..]);
    }
  }

  /** A filter keeps the order of what it keeps. */
  lemma {:induction false} FilterIsSubsequence<T(!new)>(s: seq<T>, p: T -> bool)
    ensures SubsequenceOf(Filter(s, p), s)
    decreases |s|
  {
    if |s| > 0 {
      FilterIsSubsequence(s[1..], p);
      var rest := Filter(s[1..], p);
      if p(s[0]) {
        assert Filter(s, p) == [s[0]] + rest;
        assert ([s[0]] + rest)[1..] == rest;
      } else {
        assert Filter(s, p) == rest;
      }
    }
  }

  /** A subsequence of a subsequence is a subsequence. */
  lemma {:induction false} SubsequenceTransitive<T>(a: seq<T>, b: seq<T>, c: seq<T>)
    requires SubsequenceOf(a, b) && SubsequenceOf(b, c)
    ensures SubsequenceOf(a, c)
    decreases |c|
  {
    if |a| > 0 && |c| > 0 {
      if b[0] == c[0] {
        if a[0] == b[0] {
          SubsequenceTransitive(a[1..], b[1..], c[1..]);
        } else {
          SubsequenceTransitive(a, b[1..], c[1..]);
        }
      } else {
        SubsequenceTransitive(a, b, c[1..]);
        if a[0] == c[0] {
          SubsequenceDropHead(a, c[1..]);
        }
      }
    }
  }

  /** Dropping the first element of a subsequence leaves a subsequence. */
  lemma {:induction false} SubsequenceDropHead<T>(a: seq<T>, b: seq<T>)
    requires |a| > 0 && SubsequenceOf(a, b)
    ensures SubsequenceOf(a[1..], b)
    decreases |b|, 0
  {
    if a[0] == b[0] {
      SubsequenceWeaken(a[1..], b[1..], b[0]);
    } else {
      SubsequenceDropHead(a, b[1..]);
      SubsequenceWeaken(a[1..], b[1..], b[0]);
    }
  }

  /** A subsequence of `t` is a subsequence of `[x] + t`. */
  lemma {:induction false} SubsequenceWeaken<T>(a: seq<T>, t: seq<T>, x: T)
    requires SubsequenceOf(a, t)
    ensures SubsequenceOf(a, [x] + t)
    decreases |t|, 1
  {
    var b := [x] + t;
    assert b[1..] == t;
    if |a| > 0 && a[0] == x {
      SubsequenceDropHead(a, t);
    }
  }

  /** Filtering twice keeps what both predicates accept, in order. */
  lemma {:induction false} FilterFilter<T(!new)>(s: seq<T>, p: T -> bool, q: T -> bool)
    ensures Filter(Filter(s, p), q) == Filter(s, x => p(x) && q(x))
    decreases |s|
  {
    if |s| > 0 {
      FilterFilter(s[1..], p, q);
    }
  }

  /** Every element is counted by exactly one of `p` and its negation `q`. */
  lemma {:induction false} CountComplement<T(!new)>(s: seq<T>, p: T -> bool, q: T -> bool)
    requires forall x :: q(x) == !p(x)
    ensures Count(s, p) + Count(s, q) == |s|
    decreases |s|
  {
    if |s| > 0 {
      CountComplement(s[1..], p, q);
      assert Filter(s, p) == if p(s[0]) then [s[0]] + Filter(s[1..], p) else Filter(s[1..], p);
      assert Filter(s, q) == if q(s[0]) then [s[0]] + Filter(s[1..], q) else Filter(s[1..], q);
    }
  }

  /** Filters by two predicates that agree everywhere are the same. */
  lemma {:induction false} FilterExtensional<T(!new)>(s: seq<T>, p: T -> bool, q: T -> bool)
    requires forall x :: p(x) == q(x)
    ensures Filter(s, p) == Filter(s, q)
    decreases |s|
  {
    if |s| > 0 {
      FilterExtensional(s[1..], p, q);
    }
  }
}

=== FILE: pagination.dfy ===
/**
  The numbered items both list pages render under their results: one item per page from
  1 to the page count, the current page marked active.
 */
module Pagination {

  /** One numbered item: its number and whether it is the active one. */
  datatype Item = Item(number: int, active: bool)

  /** `for (let number = 1; number <= totalPages; number++)`, with `active={number === currentPage}`. */
  method PageItems(currentPage: int, totalPages: int) returns (items: seq<Item>)
    ensures totalPages >= 0 ==> |items| == totalPages
    ensures totalPages < 0 ==> items == []
    ensures forall k :: 0 <= k < |items| ==> items[k] == Item(k + 1, k + 1 == currentPage)
  {
    items := [];
    var number := 1;
    while number <= totalPages
      invariant 1 <= number && (totalPages >= 0 ==> number <= totalPages + 1) && (totalPages < 0 ==> number == 1)
      invariant |items| == number - 1
      invariant forall k :: 0 <= k < |items| ==> items[k] == Item(k + 1, k + 1 == currentPage)
    {
      items := items + [Item(number, number == currentPage)];
      number := number + 1;
    }
  }

  /** Exactly one item is active when the page is in range, and none otherwise. */
  lemma {:induction false} OneActiveItem(items: seq<Item>, currentPage: int)
    requires forall k :: 0 <= k < |items| ==> items[k] == Item(k + 1, k + 1 == currentPage)
    ensures 1 <= currentPage <= |items| ==> items[currentPage - 1].active
                                            && forall k :: 0 <= k < |items| && items[k].active ==> k == currentPage - 1
    ensures !(1 <= currentPage <= |items|) ==> forall k :: 0 <= k < |items| ==> !items[k].active
  {
  }
}

=== FILE: patient_dashboard.dfy ===
/**
  The patient dashboard: the cancel that drops an appointment from the list, the three
  counts shown at the top (upcoming appointments, distinct doctors, active
  prescriptions), and the status cell of each row.
 */
module PatientDashboard {
  import opened Wrappers
  import opened Json
  import Lists
  import AppointmentStatus

  /**
    An appointment as the dashboard reads it: `_id`, `new Date(date)` as a time value
    (`None` when it is not a valid date), `doctorId` (`None` when absent) and `status`.
   */
  datatype Appointment = Appointment(id: string, date: Option<int>, doctorId: Option<string>, status: string)

  /** A prescription as the dashboard reads it. */
  datatype Prescription = Prescription(id: string, status: Option<string>)

  // ---------------------------------------------------------------------------------------
  // Cancel
  // ---------------------------------------------------------------------------------------

  /** `app => app._id !== id` */
  function OtherThan(id: string): Appointment -> bool {
    (a: Appointment) => a.id != id
  }

  /** `handleCancelAppointment(id)`: `appointments.filter(app => app._id !== id)`, no request. */
  function CancelAppointment(apps: seq<Appointment>, id: string): (r: seq<Appointment>)
    ensures forall i :: 0 <= i < |r| ==> r[i].id != id && r[i] in apps
    ensures forall i :: 0 <= i < |apps| && apps[i].id != id ==> apps[i] in r
    ensures Lists.SubsequenceOf(r, apps)
    ensures forall a :: multiset(r)[a] == if a.id != id then multiset(apps)[a] else 0
  {
    Lists.FilterIsSubsequence(apps, OtherThan(id));
    Lists.Filter(apps, OtherThan(id))
  }

  /**
    A cancel removes exactly the appointments with that id: as many as carry it, and a
    second cancel of the same id changes nothing.
   */
  lemma CancelRemovesExactlyTheId(apps: seq<Appointment>, id: string)
    ensures |CancelAppointment(apps, id)| == |apps| - Lists.Count(apps, (a: Appointment) => a.id == id)
    ensures CancelAppointment(CancelAppointment(apps, id), id) == CancelAppointment(apps, id)
  {
    var keep := OtherThan(id);
    Lists.CountComplement(apps, (a: Appointment) => a.id == id, keep);
    Lists.FilterFilter(apps, keep, keep);
    Lists.FilterExtensional(apps, (a: Appointment) => keep(a) && keep(a), keep);
  }

  // ---------------------------------------------------------------------------------------
  // Counts
  // ---------------------------------------------------------------------------------------

  /** `appointments.filter(app => new Date(app.date) >= new Date()).length` */
  function UpcomingCount(apps: seq<Appointment>, now: int): (n: nat)
    ensures n <= |apps|
    ensures n == 0 <==> forall i :: 0 <= i < |apps| ==> !(apps[i].date.Some? && apps[i].date.value >= now)
  {
    Lists.Count(apps, (a: Appointment) => a.date.Some? && a.date.value >= now)
  }

  /** `prescriptions.filter(p => p.status === 'active').length` */
  function ActiveCount(ps: seq<Prescription>): (n: nat)
    ensures n <= |ps|
    ensures n == |ps| <==> forall i :: 0 <= i < |ps| ==> ps[i].status == Some("active")
    ensures n == 0 <==> forall i :: 0 <= i < |ps| ==> ps[i].status != Some("active")
  {
    Lists.Count(ps, (p: Prescription) => p.status == Some("active"))
  }

  /** The active and the other prescriptions together make up the whole list. */
  lemma ActiveAndOtherPrescriptions(ps: seq<Prescription>)
    ensures ActiveCount(ps) + Lists.Count(ps, (p: Prescription) => p.status != Some("active")) == |ps|
  {
    Lists.CountComplement(ps, (p: Prescription) => p.status == Some("active"), (p: Prescription) => p.status != Some("active"));
  }

  /** `appointments.map(app => app.doctorId)` */
  function DoctorIds(apps: seq<Appointment>): (ids: seq<Option<string>>)
    ensures |ids| == |apps| && forall i :: 0 <= i < |apps| ==> ids[i] == apps[i].doctorId
  {
    seq(|apps|, i requires 0 <= i < |apps| => apps[i].doctorId)
  }

  /** `[...new Set(xs)]`: each value once, at the place it first appears. */
  function Distinct(xs: seq<Option<string>>): (r: seq<Option<string>>)
    ensures forall x :: x in r <==> x in xs
    ensures forall i, j :: 0 <= i < j < |r| ==> r[i] != r[j]
    ensures |r| <= |xs|
    decreases |xs|
  {
    if |xs| == 0 then []
    else
      var init := xs[..|xs| - 1];
      var last := xs[|xs| - 1];
      var r := Distinct(init);
      assert xs == init + [last];
      if last in r then r else r + [last]
  }

  /** A sequence without repeats has as many elements as values. */
  lemma {:induction false} NoRepeatsCard(r: seq<Option<string>>)
    requires forall i, j :: 0 <= i < j < |r| ==> r[i] != r[j]
    ensures |set x | x in r| == |r|
    decreases |r|
  {
    if |r| > 0 {
      var init := r[..|r| - 1];
      var last := r[|r| - 1];
      NoRepeatsCard(init);
      assert r == init + [last];
      assert (set x | x in r) == (set x | x in init) + {last};
      assert last !in init;
    }
  }

  /** `uniqueDoctorsCount` */
  function DistinctDoctorCount(apps: seq<Appointment>): (n: nat)
    ensures n <= |apps|
    ensures |apps| > 0 ==> n > 0
  {
    var ids := DoctorIds(apps);
    assert |apps| > 0 ==> ids[0] in ids;
    |Distinct(ids)|
  }

  /** The assigned-doctors count is the number of different `doctorId` values among the appointments. */
  lemma DistinctDoctorCountIsSetSize(apps: seq<Appointment>)
    ensures DistinctDoctorCount(apps) == |set i | 0 <= i < |apps| :: apps[i].doctorId|
  {
    var ids := DoctorIds(apps);
    var r := Distinct(ids);
    NoRepeatsCard(r);
    assert (set x | x in r) == set i | 0 <= i < |apps| :: apps[i].doctorId by {
      forall x | x in r ensures x in set i | 0 <= i < |apps| :: apps[i].doctorId {
        var i :| 0 <= i < |ids| && ids[i] == x;
      }
    }
  }

  /** Cancelling never raises the assigned-doctors count. */
  lemma CancelKeepsDoctorCountDown(apps: seq<Appointment>, id: string)
    ensures DistinctDoctorCount(CancelAppointment(apps, id)) <= DistinctDoctorCount(apps)
  {
    var kept := CancelAppointment(apps, id);
    DistinctDoctorCountIsSetSize(apps);
    DistinctDoctorCountIsSetSize(kept);
    DoctorIdsOfSubset(kept, apps);
    SubsetCard(set i | 0 <= i < |kept| :: kept[i].doctorId, set i | 0 <= i < |apps| :: apps[i].doctorId);
  }

  /** Appointments drawn from `apps` name no doctor that `apps` does not. */
  lemma DoctorIdsOfSubset(kept: seq<Appointment>, apps: seq<Appointment>)
    requires forall i :: 0 <= i < |kept| ==> kept[i] in apps
    ensures (set i | 0 <= i < |kept| :: kept[i].doctorId) <= (set i | 0 <= i < |apps| :: apps[i].doctorId)
  {
    var a := set i | 0 <= i < |kept| :: kept[i].doctorId;
    var b := set i | 0 <= i < |apps| :: apps[i].doctorId;
    forall x | x in a ensures x in b {
      var i :| 0 <= i < |kept| && kept[i].doctorId == x;
      var j :| 0 <= j < |apps| && apps[j] == kept[i];
    }
  }

  lemma SubsetCard(a: set<Option<string>>, b: set<Option<string>>)
    requires a <= b
    ensures |a| <= |b|
  {
    assert b == a + (b - a);
  }

  // ---------------------------------------------------------------------------------------
  // A row's status cell
  // ---------------------------------------------------------------------------------------

  /** The badge class of a row. */
  function RowBadge(a: Appointment): string {
    AppointmentStatus.BadgeClass(Some(JStr(a.status)))
  }

  /** `appointment.status !== 'completed' && appointment.status !== 'cancelled'`: the row offers Cancel. */
  predicate RowCancellable(a: Appointment) {
    a.status != "completed" && a.status != "cancelled"
  }

  /**
    A row offers Cancel exactly when its badge is neither green nor red, and the cancel it
    offers takes the row off the list.
   */
  lemma RowCancelMatchesBadge(apps: seq<Appointment>, k: nat)
    requires k < |apps|
    ensures RowCancellable(apps[k]) <==> RowBadge(apps[k]) != AppointmentStatus.Success && RowBadge(apps[k]) != AppointmentStatus.Danger
    ensures apps[k] !in CancelAppointment(apps, apps[k].id)
  {
    AppointmentStatus.CancellableByBadge(Some(JStr(apps[k].status)));
  }
}

=== FILE: patient_list.dfy ===
/**
  The doctor's patient list: the page number kept between 1 and the page count by the
  previous/next buttons, the reset to page 1 when the filter changes, the page count
  read from the reply, and the name filter. The numbered items are `Pagination.PageItems`.
 */
module PatientList {
  import opened Wrappers
  import opened Strings
  import opened Backend
  import opened Json
  import Lists
  import Session

  /** `Math.max(prev - 1, 1)` */
  function Prev(page: int): (r: int)
    ensures r >= 1
    ensures page > 1 ==> r == page - 1
    ensures page <= 1 ==> r == 1
  {
    if page - 1 > 1 then page - 1 else 1
  }

  /** `Math.min(prev + 1, totalPages)` */
  function Next(page: int, totalPages: int): (r: int)
    ensures r <= totalPages
    ensures page < totalPages ==> r == page + 1
    ensures page >= totalPages ==> r == totalPages
  {
    if page + 1 < totalPages then page + 1 else totalPages
  }

  predicate InRange(page: int, totalPages: int) {
    1 <= page <= totalPages
  }

  /**
    Both buttons keep a page in range, and a button is disabled (`page === 1`,
    `page === totalPages`) exactly when clicking it would leave the page where it is.
   */
  lemma ButtonsKeepPageInRange(page: int, totalPages: int)
    requires InRange(page, totalPages)
    ensures InRange(Prev(page), totalPages) && InRange(Next(page, totalPages), totalPages)
    ensures Prev(page) == page <==> page == 1
    ensures Next(page, totalPages) == page <==> page == totalPages
  {
  }

  /** The page's state: the list, the page, the page count and the filter. */
  datatype ListState = ListState(patients: seq<Json>, currentPage: int, totalPages: Json, filter: string,
                                 loading: bool, error: Option<string>)

  /** `handleFilterChange`: the filter takes the new value and the page goes back to 1. */
  function HandleFilterChange(st: ListState, value: string): (r: ListState)
    ensures r.filter == value && r.currentPage == 1
    ensures r.patients == st.patients && r.totalPages == st.totalPages && r.error == st.error
  {
    st.(filter := value, currentPage := 1)
  }

  datatype FetchReply = Loaded(data: seq<Json>, totalPages: Option<Json>) | FetchFailed(message: Option<string>)

  /** `/api/patients?page=${currentPage}&filter=${filter}` */
  function PatientsUrl(page: int, filter: string): string {
    "/api/patients?page=" + IntToString(page) + "&filter=" + filter
  }

  /** `fetchPatients()`: the request path sent, if any, and the state afterwards. */
  function FetchPatients(st: ListState, store: Session.Store, reply: FetchReply): (r: (Option<string>, ListState))
    ensures !r.1.loading && r.1.currentPage == st.currentPage && r.1.filter == st.filter
    ensures r.0.Some? <==> Session.HasToken(store)
    ensures r.0.Some? ==> r.0.value == PatientsUrl(st.currentPage, st.filter)
    ensures !Session.HasToken(store) ==> r.1 == st.(error := Some("Authentication required"), loading := false)
    ensures Session.HasToken(store) && reply.Loaded? ==>
              r.1.patients == reply.data && r.1.totalPages == OrElse(reply.totalPages, JNum(1)) && Truthy(r.1.totalPages)
              && r.1.error == st.error
    ensures Session.HasToken(store) && reply.FetchFailed? ==>
              r.1.patients == st.patients && r.1.error == Some(MessageOr(reply.message, "Failed to fetch patients"))
  {
    if !Session.HasToken(store) then (None, st.(error := Some("Authentication required"), loading := false))
    else
      var url := Some(PatientsUrl(st.currentPage, st.filter));
      match reply
      case Loaded(data, total) => (url, st.(patients := data, totalPages := OrElse(total, JNum(1)), loading := false))
      case FetchFailed(m) => (url, st.(error := Some(MessageOr(m, "Failed to fetch patients")), loading := false))
  }

  /** `patient.user?.name`, when it is a string. */
  function PatientName(p: Json): Option<string> {
    match Get(p, "user")
    case Some(u) => (match Get(u, "name") case Some(JStr(s)) => Some(s) case _ => None)
    case None => None
  }

  /** `patient.user?.name?.toLowerCase().includes(searchTerm.toLowerCase())` */
  predicate NameMatches(p: Json, term: string) {
    PatientName(p).Some? && Includes(ToLower(PatientName(p).value), ToLower(term))
  }

  /**
    The callback throws a `TypeError`, and the page fails to render, when a patient is
    `null` (its `user` is read without `?.`) or its name is present, not `null` and not a
    string (the value has no `toLowerCase`).
   */
  predicate NameThrows(p: Json) {
    || p.JNull?
    || (&& Get(p, "user").Some? && Get(Get(p, "user").value, "name").Some?
        && !Get(Get(p, "user").value, "name").value.JNull? && !Get(Get(p, "user").value, "name").value.JStr?)
  }

  /**
    `patients.filter(...)` over the whole list: `None` when the callback throws on any
    patient, else the patients whose name contains the term, in order.
   */
  function NameFilter(patients: seq<Json>, term: string): (r: Option<seq<Json>>)
    ensures r.None? <==> exists i :: 0 <= i < |patients| && NameThrows(patients[i])
    ensures r.Some? ==> forall i :: 0 <= i < |r.value| ==> r.value[i] in patients && NameMatches(r.value[i], term)
    ensures r.Some? ==> forall i :: 0 <= i < |patients| && NameMatches(patients[i], term) ==> patients[i] in r.value
    ensures r.Some? ==> Lists.SubsequenceOf(r.value, patients)
  {
    if exists i :: 0 <= i < |patients| && NameThrows(patients[i]) then None
    else
      Lists.FilterIsSubsequence(patients, p => NameMatches(p, term));
      Some(Lists.Filter(patients, p => NameMatches(p, term)))
  }

  /**
    When the list renders, an empty term keeps exactly the patients that have a name; the
    nameless ones are dropped. Whether it renders does not depend on the term.
   */
  lemma EmptyTermKeepsNamed(patients: seq<Json>, term: string)
    ensures NameFilter(patients, "").Some? <==> NameFilter(patients, term).Some?
    ensures NameFilter(patients, "").Some? ==>
              forall i :: 0 <= i < |patients| ==> (patients[i] in NameFilter(patients, "").value <==> PatientName(patients[i]).Some?)
  {
    if NameFilter(patients, "").Some? {
      var r := NameFilter(patients, "").value;
      forall i | 0 <= i < |patients|
        ensures patients[i] in r <==> PatientName(patients[i]).Some?
      {
        if PatientName(patients[i]).Some? {
          IncludesEmpty(ToLower(PatientName(patients[i]).value));
        }
        if patients[i] in r {
          var k :| 0 <= k < |r| && r[k] == patients[i];
        }
      }
    }
  }
}

=== FILE: prescription_list.dfy ===
/**
  The patient's prescription list: the status filter, the search over doctor name,
  diagnosis and medication names, and the status badge.
 */
module PrescriptionList {
  import opened Wrappers
  import opened Strings
  import opened Backend
  import opened Json
  import Lists
  import Session

  /**
    A prescription as the page reads it: `doctor?.user?.name` (`None` when any link of the
    chain is missing or `null`), `diagnosis` and `medications`, as decoded JSON.
   */
  datatype Prescription = Prescription(id: string, status: Option<string>, doctorName: Option<Json>,
                                       diagnosis: Option<Json>, medications: Option<Json>)

  /** The filters that select one status; any other filter name keeps every prescription. */
  predicate SelectsStatus(filter: string) {
    filter == "active" || filter == "completed" || filter == "cancelled"
  }

  predicate Kept(filter: string, p: Prescription) {
    SelectsStatus(filter) ==> p.status == Some(filter)
  }

  /** The filter `fetchPrescriptions` applies to `response.data.data`. */
  function StatusFilter(ps: seq<Prescription>, filter: string): (r: seq<Prescription>)
    ensures forall i :: 0 <= i < |r| ==> r[i] in ps && (SelectsStatus(filter) ==> r[i].status == Some(filter))
    ensures forall i :: 0 <= i < |ps| && (SelectsStatus(filter) ==> ps[i].status == Some(filter)) ==> ps[i] in r
    ensures Lists.SubsequenceOf(r, ps)
    ensures !SelectsStatus(filter) ==> r == ps
    ensures forall x :: multiset(r)[x] == if Kept(filter, x) then multiset(ps)[x] else 0
  {
    Lists.FilterIsSubsequence(ps, p => Kept(filter, p));
    Lists.Filter(ps, p => Kept(filter, p))
  }

  /** `med.name` is a string; any other entry makes `med.name.toLowerCase()` throw. */
  predicate NamedMedication(med: Json) {
    Get(med, "name").Some? && Get(med, "name").value.JStr?
  }

  /**
    `medications?.map(med => med.name.toLowerCase()).join(' ') || ''`: `None` when the call
    throws, that is when `medications` is present, not `null` and not an array, or some entry
    has no string `name` (`med.name` has no `?.`, so a `null` entry or name throws too).
   */
  function MedicationText(m: Option<Json>): (r: Option<string>)
    ensures r.None? <==> && m.Some? && !m.value.JNull?
                         && (!m.value.JArr? || exists i :: 0 <= i < |m.value.items| && !NamedMedication(m.value.items[i]))
    ensures m.None? || m.value.JNull? ==> r == Some("")
  {
    if m.None? || m.value.JNull? then Some("")
    else if !m.value.JArr? then None
    else if exists i :: 0 <= i < |m.value.items| && !NamedMedication(m.value.items[i]) then None
    else Some(Join(LoweredNames(m.value.items), " "))
  }

  /** The lower-cased names of medications that all have a string name. */
  function LoweredNames(meds: seq<Json>): (r: seq<string>)
    requires forall i :: 0 <= i < |meds| ==> NamedMedication(meds[i])
    ensures |r| == |meds| && forall i :: 0 <= i < |meds| ==> r[i] == ToLower(Name(meds[i]))
  {
    seq(|meds|, i requires 0 <= i < |meds| && NamedMedication(meds[i]) => ToLower(Name(meds[i])))
  }

  /** `med.name` of a medication that has a string name. */
  function Name(med: Json): string
    requires NamedMedication(med)
  {
    Get(med, "name").value.s
  }

  /** Reading the three searched fields of `p` throws. */
  predicate Throws(p: Prescription) {
    LowerOrEmpty(p.doctorName).None? || LowerOrEmpty(p.diagnosis).None? || MedicationText(p.medications).None?
  }

  /** The search callback's answer for a prescription on which it does not throw. */
  predicate Matches(p: Prescription, termLower: string) {
    || Includes(LowerOrEmpty(p.doctorName).GetOr(""), termLower)
    || Includes(LowerOrEmpty(p.diagnosis).GetOr(""), termLower)
    || Includes(MedicationText(p.medications).GetOr(""), termLower)
  }

  lemma EmptyTermMatchesAll(ps: seq<Prescription>)
    ensures forall i :: 0 <= i < |ps| ==> Matches(ps[i], ToLower(""))
  {
    forall i | 0 <= i < |ps| ensures Matches(ps[i], ToLower("")) {
      IncludesEmpty(LowerOrEmpty(ps[i].doctorName).GetOr(""));
    }
  }

  /**
    The search box over the fetched (and filtered) list: `None` when the callback throws on
    any prescription, which fails the render; otherwise the matching prescriptions, in order.
   */
  function Search(ps: seq<Prescription>, term: string): (r: Option<seq<Prescription>>)
    ensures r.None? <==> exists i :: 0 <= i < |ps| && Throws(ps[i])
    ensures r.Some? ==> forall i :: 0 <= i < |r.value| ==> r.value[i] in ps && Matches(r.value[i], ToLower(term))
    ensures r.Some? ==> forall i :: 0 <= i < |ps| && Matches(ps[i], ToLower(term)) ==> ps[i] in r.value
    ensures r.Some? ==> Lists.SubsequenceOf(r.value, ps)
    ensures r.Some? && term == "" ==> r.value == ps
  {
    if exists i :: 0 <= i < |ps| && Throws(ps[i]) then None
    else
      Lists.FilterIsSubsequence(ps, p => Matches(p, ToLower(term)));
      EmptyTermMatchesAll(ps);
      Some(Lists.Filter(ps, p => Matches(p, ToLower(term))))
  }

  /**
    A term found in the lower-cased name of any one medication finds the prescription, unless
    reading some field of it throws.
   */
  lemma MedicationNameFinds(p: Prescription, k: nat, term: string)
    requires p.medications.Some? && p.medications.value.JArr? && k < |p.medications.value.items|
    requires NamedMedication(p.medications.value.items[k])
    requires Includes(ToLower(Name(p.medications.value.items[k])), ToLower(term))
    ensures !Throws(p) ==> Matches(p, ToLower(term))
  {
    if !Throws(p) {
      IncludesJoinPart(LoweredNames(p.medications.value.items), " ", k, ToLower(term));
    }
  }

  /** One medication without a string name fails the whole search, whatever the term. */
  lemma UnnamedMedicationFailsSearch(ps: seq<Prescription>, j: nat, k: nat, term: string)
    requires j < |ps| && ps[j].medications.Some? && ps[j].medications.value.JArr?
    requires k < |ps[j].medications.value.items| && !NamedMedication(ps[j].medications.value.items[k])
    ensures Search(ps, term).None?
  {
    assert Throws(ps[j]);
  }

  /** The list on screen, when it renders: the search over the filtered fetch, a subsequence of the fetch. */
  lemma DisplayedIsSubsequence(fetched: seq<Prescription>, filter: string, term: string)
    ensures Search(StatusFilter(fetched, filter), term).Some? ==>
              Lists.SubsequenceOf(Search(StatusFilter(fetched, filter), term).value, fetched)
  {
    var f := StatusFilter(fetched, filter);
    if Search(f, term).Some? {
      Lists.SubsequenceTransitive(Search(f, term).value, f, fetched);
    }
  }

  /** A badge: its Bootstrap background and its text. */
  datatype Badge = Badge(bg: string, text: string)

  /** `getStatusBadge(status)`; an absent status renders as empty text. */
  function StatusBadge(status: Option<string>): (b: Badge)
    ensures status == Some("active") ==> b == Badge("primary", "Active")
    ensures status == Some("completed") ==> b == Badge("success", "Completed")
    ensures status == Some("cancelled") ==> b == Badge("danger", "Cancelled")
    ensures !(status.Some? && SelectsStatus(status.value)) ==> b == Badge("secondary", status.GetOr(""))
  {
    match status
    case Some("active") => Badge("primary", "Active")
    case Some("completed") => Badge("success", "Completed")
    case Some("cancelled") => Badge("danger", "Cancelled")
    case _ => Badge("secondary", status.GetOr(""))
  }

  /**
    The three statuses a filter can select are exactly the ones with a coloured badge, and
    their text is the capitalised status; every other status is shown as it came.
   */
  lemma BadgeMatchesFilters(status: Option<string>)
    ensures StatusBadge(status).bg != "secondary" <==> status.Some? && SelectsStatus(status.value)
    ensures status.Some? && SelectsStatus(status.value) ==> StatusBadge(status).text == Capitalize(status.value)
    ensures StatusBadge(status).bg == "secondary" ==> StatusBadge(status).text == status.GetOr("")
  {
    CapitalizedLabels();
  }

  /** The badge texts of the three statuses are the capitalised statuses. */
  lemma CapitalizedLabels()
    ensures Capitalize("active") == "Active"
    ensures Capitalize("completed") == "Completed"
    ensures Capitalize("cancelled") == "Cancelled"
  {
  }

  /**
    The page's state. `prescriptions` is `None` once it holds a fetched value that is not an
    array: the render's `prescriptions.filter(…)` then throws.
   */
  datatype ListState = ListState(prescriptions: Option<seq<Prescription>>, loading: bool, error: Option<string>)

  /**
    The list request's outcome: `Loaded` when `response.data.data` is an array; `NotAList`
    when it is not, with `hasBody` false when `response.data` itself is null or absent, so
    that reading `.data` from it throws; or a rejection with `err.response?.data?.message`.
   */
  datatype FetchReply = Loaded(data: seq<Prescription>) | NotAList(hasBody: bool) | FetchFailed(message: Option<string>)

  /**
    `fetchPrescriptions()`: a value that is not an array makes `.filter` throw under the three
    status filters, and the catch shows the generic message; under any other filter the
    value is stored as it came.
   */
  function FetchPrescriptions(st: ListState, store: Session.Store, filter: string, reply: FetchReply): (r: ListState)
    ensures !r.loading
    ensures !Session.HasToken(store) ==> r == st.(error := Some("Authentication required"), loading := false)
    ensures Session.HasToken(store) && reply.Loaded? ==>
              r.prescriptions.Some? && r.error == st.error
              && Lists.SubsequenceOf(r.prescriptions.value, reply.data)
              && forall i :: 0 <= i < |r.prescriptions.value| ==> Kept(filter, r.prescriptions.value[i])
    ensures Session.HasToken(store) && reply.Loaded? ==>
              && r.prescriptions == Some(StatusFilter(reply.data, filter))
              && forall i :: 0 <= i < |reply.data| && Kept(filter, reply.data[i]) ==> reply.data[i] in r.prescriptions.value
    ensures Session.HasToken(store) && reply.NotAList? && (!reply.hasBody || SelectsStatus(filter)) ==>
              r.prescriptions == st.prescriptions && r.error == Some("Failed to fetch prescriptions")
    ensures Session.HasToken(store) && reply.NotAList? && reply.hasBody && !SelectsStatus(filter) ==>
              r.prescriptions.None? && r.error == st.error
    ensures Session.HasToken(store) && reply.FetchFailed? ==>
              r.prescriptions == st.prescriptions && r.error == Some(MessageOr(reply.message, "Failed to fetch prescriptions"))
  {
    if !Session.HasToken(store) then st.(error := Some("Authentication required"), loading := false)
    else
      match reply
      case Loaded(data) => st.(prescriptions := Some(StatusFilter(data, filter)), loading := false)
      case NotAList(hasBody) =>
        if !hasBody || SelectsStatus(filter) then st.(error := Some("Failed to fetch prescriptions"), loading := false)
        else st.(prescriptions := None, loading := false)
      case FetchFailed(m) => st.(error := Some(MessageOr(m, "Failed to fetch prescriptions")), loading := false)
  }

  /**
    A fetch replaces the list only when it is signed in and either got an array or stored a
    non-array as it came; then the page can render exactly when the reply was an array.
    Otherwise it keeps what it held.
   */
  lemma UnrenderableExactly(st: ListState, store: Session.Store, filter: string, reply: FetchReply)
    ensures FetchPrescriptions(st, store, filter, reply).prescriptions.None? <==>
              if Session.HasToken(store) && (reply.Loaded? || (reply == NotAList(true) && !SelectsStatus(filter)))
              then reply.NotAList? else st.prescriptions.None?
  {
  }
}

=== FILE: register.dfy ===
/**
  The registration page: the role picker that rewrites the email's domain, the client-side
  checks that run before the request, and the messages shown for each way the request can end.
 */
module Register {
  import opened Wrappers
  import opened Strings

  /** The three roles of the picker; the page starts on `Patient`. */
  datatype Role = Patient | Doctor | Admin

  function RoleId(r: Role): string {
    match r
    case Patient => "patient"
    case Doctor => "doctor"
    case Admin => "admin"
  }

  /** The email domain each role's accounts must use. */
  function Domain(r: Role): (d: string)
    ensures |d| > 0 && d[0] == '@'
    ensures '@' !in d[1..]
    ensures r == Patient ==> d == "@patients.com"
    ensures r == Doctor ==> d == "@doctors.com"
    ensures r == Admin ==> d == "@admin.com"
  {
    match r
    case Patient => "@patients.com"
    case Doctor => "@doctors.com"
    case Admin => "@admin.com"
  }

  /** Two suffixes of one text: the shorter is a suffix of the longer. */
  lemma SuffixOfSuffix(s: string, p: string, q: string)
    requires EndsWith(s, p) && EndsWith(s, q) && |p| <= |q|
    ensures EndsWith(q, p)
  {
    assert q[|q| - |p|..] == s[|s| - |p|..];
  }

  /** No role's domain ends with another role's domain. */
  lemma DomainsNotSuffixes(a: Role, b: Role)
    ensures a != b ==> !EndsWith(Domain(a), Domain(b))
  {
    var da, db := Domain(a), Domain(b);
    if a != b && |db| <= |da| {
      assert da[|da| - |db|..][1] != db[1] || da[|da| - |db|..][0] != db[0];
    }
  }

  /** An email ends with at most one role's domain. */
  lemma OneRolePerEmail(email: string, a: Role, b: Role)
    ensures EndsWith(email, Domain(a)) && EndsWith(email, Domain(b)) ==> a == b
  {
    if EndsWith(email, Domain(a)) && EndsWith(email, Domain(b)) {
      DomainsNotSuffixes(a, b);
      DomainsNotSuffixes(b, a);
      if |Domain(a)| <= |Domain(b)| {
        SuffixOfSuffix(email, Domain(a), Domain(b));
      } else {
        SuffixOfSuffix(email, Domain(b), Domain(a));
      }
    }
  }

  datatype Form = Form(name: string, email: string, password: string, confirmPassword: string)

  datatype Page = Page(role: Role, form: Form, error: Option<string>, success: Option<string>, loading: bool)

  const InitialPage: Page := Page(Patient, Form("", "", "", ""), None, None, false)

  /** The text before the first `@`, or the whole email when it has none. */
  function Username(email: string): (u: string)
    ensures '@' !in u
    ensures StartsWith(email, u)
    ensures '@' !in email ==> u == email
  {
    SplitFirst(email, '@');
    if '@' in email then Split(email, '@')[0] else email
  }

  /** `updateEmailDomain(selectedRole)`: selects the role and puts its domain after the username. */
  function UpdateEmailDomain(p: Page, selected: Role): (r: Page)
    ensures r.role == selected
    ensures r.form == p.form.(email := Username(p.form.email) + Domain(selected))
    ensures r.error == p.error && r.success == p.success && r.loading == p.loading
  {
    p.(role := selected, form := p.form.(email := Username(p.form.email) + Domain(selected)))
  }

  /** After picking a role the email ends with that role's domain and keeps the username. */
  lemma UpdatedEmailFitsRole(p: Page, selected: Role)
    ensures EndsWith(UpdateEmailDomain(p, selected).form.email, Domain(selected))
    ensures StartsWith(UpdateEmailDomain(p, selected).form.email, Username(p.form.email))
    ensures Username(UpdateEmailDomain(p, selected).form.email) == Username(p.form.email)
  {
    var u := Username(p.form.email);
    var e := u + Domain(selected);
    assert e[|e| - |Domain(selected)|..] == Domain(selected);
    assert e[..|u|] == u;
    SplitFirstOfConcat(u, Domain(selected), '@');
  }

  /** Picking roles one after another leaves the email the last pick gives; picking twice changes nothing more. */
  lemma UpdateLastPickWins(p: Page, r1: Role, r2: Role)
    ensures UpdateEmailDomain(UpdateEmailDomain(p, r1), r2) == UpdateEmailDomain(p, r2)
    ensures UpdateEmailDomain(UpdateEmailDomain(p, r1), r1) == UpdateEmailDomain(p, r1)
  {
    UpdatedEmailFitsRole(p, r1);
  }

  /** The body posted to `/api/auth/register`. */
  datatype Request = Request(name: string, email: string, password: string, role: string)

  /**
    How the request ends: resolved with the body's `success` and `message`; rejected with a
    response (its `data.message` and `status`); rejected without a response; or failed
    before sending, with the error's `message`.
   */
  datatype Reply =
    | Resolved(success: bool, message: Option<string>)
    | HttpError(dataMessage: Option<string>, status: int)
    | NoResponse
    | ClientError(errorMessage: string)

  const FillRequired := "Please fill in all required fields"
  const PasswordsDiffer := "Passwords do not match"
  const Registered := "Registration successful! Redirecting to login..."

  /** `For ${role} accounts, email must end with ${emailDomain}` */
  function DomainMessage(r: Role): string {
    "For " + RoleId(r) + " accounts, email must end with " + Domain(r)
  }

  /** The message a failed request leaves on the page. */
  function FailureMessage(reply: Reply): Option<string> {
    match reply
    case Resolved(ok, m) => if ok then None else Some(if m.Some? && m.value != "" then m.value else "Registration failed")
    case HttpError(m, status) =>
      Some(if m.Some? && m.value != "" then m.value else "Server error: " + IntToString(status))
    case NoResponse => Some("No response from server. Check your network connection.")
    case ClientError(m) => Some("Error: " + m)
  }

  /** The submission as it leaves the page: the request sent (if any) and the path navigated to. */
  datatype Submission = Submission(page: Page, sent: Option<Request>, navigate: Option<string>)

  /** The client-side checks pass. */
  predicate Acceptable(p: Page) {
    && p.form.name != "" && p.form.email != "" && p.form.password != ""
    && p.form.password == p.form.confirmPassword
    && EndsWith(p.form.email, Domain(p.role))
  }

  /**
    `handleSubmit`: three client-side checks in order, then the request; `finally` lowers
    `loading` on every path. The two-second delay before navigating is not modelled.
   */
  function HandleSubmit(p: Page, reply: Reply): (s: Submission)
    ensures s.sent.Some? <==> Acceptable(p)
    ensures s.sent.Some? ==> s.sent.value == Request(p.form.name, p.form.email, p.form.password, RoleId(p.role))
    ensures !s.page.loading && s.page.form == p.form && s.page.role == p.role
    ensures s.navigate.Some? <==> Acceptable(p) && reply.Resolved? && reply.success
    ensures s.navigate.Some? ==> s.navigate == Some("/login") && s.page.success == Some(Registered) && s.page.error.None?
    ensures !Acceptable(p) ==> s.page.success == p.success && s.page.error.Some?
    ensures p.form.name == "" || p.form.email == "" || p.form.password == "" ==> s.page.error == Some(FillRequired)
    ensures p.form.name != "" && p.form.email != "" && p.form.password != "" && p.form.password != p.form.confirmPassword ==>
              s.page.error == Some(PasswordsDiffer)
    ensures (&& p.form.name != "" && p.form.email != "" && p.form.password != ""
             && p.form.password == p.form.confirmPassword && !EndsWith(p.form.email, Domain(p.role))) ==>
              s.page.error == Some(DomainMessage(p.role))
    ensures Acceptable(p) && s.navigate.None? ==> s.page.success.None? && s.page.error == FailureMessage(reply)
  {
    var f := p.form;
    if f.name == "" || f.email == "" || f.password == "" then
      Submission(p.(error := Some(FillRequired), loading := false), None, None)
    else if f.password != f.confirmPassword then
      Submission(p.(error := Some(PasswordsDiffer), loading := false), None, None)
    else if !EndsWith(f.email, Domain(p.role)) then
      Submission(p.(error := Some(DomainMessage(p.role)), loading := false), None, None)
    else
      var sent := Some(Request(f.name, f.email, f.password, RoleId(p.role)));
      var pending := p.(error := None, success := None);
      if reply.Resolved? && reply.success then
        Submission(pending.(success := Some(Registered), loading := false), sent, Some("/login"))
      else
        Submission(pending.(error := FailureMessage(reply), loading := false), sent, None)
  }

  /** Picking a role and typing matching passwords and a name is enough to get the request sent. */
  lemma PickedRolePassesDomainCheck(p: Page, selected: Role)
    requires p.form.name != "" && p.form.password != "" && p.form.password == p.form.confirmPassword
    ensures HandleSubmit(UpdateEmailDomain(p, selected), NoResponse).sent.Some?
  {
    UpdatedEmailFitsRole(p, selected);
  }

  /** A failed request always explains itself. */
  lemma FailureAlwaysExplained(reply: Reply)
    requires !(reply.Resolved? && reply.success)
    ensures FailureMessage(reply).Some? && FailureMessage(reply).value != ""
  {
  }
}

=== FILE: route_guard.dfy ===
/**
  The protected-route decision: given the session's `loading` flag and current user, the
  role a route requires (if any) and the location asked for, what the guard shows.
 */
module RouteGuard {
  import opened Wrappers
  import opened Users

  datatype Decision =
    | Verifying                    // the "Verifying authentication..." placeholder
    | RedirectToLogin(from: string) // `<Navigate to="/login" state={{ from: location }}>`
    | RedirectTo(path: string)      // `<Navigate to=path>`
    | RenderChildren

  /** `role && ...`: an absent or empty `role` prop requires nothing. */
  predicate RoleRequired(required: Option<string>) {
    required.Some? && required.value != ""
  }

  function Decide(loading: bool, currentUser: Option<User>, required: Option<string>, location: string): (d: Decision)
    ensures loading ==> d == Verifying
    ensures !loading && currentUser.None? ==> d == RedirectToLogin(location)
    ensures d.RedirectTo? <==>
              !loading && currentUser.Some? && RoleRequired(required) && RoleOf(currentUser.value) != required
    ensures d.RedirectTo? ==> d.path == HomePath(RoleOf(currentUser.value))
    ensures d == RenderChildren <==>
              !loading && currentUser.Some? && (!RoleRequired(required) || RoleOf(currentUser.value) == required)
  {
    if loading then Verifying
    else if currentUser.None? then RedirectToLogin(location)
    else if RoleRequired(required) && RoleOf(currentUser.value) != required then
      RedirectTo(HomePath(RoleOf(currentUser.value)))
    else RenderChildren
  }

  /** While the session is being verified nothing redirects, whoever the user and whatever the role. */
  lemma LoadingNeverRedirects(u: Option<User>, required: Option<string>, location: string)
    ensures !Decide(true, u, required, location).RedirectToLogin?
    ensures !Decide(true, u, required, location).RedirectTo?
  {
  }

  /** A signed-in user is never sent to `/login`: the only redirect targets are role homes and `/`. */
  lemma SignedInNeverToLogin(loading: bool, u: User, required: Option<string>, location: string)
    ensures !Decide(loading, Some(u), required, location).RedirectToLogin?
    ensures Decide(loading, Some(u), required, location).RedirectTo? ==>
              Decide(loading, Some(u), required, location).path != "/login"
  {
  }

  /** A role-mismatch redirect never lands on the dashboard of the role the route demanded. */
  lemma MismatchAvoidsRequiredHome(u: User, required: string, location: string)
    requires IsKnownRole(required)
    ensures Decide(false, Some(u), Some(required), location).RedirectTo? ==>
              Decide(false, Some(u), Some(required), location).path != HomePath(Some(required))
  {
    if Decide(false, Some(u), Some(required), location).RedirectTo? {
      HomePathInjective(Some(required), RoleOf(u));
    }
  }

  /** The three known roles are each sent home to their own dashboard; an unknown role goes to `/`. */
  lemma MismatchTargets(u: User, required: string, location: string)
    requires required != "" && RoleOf(u) != Some(required)
    ensures RoleOf(u) == Some("doctor") ==> Decide(false, Some(u), Some(required), location) == RedirectTo("/doctor-dashboard")
    ensures RoleOf(u) == Some("patient") ==> Decide(false, Some(u), Some(required), location) == RedirectTo("/patient-dashboard")
    ensures RoleOf(u) == Some("admin") ==> Decide(false, Some(u), Some(required), location) == RedirectTo("/admin-dashboard")
    ensures !(RoleOf(u).Some? && IsKnownRole(RoleOf(u).value)) ==> Decide(false, Some(u), Some(required), location) == RedirectTo("/")
  {
  }
}

=== FILE: schedule.dfy ===
/**
  A doctor's weekly availability editor: slots `{day, startTime, endTime}` with "HH:MM"
  times compared as strings, added after validation and an overlap check against the
  slots of the same day, removed by index (`Array.prototype.splice`), and grouped by
  weekday for display.
 */
module Schedule {
  import opened Wrappers
  import opened Strings
  import Lists

  datatype Slot = Slot(day: string, startTime: string, endTime: string)

  const DaysOfWeek: seq<string> := ["Monday", "Tuesday", "Wednesday", "Thursday", "Friday", "Saturday", "Sunday"]

  /** The cleared form. */
  const EmptySlot: Slot := Slot("", "", "")

  const FillAllFields := "Please fill in all fields"
  const EndBeforeStart := "End time must be after start time"
  const OverlapMessage := "This time slot overlaps with an existing slot"
  const AddedMessage := "Time slot added. Remember to save your changes."
  const RemovedMessage := "Time slot removed. Remember to save your changes."

  /** The editor: the slots, the form for a new slot, and the error and success banners. */
  datatype Editor = Editor(availability: seq<Slot>, newSlot: Slot, error: Option<string>, success: Option<string>)

  /** JavaScript's `a >= b` on strings, which is `!(a < b)`. */
  predicate AtLeast(a: string, b: string) {
    !Less(a, b)
  }

  /** The three-clause test `addTimeSlot` applies to an existing slot `s` and the new slot `n`. */
  predicate Overlaps(n: Slot, s: Slot) {
    && s.day == n.day
    && ( (AtLeast(n.startTime, s.startTime) && Less(n.startTime, s.endTime))
      || (Less(s.startTime, n.endTime) && AtLeast(s.endTime, n.endTime))
      || (AtLeast(s.startTime, n.startTime) && AtLeast(n.endTime, s.endTime)) )
  }

  /** Half-open intervals `[start, end)` on the same day that share a point. */
  predicate Intersect(a: Slot, b: Slot) {
    a.day == b.day && Less(a.startTime, b.endTime) && Less(b.startTime, a.endTime)
  }

  predicate ProperInterval(s: Slot) {
    Less(s.startTime, s.endTime)
  }

  /** Every slot ends after it starts, and no two slots of the same day intersect. */
  predicate WellFormed(av: seq<Slot>) {
    && (forall i :: 0 <= i < |av| ==> ProperInterval(av[i]))
    && (forall i, j :: 0 <= i < j < |av| ==> !Intersect(av[i], av[j]))
  }

  /**
    For proper intervals the three clauses say exactly that the half-open intervals
    intersect; slots on different days never conflict.
   */
  lemma OverlapsIsIntersection(n: Slot, s: Slot)
    requires ProperInterval(n) && ProperInterval(s)
    ensures Overlaps(n, s) <==> Intersect(n, s)
  {
    var ns, ne, ss, se := n.startTime, n.endTime, s.startTime, s.endTime;
    if n.day == s.day {
      // each clause implies the intersection
      if AtLeast(ns, ss) && Less(ns, se) {
        LessTotal(ns, ss);
        if ns != ss { LessTransitive(ss, ns, ne); }
      }
      if Less(ss, ne) && AtLeast(se, ne) {
        LessTotal(ne, se);
        if ne != se { LessTransitive(ns, ne, se); }
      }
      if AtLeast(ss, ns) && AtLeast(ne, se) {
        LessTotal(ns, ss);
        LessTotal(ne, se);
        if ss != ns { LessTransitive(ns, ss, se); }
        if se != ne { LessTransitive(ss, se, ne); }
      }
      // the intersection implies one of the clauses
      if Less(ns, se) && Less(ss, ne) && Less(ns, ss) && Less(se, ne) {
        LessAsymmetric(ns, ss);
        LessAsymmetric(se, ne);
      }
    }
  }

  /** `availability.find(...)`: the index of the first slot the new one overlaps. */
  function FindOverlap(av: seq<Slot>, n: Slot): (r: Option<nat>)
    ensures r.Some? ==> r.value < |av| && Overlaps(n, av[r.value])
    ensures r.Some? ==> forall k :: 0 <= k < r.value ==> !Overlaps(n, av[k])
    ensures r.None? ==> forall k :: 0 <= k < |av| ==> !Overlaps(n, av[k])
    decreases |av|
  {
    if |av| == 0 then None
    else if Overlaps(n, av[0]) then Some(0)
    else
      match FindOverlap(av[1..], n)
      case None => None
      case Some(k) => Some(k + 1)
  }

  /** `addTimeSlot()` */
  function AddTimeSlot(ed: Editor): (r: Editor)
    ensures ed.newSlot.day == "" || ed.newSlot.startTime == "" || ed.newSlot.endTime == "" ==>
              r == ed.(error := Some(FillAllFields))
    ensures r.availability != ed.availability ==>
              && ed.newSlot.day != "" && ed.newSlot.startTime != "" && ed.newSlot.endTime != ""
              && ProperInterval(ed.newSlot)
              && (forall k :: 0 <= k < |ed.availability| ==> !Overlaps(ed.newSlot, ed.availability[k]))
    ensures r.availability == ed.availability || r.availability == ed.availability + [ed.newSlot]
    ensures r.availability == ed.availability ==> r.newSlot == ed.newSlot && r.error.Some?
    ensures r.availability != ed.availability ==> r.newSlot == EmptySlot && r.error.None? && r.success == Some(AddedMessage)
  {
    var n := ed.newSlot;
    if n.day == "" || n.startTime == "" || n.endTime == "" then
      ed.(error := Some(FillAllFields))
    else if AtLeast(n.startTime, n.endTime) then
      ed.(error := Some(EndBeforeStart))
    else if FindOverlap(ed.availability, n).Some? then
      ed.(error := Some(OverlapMessage))
    else
      Editor(ed.availability + [n], EmptySlot, None, Some(AddedMessage))
  }

  /** A start time not before the end time is refused with its own message and changes nothing else. */
  lemma AddRejectsBackwardSlot(ed: Editor)
    requires ed.newSlot.day != "" && ed.newSlot.startTime != "" && ed.newSlot.endTime != ""
    requires AtLeast(ed.newSlot.startTime, ed.newSlot.endTime)
    ensures AddTimeSlot(ed) == ed.(error := Some(EndBeforeStart))
  {
  }

  /**
    A filled-in proper slot is added exactly when it intersects no slot of its day; when it
    does, the editor keeps its slots and form and shows the overlap message.
   */
  lemma AddAcceptsExactlyDisjoint(ed: Editor)
    requires WellFormed(ed.availability)
    requires ed.newSlot.day != "" && ed.newSlot.startTime != "" && ed.newSlot.endTime != ""
    requires ProperInterval(ed.newSlot)
    ensures (forall k :: 0 <= k < |ed.availability| ==> !Intersect(ed.newSlot, ed.availability[k])) ==>
              AddTimeSlot(ed).availability == ed.availability + [ed.newSlot]
    ensures (exists k :: 0 <= k < |ed.availability| && Intersect(ed.newSlot, ed.availability[k])) ==>
              AddTimeSlot(ed) == ed.(error := Some(OverlapMessage))
  {
    var n := ed.newSlot;
    LessAsymmetric(n.startTime, n.endTime);
    forall k | 0 <= k < |ed.availability|
      ensures Overlaps(n, ed.availability[k]) <==> Intersect(n, ed.availability[k])
    {
      OverlapsIsIntersection(n, ed.availability[k]);
    }
  }

  /** A successful add keeps the availability well formed. */
  lemma AddPreservesWellFormed(ed: Editor)
    requires WellFormed(ed.availability)
    ensures WellFormed(AddTimeSlot(ed).availability)
  {
    var r := AddTimeSlot(ed);
    if r.availability != ed.availability {
      var av, n := ed.availability, ed.newSlot;
      forall i | 0 <= i < |av|
        ensures !Intersect(av[i], n)
      {
        OverlapsIsIntersection(n, av[i]);
      }
      assert r.availability == av + [n];
    }
  }

  /** The position `splice(index, 1)` removes at, if any: negative indices count from the end. */
  function SpliceStart(len: nat, index: int): nat {
    if index < 0 then (if len + index < 0 then 0 else len + index) else index
  }

  /** `removeTimeSlot(index)`: `splice(index, 1)` on a copy of the availability. */
  function RemoveTimeSlot(ed: Editor, index: int): (r: Editor)
    ensures 0 <= index < |ed.availability| ==>
              r.availability == ed.availability[..index] + ed.availability[index + 1..]
    ensures index >= |ed.availability| ==> r.availability == ed.availability
    ensures -|ed.availability| <= index < 0 ==>
              r.availability == ed.availability[..|ed.availability| + index] + ed.availability[|ed.availability| + index + 1..]
    ensures index < -|ed.availability| && |ed.availability| > 0 ==> r.availability == ed.availability[1..]
    ensures r.newSlot == ed.newSlot && r.error == ed.error && r.success == Some(RemovedMessage)
  {
    var av := ed.availability;
    var k := SpliceStart(|av|, index);
    var av' := if k < |av| then av[..k] + av[k + 1..] else av;
    ed.(availability := av', success := Some(RemovedMessage))
  }

  /** Removing any slot keeps the availability well formed. */
  lemma RemovePreservesWellFormed(ed: Editor, index: int)
    requires WellFormed(ed.availability)
    ensures WellFormed(RemoveTimeSlot(ed, index).availability)
  {
    var av := ed.availability;
    var k := SpliceStart(|av|, index);
    if k < |av| {
      DropPreservesWellFormed(av, k);
    }
  }

  /** Dropping the slot at `k` keeps a well-formed availability well formed. */
  lemma DropPreservesWellFormed(av: seq<Slot>, k: nat)
    requires WellFormed(av) && k < |av|
    ensures WellFormed(av[..k] + av[k + 1..])
  {
    var r := av[..k] + av[k + 1..];
    assert forall i :: 0 <= i < |r| ==> r[i] == av[if i < k then i else i + 1];
  }

  /** The slots of `av` naming `day`, in order: `availability.filter(slot => slot.day === day)`. */
  function SlotsOn(av: seq<Slot>, day: string): (r: seq<Slot>)
    ensures |r| <= |av|
    ensures forall s :: s in r ==> s in av && s.day == day
    ensures forall i :: 0 <= i < |av| && av[i].day == day ==> av[i] in r
    ensures Lists.SubsequenceOf(r, av)
    decreases |av|
  {
    if |av| == 0 then []
    else
      var rest := SlotsOn(av[1..], day);
      if av[0].day == day then
        assert ([av[0]] + rest)[1..] == rest;
        [av[0]] + rest
      else
        assert rest != [] ==> rest[0] in rest && rest[0] != av[0];
        rest
  }

  /** A day's bucket holds every slot of that day as many times as the availability does, and nothing else. */
  lemma {:induction false} SlotsOnCounts(av: seq<Slot>, day: string)
    ensures forall x :: multiset(SlotsOn(av, day))[x] == if x.day == day then multiset(av)[x] else 0
    decreases |av|
  {
    if |av| > 0 {
      SlotsOnCounts(av[1..], day);
      var rest := SlotsOn(av[1..], day);
      Lists.CountStep(av, (x: Slot) => x.day == day, rest, SlotsOn(av, day));
    }
  }

  /** Filtering distributes over concatenation: each bucket keeps the order of the availability. */
  lemma {:induction false} SlotsOnAppend(a: seq<Slot>, b: seq<Slot>, day: string)
    ensures SlotsOn(a + b, day) == SlotsOn(a, day) + SlotsOn(b, day)
    decreases |a|
  {
    if |a| > 0 {
      assert (a + b)[1..] == a[1..] + b;
      SlotsOnAppend(a[1..], b, day);
    } else {
      assert a + b == b;
    }
  }

  /** `getAvailabilityByDay()`: each of the seven days mapped to its slots. */
  function AvailabilityByDay(av: seq<Slot>): (m: map<string, seq<Slot>>)
    ensures m.Keys == set d | d in DaysOfWeek
    ensures forall d :: d in m ==> m[d] == SlotsOn(av, d)
    ensures forall d :: d in m ==> Lists.SubsequenceOf(m[d], av) && forall s :: s in m[d] ==> s.day == d
  {
    map d | d in DaysOfWeek :: SlotsOn(av, d)
  }

  /** A slot naming no weekday (a typo, an empty day) is shown in no bucket. */
  lemma UnknownDayInNoBucket(av: seq<Slot>, s: Slot)
    requires s.day !in DaysOfWeek
    ensures forall d :: d in AvailabilityByDay(av) ==> s !in AvailabilityByDay(av)[d]
  {
  }

  /** After a successful add the new slot ends its own day's bucket, and every other bucket is unchanged. */
  lemma AddUpdatesOneBucket(ed: Editor, day: string)
    requires AddTimeSlot(ed).availability != ed.availability
    ensures SlotsOn(AddTimeSlot(ed).availability, day) ==
              SlotsOn(ed.availability, day) + (if day == ed.newSlot.day then [ed.newSlot] else [])
  {
    SlotsOnAppend(ed.availability, [ed.newSlot], day);
  }
}

=== FILE: session.dfy ===
/**
  The session state shared by the authentication provider and the authentication hook:
  the current user, the `loading` flag and the last error, together with the token slot
  of browser storage. Each operation is one atomic transition; the backend's reply is a
  parameter, and the navigation it triggers is returned as a path.
 */
module Session {
  import opened Wrappers
  import opened Users
  import opened Backend

  datatype State = State(currentUser: Option<User>, loading: bool, error: Option<string>)

  /** The `token` entry of local storage. */
  type Store = Option<string>

  /** `!token` is false: a missing or empty stored token counts as none. */
  predicate HasToken(store: Store) {
    store.Some? && store.value != ""
  }

  /**
    One operation run to completion.
    `inflight`: the state shown while the request is pending, `None` when no request is sent;
    `state`, `store`: the session and the stored token afterwards;
    `navigate`: the path handed to `navigate`, if any; `result`: what the operation returns.
   */
  datatype Step<R> = Step(inflight: Option<State>, state: State, store: Store, navigate: Option<string>, result: R)

  /** The provider's and the hook's state on mount: no user, loading, no error. */
  const Initial: State := State(None, true, None)

  /** The body of a successful login reply: `token` and `user`, either possibly missing. */
  datatype LoginReply = LoginReply(token: Option<string>, user: Option<User>)

  /** The body of a successful profile update: the updated `user`, possibly missing. */
  datatype ProfileReply = ProfileReply(user: Option<User>)

  /** `localStorage.setItem('token', t)` stores `String(t)`, so a missing token is stored as "undefined". */
  function StoredText(t: Option<string>): string {
    if t.Some? then t.value else "undefined"
  }

  /** Whenever there is a current user, the token slot is occupied. */
  predicate UserHasToken(st: State, store: Store) {
    st.currentUser.Some? ==> store.Some?
  }

  /**
    The login transition from the state shown while the request is pending: a success
    stores the token, sets the user and navigates to the user's home. Reading `user.role`
    of a success reply without a `user` throws after the token was stored, which lands in
    the generic catch.
   */
  function LoginFrom(pending: State, store: Store, reply: Outcome<LoginReply>): Step<Option<LoginReply>> {
    match reply
    case Success(d) =>
      var stored := Some(StoredText(d.token));
      if d.user.Some? then
        Step(Some(pending), pending.(currentUser := d.user), stored, Some(HomePath(RoleOf(d.user.value))), Some(d))
      else
        Step(Some(pending), pending.(currentUser := None, error := Some("Login failed. Please try again.")), stored, None, None)
    case Failure(m) =>
      Step(Some(pending), pending.(error := Some(MessageOr(m, "Login failed"))), store, None, None)
    case Thrown(m) =>
      Step(Some(pending), pending.(error := Some(MessageOr(m, "Login failed. Please try again."))), store, None, None)
  }

  /**
    A request that leaves the session alone: a success returns the payload, a resolved
    failure or a rejection sets `error` (the server's message, else the fallback).
   */
  function RequestFrom<P>(pending: State, store: Store, reply: Outcome<P>, failed: string, thrown: string): Step<Option<P>> {
    match reply
    case Success(p) => Step(Some(pending), pending, store, None, Some(p))
    case Failure(m) => Step(Some(pending), pending.(error := Some(MessageOr(m, failed))), store, None, None)
    case Thrown(m) => Step(Some(pending), pending.(error := Some(MessageOr(m, thrown))), store, None, None)
  }

  /** A profile update: a success shallow-merges the returned user into the current one. */
  function ProfileFrom(pending: State, store: Store, reply: Outcome<ProfileReply>, failed: string, thrown: string): Step<Option<ProfileReply>> {
    match reply
    case Success(d) =>
      Step(Some(pending), pending.(currentUser := Some(Merge(pending.currentUser, d.user))), store, None, Some(d))
    case Failure(m) => Step(Some(pending), pending.(error := Some(MessageOr(m, failed))), store, None, None)
    case Thrown(m) => Step(Some(pending), pending.(error := Some(MessageOr(m, thrown))), store, None, None)
  }

  /** Removes the token and the user and navigates to `/login`; it cannot fail. */
  function SignOut(st: State): Step<()> {
    Step(None, st.(currentUser := None), None, Some("/login"), ())
  }
}

=== FILE: sidebar.dfy ===
/**
  The dashboard sidebar: the navigation table of each role, which link is highlighted for
  the current pathname, and the logout button.
 */
module Sidebar {
  import opened Wrappers
  import opened Users
  import opened Strings
  import Session
  import Backend
  import AuthContext
  import RouteGuard

  datatype NavItem = NavItem(path: string, title: string)

  /** `/doctor-dashboard`, `/patient-dashboard` and `/admin-dashboard`. */
  const DoctorRoot := HomePath(Some("doctor"))
  const PatientRoot := HomePath(Some("patient"))
  const AdminRoot := HomePath(Some("admin"))

  /** `getNavItems()` for the sidebar's `role` prop (`None` when the prop is missing). */
  function NavItems(role: Option<string>): seq<NavItem> {
    if role == Some("doctor") then
      [ NavItem(DoctorRoot, "Dashboard"),
        NavItem(DoctorRoot + "/patients", "Patients"),
        NavItem(DoctorRoot + "/appointments", "Appointments"),
        NavItem(DoctorRoot + "/prescriptions", "Prescriptions"),
        NavItem(DoctorRoot + "/schedule", "Schedule"),
        NavItem(DoctorRoot + "/profile", "Profile") ]
    else if role == Some("patient") then
      [ NavItem(PatientRoot, "Dashboard"),
        NavItem(PatientRoot + "/doctors", "Find Doctors"),
        NavItem(PatientRoot + "/appointments", "Appointments"),
        NavItem(PatientRoot + "/prescriptions", "Prescriptions"),
        NavItem(PatientRoot + "/medical-records", "Medical Records"),
        NavItem(PatientRoot + "/profile", "Profile") ]
    else if role == Some("admin") then
      [ NavItem(AdminRoot, "Dashboard"),
        NavItem(AdminRoot + "/doctors", "Doctors"),
        NavItem(AdminRoot + "/patients", "Patients"),
        NavItem(AdminRoot + "/appointments", "Appointments"),
        NavItem(AdminRoot + "/settings", "Settings") ]
    else
      [ NavItem("/", "Home") ]
  }

  /** Paths under one root: the root and the root followed by pairwise different, non-empty tails. */
  lemma UnderRoot(root: string, tails: seq<string>)
    requires forall i :: 0 <= i < |tails| ==> tails[i] != ""
    requires forall i, j :: 0 <= i < j < |tails| ==> tails[i] != tails[j]
    ensures forall i :: 0 <= i < |tails| ==> StartsWith(root + tails[i], root) && root + tails[i] != root
    ensures forall i, j :: 0 <= i < j < |tails| ==> root + tails[i] != root + tails[j]
  {
    forall i | 0 <= i < |tails| ensures StartsWith(root + tails[i], root) {
      assert (root + tails[i])[..|root|] == root;
    }
    forall i, j | 0 <= i < j < |tails| ensures root + tails[i] != root + tails[j] {
      assert tails[i] == (root + tails[i])[|root|..];
      assert tails[j] == (root + tails[j])[|root|..];
    }
  }

  /** No two items of a table share a path. */
  predicate DistinctPaths(items: seq<NavItem>) {
    forall i, j :: 0 <= i < j < |items| ==> items[i].path != items[j].path
  }

  /** The link to `item` carries the `active` class exactly when the pathname equals its path. */
  predicate IsActive(pathname: string, item: NavItem) {
    pathname == item.path
  }

  /** The indices of the highlighted links. */
  function ActiveIndices(pathname: string, items: seq<NavItem>): set<int> {
    set i | 0 <= i < |items| && IsActive(pathname, items[i])
  }

  /**
    Each known role has six (doctor, patient) or five (admin) entries, all under the role's
    dashboard root, the first being that root itself (where the route guard sends the role);
    every other role, missing included, gets the single Home link to `/`. Paths never repeat.
   */
  lemma NavTables(role: Option<string>)
    ensures role == Some("doctor") || role == Some("patient") ==> |NavItems(role)| == 6
    ensures role == Some("admin") ==> |NavItems(role)| == 5
    ensures role.Some? && IsKnownRole(role.value) ==>
              && NavItems(role)[0].path == HomePath(role)
              && forall i :: 0 <= i < |NavItems(role)| ==> StartsWith(NavItems(role)[i].path, HomePath(role))
    ensures !(role.Some? && IsKnownRole(role.value)) ==> NavItems(role) == [NavItem("/", "Home")]
    ensures DistinctPaths(NavItems(role))
  {
    if role == Some("doctor") {
      DoctorTable();
    } else if role == Some("patient") {
      PatientTable();
    } else if role == Some("admin") {
      AdminTable();
    }
  }

  /** The items of a known role's table: its root, then the root followed by each tail. */
  predicate RootedTable(items: seq<NavItem>, root: string, tails: seq<string>) {
    && |items| == |tails| + 1 && items[0].path == root
    && forall i :: 0 <= i < |tails| ==> items[i + 1].path == root + tails[i]
  }

  /** A rooted table with distinct, non-empty tails lies under its root and repeats no path. */
  lemma RootedTableShape(items: seq<NavItem>, root: string, tails: seq<string>)
    requires RootedTable(items, root, tails)
    requires forall i :: 0 <= i < |tails| ==> tails[i] != ""
    requires forall i, j :: 0 <= i < j < |tails| ==> tails[i] != tails[j]
    ensures forall i :: 0 <= i < |items| ==> StartsWith(items[i].path, root)
    ensures DistinctPaths(items)
  {
    UnderRoot(root, tails);
    forall i | 0 <= i < |items| ensures StartsWith(items[i].path, root) {
      if i == 0 {
        assert root[..|root|] == root;
      } else {
        assert items[i].path == root + tails[i - 1];
      }
    }
    forall i, j | 0 <= i < j < |items| ensures items[i].path != items[j].path {
      if i == 0 {
        assert items[j].path == root + tails[j - 1];
      } else {
        assert items[i].path == root + tails[i - 1] && items[j].path == root + tails[j - 1];
      }
    }
  }

  lemma DoctorTable()
    ensures |NavItems(Some("doctor"))| == 6
    ensures forall i :: 0 <= i < 6 ==> StartsWith(NavItems(Some("doctor"))[i].path, DoctorRoot)
    ensures DistinctPaths(NavItems(Some("doctor")))
  {
    var tails := ["/patients", "/appointments", "/prescriptions", "/schedule", "/profile"];
    assert RootedTable(NavItems(Some("doctor")), DoctorRoot, tails);
    RootedTableShape(NavItems(Some("doctor")), DoctorRoot, tails);
  }

  lemma PatientTable()
    ensures |NavItems(Some("patient"))| == 6
    ensures forall i :: 0 <= i < 6 ==> StartsWith(NavItems(Some("patient"))[i].path, PatientRoot)
    ensures DistinctPaths(NavItems(Some("patient")))
  {
    var tails := ["/doctors", "/appointments", "/prescriptions", "/medical-records", "/profile"];
    assert RootedTable(NavItems(Some("patient")), PatientRoot, tails);
    RootedTableShape(NavItems(Some("patient")), PatientRoot, tails);
  }

  lemma AdminTable()
    ensures |NavItems(Some("admin"))| == 5
    ensures forall i :: 0 <= i < 5 ==> StartsWith(NavItems(Some("admin"))[i].path, AdminRoot)
    ensures DistinctPaths(NavItems(Some("admin")))
  {
    var tails := ["/doctors", "/patients", "/appointments", "/settings"];
    assert RootedTable(NavItems(Some("admin")), AdminRoot, tails);
    RootedTableShape(NavItems(Some("admin")), AdminRoot, tails);
  }

  /** With distinct paths at most one link is highlighted, and it is the one whose path is the pathname. */
  lemma AtMostOneActive(pathname: string, items: seq<NavItem>)
    requires DistinctPaths(items)
    ensures |ActiveIndices(pathname, items)| <= 1
    ensures forall i :: i in ActiveIndices(pathname, items) ==> items[i].path == pathname
  {
    var a := ActiveIndices(pathname, items);
    if a != {} {
      var i :| i in a;
      assert a == {i};
    }
  }

  /** `handleLogout`: clears the stored token and loads `/login`. */
  function HandleLogout(store: Option<string>): (r: (Option<string>, string))
    ensures r.0.None? && r.1 == "/login"
  {
    (None, "/login")
  }

  /**
    The sidebar's own logout empties the token slot and targets `/login`, as the provider's
    `logout` does. The full page load that follows finds no token, starts signed out, and
    the route guard sends every protected page to `/login`, whatever the verify reply.
   */
  lemma LogoutLikeProvider(st: Session.State, store: Session.Store, reply: Backend.Outcome<Option<User>>,
                           required: Option<string>, location: string)
    ensures HandleLogout(store).0 == AuthContext.Logout(st, store).store
    ensures AuthContext.Logout(st, store).navigate == Some(HandleLogout(store).1)
    ensures var boot := AuthContext.CheckLoggedIn(HandleLogout(store).0, reply);
            && boot.state.currentUser.None?
            && RouteGuard.Decide(boot.state.loading, boot.state.currentUser, required, location) == RouteGuard.RedirectToLogin(location)
  {
  }
}

=== FILE: strings.dfy ===
/**
  The JavaScript string operations the front end relies on, on `string` (a sequence of
  Unicode scalar values): `startsWith`, `endsWith`, `includes`, `trim`, `split`, `join`,
  ASCII `toLowerCase` / `toUpperCase`, relational comparison of strings and the decimal
  rendering of integers in template literals.
 */
module Strings {

  /** ECMAScript WhiteSpace and LineTerminator code points: what `trim` strips and `\s` matches. */
  predicate IsWhitespace(c: char) {
    || c == '\t' || c == '\n' || c == '\U{B}' || c == '\U{C}' || c == '\r' || c == ' '
    || c == '\U{A0}' || c == '\U{1680}' || ('\U{2000}' <= c <= '\U{200A}')
    || c == '\U{2028}' || c == '\U{2029}' || c == '\U{202F}' || c == '\U{205F}'
    || c == '\U{3000}' || c == '\U{FEFF}'
  }

  predicate IsUpper(c: char) { 'A' <= c <= 'Z' }

  predicate IsLower(c: char) { 'a' <= c <= 'z' }

  predicate IsAsciiLetter(c: char) { IsUpper(c) || IsLower(c) }

  /** The class `\d` of a JavaScript regular expression. */
  predicate IsDigit(c: char) { '0' <= c <= '9' }

  predicate AllDigits(s: string) {
    forall i :: 0 <= i < |s| ==> IsDigit(s[i])
  }

  /** `s.startsWith(p)` */
  predicate StartsWith(s: string, p: string) {
    |p| <= |s| && s[..|p|] == p
  }

  /** `s.endsWith(p)` */
  predicate EndsWith(s: string, p: string) {
    |p| <= |s| && s[|s| - |p|..] == p
  }

  /** `t` occurs in `s` starting at index `i`. */
  ghost predicate OccursAt(s: string, t: string, i: int) {
    0 <= i && i + |t| <= |s| && s[i..i + |t|] == t
  }

  /** `s.includes(t)`, computed by scanning `s` from the left. */
  function Includes(s: string, t: string): (r: bool)
    ensures r <==> exists i :: OccursAt(s, t, i)
    decreases |s|
  {
    if StartsWith(s, t) then
      assert OccursAt(s, t, 0);
      true
    else if |s| == 0 then
      false
    else
      OccursInTail(s, t);
      Includes(s[1..], t)
  }

  /** When `t` does not start `s`, it occurs in `s` exactly when it occurs in the tail. */
  lemma OccursInTail(s: string, t: string)
    requires |s| > 0 && !StartsWith(s, t)
    ensures (exists i :: OccursAt(s, t, i)) <==> (exists i :: OccursAt(s[1..], t, i))
  {
    if exists i :: OccursAt(s, t, i) {
      var i :| OccursAt(s, t, i);
      assert i != 0;
      assert s[1..][i - 1..i - 1 + |t|] == s[i..i + |t|];
      assert OccursAt(s[1..], t, i - 1);
    }
    if exists i :: OccursAt(s[1..], t, i) {
      var i :| OccursAt(s[1..], t, i);
      assert s[1..][i..i + |t|] == s[i + 1..i + 1 + |t|];
      assert OccursAt(s, t, i + 1);
    }
  }

  /** Every string includes the empty string; `includes('')` is how an empty search term keeps everything. */
  lemma IncludesEmpty(s: string)
    ensures Includes(s, "")
  {
    assert OccursAt(s, "", 0);
  }

  function LowerChar(c: char): char {
    if IsUpper(c) then (c as int + 32) as char else c
  }

  function UpperChar(c: char): char {
    if IsLower(c) then (c as int - 32) as char else c
  }

  /** `s.toLowerCase()` on the ASCII letters; every other character is kept. */
  function ToLower(s: string): string {
    seq(|s|, i requires 0 <= i < |s| => LowerChar(s[i]))
  }

  /** `s.toUpperCase()` on the ASCII letters; every other character is kept. */
  function ToUpper(s: string): string {
    seq(|s|, i requires 0 <= i < |s| => UpperChar(s[i]))
  }

  /** `s.charAt(0).toUpperCase() + s.slice(1)` */
  function Capitalize(s: string): (r: string)
    ensures |r| == |s| && (|s| > 0 ==> r[0] == UpperChar(s[0]) && r[1..] == s[1..])
  {
    if |s| == 0 then "" else [UpperChar(s[0])] + s[1..]
  }

  /** Lower-casing keeps the length, leaves no upper-case letter behind and is idempotent. */
  lemma ToLowerProperties(s: string)
    ensures |ToLower(s)| == |s|
    ensures forall i :: 0 <= i < |s| ==> !IsUpper(ToLower(s)[i])
    ensures ToLower(ToLower(s)) == ToLower(s)
    ensures forall i :: 0 <= i < |s| && !IsAsciiLetter(s[i]) ==> ToLower(s)[i] == s[i]
  {
  }

  /** `toLowerCase` distributes over concatenation, so a joined text can be lower-cased piecewise. */
  lemma ToLowerConcat(a: string, b: string)
    ensures ToLower(a + b) == ToLower(a) + ToLower(b)
  {
  }

  /** `s.trimStart()`: the longest suffix of `s` that does not start with whitespace. */
  function TrimStart(s: string): (r: string)
    ensures |r| <= |s| && r == s[|s| - |r|..]
    ensures forall i :: 0 <= i < |s| - |r| ==> IsWhitespace(s[i])
    ensures |r| > 0 ==> !IsWhitespace(r[0])
    decreases |s|
  {
    if |s| > 0 && IsWhitespace(s[0]) then TrimStart(s[1..]) else s
  }

  /** `s.trimEnd()`: the longest prefix of `s` that does not end with whitespace. */
  function TrimEnd(s: string): (r: string)
    ensures |r| <= |s| && r == s[..|r|]
    ensures forall i :: |r| <= i < |s| ==> IsWhitespace(s[i])
    ensures |r| > 0 ==> !IsWhitespace(r[|r| - 1])
    decreases |s|
  {
    if |s| > 0 && IsWhitespace(s[|s| - 1]) then TrimEnd(s[..|s| - 1]) else s
  }

  /** `s.trim()` */
  function Trim(s: string): string {
    TrimEnd(TrimStart(s))
  }

  predicate AllWhitespace(s: string) {
    forall i :: 0 <= i < |s| ==> IsWhitespace(s[i])
  }

  /**
    What `trim` returns: a contiguous piece `s[a..b]` that neither starts nor ends with
    whitespace, everything cut off being whitespace. In particular the result is empty
    exactly when `s` is all whitespace (the "blank after trim" test of the forms).
   */
  lemma TrimCharacterization(s: string)
    ensures exists a, b :: 0 <= a <= b <= |s| && Trim(s) == s[a..b]
              && AllWhitespace(s[..a]) && AllWhitespace(s[b..])
    ensures |Trim(s)| > 0 ==> !IsWhitespace(Trim(s)[0]) && !IsWhitespace(Trim(s)[|Trim(s)| - 1])
    ensures Trim(s) == "" <==> AllWhitespace(s)
  {
    TrimIsSlice(s);
    var a, b := TrimFrom(s), TrimFrom(s) + |Trim(s)|;
    assert 0 <= a <= b <= |s| && Trim(s) == s[a..b] && AllWhitespace(s[..a]) && AllWhitespace(s[b..]);
    TrimEnds(s);
    TrimBlank(s);
  }

  /** Where `trim`'s result starts in `s`: the length of the leading whitespace. */
  function TrimFrom(s: string): nat {
    |s| - |TrimStart(s)|
  }

  /** `trim` keeps the slice of `s` from `TrimFrom(s)` and cuts off whitespace only, on both sides. */
  lemma TrimIsSlice(s: string)
    ensures TrimFrom(s) + |Trim(s)| <= |s| && Trim(s) == s[TrimFrom(s)..TrimFrom(s) + |Trim(s)|]
    ensures AllWhitespace(s[..TrimFrom(s)]) && AllWhitespace(s[TrimFrom(s) + |Trim(s)|..])
  {
    var t := TrimStart(s);
    var r := TrimEnd(t);
    CutBothEnds(s, t, |s| - |t|, r);
  }

  /**
    Cutting whitespace off the front of `s` (leaving `t`) and then off the back of `t`
    (leaving `r`) leaves the slice `s[a..a + |r|]` with whitespace on both sides.
   */
  lemma CutBothEnds(s: string, t: string, a: nat, r: string)
    requires a <= |s| && t == s[a..] && forall i :: 0 <= i < a ==> IsWhitespace(s[i])
    requires |r| <= |t| && r == t[..|r|] && forall i :: |r| <= i < |t| ==> IsWhitespace(t[i])
    ensures a + |r| <= |s| && r == s[a..a + |r|]
    ensures AllWhitespace(s[..a]) && AllWhitespace(s[a + |r|..])
  {
    SliceOfSuffix(s, t, a, r);
    CutOffIsWhitespace(s, a);
    TrailingIsWhitespace(s, t, a, |r|);
  }

  /** A prefix `r` of the suffix `t == s[a..]` is the slice `s[a..a + |r|]`. */
  lemma SliceOfSuffix(s: string, t: string, a: nat, r: string)
    requires a <= |s| && t == s[a..] && |r| <= |t| && r == t[..|r|]
    ensures a + |r| <= |s| && r == s[a..a + |r|]
  {
  }

  /** Whitespace after position `n` of the suffix `t == s[a..]` is whitespace at the end of `s`. */
  lemma TrailingIsWhitespace(s: string, t: string, a: nat, n: nat)
    requires a <= |s| && t == s[a..] && n <= |t|
    requires forall i :: n <= i < |t| ==> IsWhitespace(t[i])
    ensures AllWhitespace(s[a + n..])
  {
    assert forall i :: a + n <= i < |s| ==> s[i] == t[i - a];
    CutOffIsWhitespace(s, a + n);
  }

  /** What `trim` keeps neither starts nor ends with whitespace. */
  lemma TrimEnds(s: string)
    ensures |Trim(s)| > 0 ==> !IsWhitespace(Trim(s)[0]) && !IsWhitespace(Trim(s)[|Trim(s)| - 1])
  {
    var t := TrimStart(s);
    assert |TrimEnd(t)| > 0 ==> TrimEnd(t)[0] == t[0];
  }

  /** Whitespace-only positions before `k` (or from `k` on) make the corresponding slice all whitespace. */
  lemma CutOffIsWhitespace(s: string, k: nat)
    requires k <= |s|
    ensures (forall i :: 0 <= i < k ==> IsWhitespace(s[i])) ==> AllWhitespace(s[..k])
    ensures (forall i :: k <= i < |s| ==> IsWhitespace(s[i])) ==> AllWhitespace(s[k..])
  {
    assert forall i :: 0 <= i < k ==> s[..k][i] == s[i];
    assert forall i :: 0 <= i < |s| - k ==> s[k..][i] == s[k + i];
  }

  /** `trim` leaves nothing exactly when every character is whitespace. */
  lemma TrimBlank(s: string)
    ensures Trim(s) == "" <==> AllWhitespace(s)
  {
    var t := TrimStart(s);
    BlankAfterCuts(s, t, |s| - |t|, TrimEnd(t));
  }

  /**
    After cutting leading whitespace (leaving `t`, which starts with a non-blank) and then
    trailing whitespace (leaving `r`), nothing is left exactly when `s` is all whitespace.
   */
  lemma BlankAfterCuts(s: string, t: string, a: nat, r: string)
    requires a <= |s| && t == s[a..] && forall i :: 0 <= i < a ==> IsWhitespace(s[i])
    requires |t| > 0 ==> !IsWhitespace(t[0])
    requires |r| <= |t| && forall i :: |r| <= i < |t| ==> IsWhitespace(t[i])
    ensures r == "" <==> AllWhitespace(s)
  {
    assert forall i :: a <= i < |s| ==> s[i] == t[i - a];
  }

  /** `s.split(sep)` for a one-character separator: the pieces between occurrences of `sep`. */
  function Split(s: string, sep: char): (r: seq<string>)
    ensures |r| >= 1
    ensures forall k :: 0 <= k < |r| ==> sep !in r[k]
    decreases |s|
  {
    if |s| == 0 then [""]
    else if s[0] == sep then [""] + Split(s[1..], sep)
    else
      var rest := Split(s[1..], sep);
      [[s[0]] + rest[0]] + rest[1..]
  }

  /** `parts.join(d)` */
  function Join(parts: seq<string>, d: string): string
    decreases |parts|
  {
    if |parts| == 0 then ""
    else if |parts| == 1 then parts[0]
    else parts[0] + d + Join(parts[1..], d)
  }

  /** Joining the pieces of a split with the same separator gives back the original text. */
  lemma {:induction false} JoinSplit(s: string, sep: char)
    ensures Join(Split(s, sep), [sep]) == s
    decreases |s|
  {
    if |s| == 0 {
    } else if s[0] == sep {
      JoinSplit(s[1..], sep);
      assert s == [sep] + s[1..];
    } else {
      var rest := Split(s[1..], sep);
      JoinSplit(s[1..], sep);
      if |rest| == 1 {
        assert s == [s[0]] + s[1..];
      } else {
        var parts := [[s[0]] + rest[0]] + rest[1..];
        assert parts[1..] == rest[1..];
        assert s == [s[0]] + s[1..];
      }
    }
  }

  /** Splitting `u + [sep] + t` where `u` holds no separator gives `u`, then the pieces of `t`. */
  lemma {:induction false} SplitConcat(u: string, t: string, sep: char)
    requires sep !in u
    ensures Split(u + [sep] + t, sep) == [u] + Split(t, sep)
    decreases |u|
  {
    var s := u + [sep] + t;
    if |u| == 0 {
      assert s == [sep] + t;
      assert s[1..] == t;
    } else {
      SplitConcat(u[1..], t, sep);
      assert s[1..] == u[1..] + [sep] + t;
      assert [u[0]] + u[1..] == u;
    }
  }

  /** Splitting a join of separator-free pieces gives the pieces back. */
  lemma {:induction false} SplitJoin(parts: seq<string>, sep: char)
    requires |parts| >= 1
    requires forall k :: 0 <= k < |parts| ==> sep !in parts[k]
    ensures Split(Join(parts, [sep]), sep) == parts
    decreases |parts|
  {
    if |parts| == 1 {
      SplitFirst(parts[0], sep);
    } else {
      SplitJoin(parts[1..], sep);
      SplitConcat(parts[0], Join(parts[1..], [sep]), sep);
      assert parts == [parts[0]] + parts[1..];
    }
  }

  /** Text found in one piece of a join is found in the joined text. */
  lemma {:induction false} IncludesJoinPart(parts: seq<string>, d: string, k: nat, t: string)
    requires k < |parts| && Includes(parts[k], t)
    ensures Includes(Join(parts, d), t)
    decreases |parts|
  {
    if |parts| > 1 {
      var rest := Join(parts[1..], d);
      assert Join(parts, d) == parts[0] + (d + rest);
      if k == 0 {
        var i :| OccursAt(parts[0], t, i);
        OccursInPrefix(parts[0], d + rest, t, i);
      } else {
        IncludesJoinPart(parts[1..], d, k - 1, t);
        var j :| OccursAt(rest, t, j);
        OccursInSuffix(parts[0] + d, rest, t, j);
        assert parts[0] + (d + rest) == (parts[0] + d) + rest;
      }
    }
  }

  /** An occurrence in `u` is an occurrence in `u + w` at the same place. */
  lemma OccursInPrefix(u: string, w: string, t: string, i: int)
    requires OccursAt(u, t, i)
    ensures OccursAt(u + w, t, i)
  {
    assert (u + w)[i..i + |t|] == u[i..i + |t|];
  }

  /** An occurrence in `w` is an occurrence in `u + w`, shifted by `|u|`. */
  lemma OccursInSuffix(u: string, w: string, t: string, j: int)
    requires OccursAt(w, t, j)
    ensures OccursAt(u + w, t, |u| + j)
  {
    assert (u + w)[|u| + j..|u| + j + |t|] == w[j..j + |t|];
  }

  /**
    The first piece of a split is the text before the first separator, or the whole text
    when there is none: `s.split('@')[0]`.
   */
  lemma {:induction false} SplitFirst(s: string, sep: char)
    ensures StartsWith(s, Split(s, sep)[0])
    ensures sep in s <==> |Split(s, sep)| > 1
    ensures sep in s ==> s[|Split(s, sep)[0]|] == sep
    ensures sep !in s ==> Split(s, sep) == [s]
    decreases |s|
  {
    if |s| == 0 {
    } else if s[0] == sep {
    } else {
      SplitFirst(s[1..], sep);
      assert sep in s <==> sep in s[1..];
      assert s == [s[0]] + s[1..];
    }
  }

  /** The first piece of `u + t` is `u` when `t` starts with the separator and `u` holds none. */
  lemma SplitFirstOfConcat(u: string, t: string, sep: char)
    requires sep !in u && |t| > 0 && t[0] == sep
    ensures Split(u + t, sep)[0] == u
  {
    var s := u + t;
    SplitFirst(s, sep);
    var first := Split(s, sep)[0];
    assert s[|u|] == sep;
    assert sep in s;
    assert first == s[..|u|] == u;
  }

  /** JavaScript's `a < b` on strings: lexicographic order, a proper prefix coming first. */
  predicate Less(a: string, b: string)
    decreases |a|
  {
    if |a| == 0 then |b| > 0
    else if |b| == 0 then false
    else if a[0] != b[0] then a[0] < b[0]
    else Less(a[1..], b[1..])
  }

  /** JavaScript's `a <= b` on strings. */
  predicate LessEq(a: string, b: string) {
    a == b || Less(a, b)
  }

  lemma {:induction false} LessIrreflexive(a: string)
    ensures !Less(a, a)
    decreases |a|
  {
    if |a| > 0 {
      LessIrreflexive(a[1..]);
    }
  }

  lemma {:induction false} LessTransitive(a: string, b: string, c: string)
    requires Less(a, b) && Less(b, c)
    ensures Less(a, c)
    decreases |a|
  {
    if |a| > 0 && a[0] == b[0] && b[0] == c[0] {
      LessTransitive(a[1..], b[1..], c[1..]);
    }
  }

  /** Any two strings are equal or ordered one way round: the order is total. */
  lemma {:induction false} LessTotal(a: string, b: string)
    ensures a == b || Less(a, b) || Less(b, a)
    decreases |a|
  {
    if |a| > 0 && |b| > 0 && a[0] == b[0] {
      LessTotal(a[1..], b[1..]);
      if a[1..] == b[1..] {
        assert a == [a[0]] + a[1..] && b == [b[0]] + b[1..];
      }
    }
  }

  /** Two strings that agree up to index `i` and differ there are ordered by that character. */
  lemma {:induction false} LessAtFirstDifference(a: string, b: string, i: nat)
    requires i < |a| && i < |b| && a[..i] == b[..i] && a[i] < b[i]
    ensures Less(a, b)
    decreases i
  {
    if i > 0 {
      assert a[0] == a[..i][0] == b[..i][0] == b[0];
      assert a[1..][..i - 1] == a[..i][1..] == b[..i][1..] == b[1..][..i - 1];
      LessAtFirstDifference(a[1..], b[1..], i - 1);
    }
  }

  lemma {:induction false} LessAsymmetric(a: string, b: string)
    requires Less(a, b)
    ensures !Less(b, a) && a != b
  {
    if Less(b, a) {
      LessTransitive(a, b, a);
      LessIrreflexive(a);
    }
    if a == b {
      LessIrreflexive(a);
    }
  }

  function DigitChar(d: nat): char
    requires d < 10
  {
    ('0' as int + d) as char
  }

  function DigitValue(c: char): nat
    requires IsDigit(c)
  {
    c as int - '0' as int
  }

  /** The decimal digits of `n`, as a template literal prints a non-negative integer. */
  function NatToString(n: nat): (r: string)
    ensures |r| >= 1 && AllDigits(r)
    ensures |r| > 1 ==> r[0] != '0'
    decreases n
  {
    if n < 10 then [DigitChar(n)] else NatToString(n / 10) + [DigitChar(n % 10)]
  }

  /** `${i}` for an integer `i`. */
  function IntToString(i: int): string {
    if i < 0 then "-" + NatToString(-i) else NatToString(i)
  }

  /** Reads a run of decimal digits back as a number. */
  function ParseDigits(s: string): nat
    requires AllDigits(s)
    decreases |s|
  {
    if |s| == 0 then 0 else ParseDigits(s[..|s| - 1]) * 10 + DigitValue(s[|s| - 1])
  }

  /** Printing a number in decimal loses nothing: reading the digits back gives the number. */
  lemma {:induction false} ParseNatToString(n: nat)
    ensures ParseDigits(NatToString(n)) == n
    decreases n
  {
    if n >= 10 {
      ParseNatToString(n / 10);
      var s := NatToString(n);
      assert s[..|s| - 1] == NatToString(n / 10);
    }
  }
}

=== FILE: theme.dfy ===
/**
  The theme provider: the theme and font size it starts from (saved values, then the
  operating system's colour preference), the three ways to change them, and the effects
  that mirror them onto the document root, the body's class list and local storage.
 */
module Theme {
  import opened Wrappers

  const Light := "light"
  const Dark := "dark"
  const Medium := "medium"
  const DarkClass := "dark-theme"
  const FontPrefix := "font-"
  const Sizes: set<string> := {"small", "medium", "large"}
  const FontClasses: set<string> := {"font-small", "font-medium", "font-large"}

  /** The two keys the provider keeps in local storage. */
  datatype Store = Store(theme: Option<string>, fontSize: Option<string>)

  /** The `data-theme` and `data-font-size` attributes of the root element, and the body's classes. */
  datatype Doc = Doc(dataTheme: Option<string>, dataFontSize: Option<string>, classes: set<string>)

  /** The provider's state. */
  datatype Ctx = Ctx(theme: string, fontSize: string)

  datatype World = World(ctx: Ctx, store: Store, doc: Doc)

  /** `localStorage.getItem(key) || fallback` for a string item. */
  function SavedOr(saved: Option<string>, fallback: string): (r: string)
    ensures saved.Some? && saved.value != "" ==> r == saved.value
    ensures !(saved.Some? && saved.value != "") ==> r == fallback
  {
    if saved.Some? && saved.value != "" then saved.value else fallback
  }

  /**
    `getInitialTheme()`: the saved theme when non-empty, whatever it is; otherwise `dark`
    when the system prefers a dark scheme and `light` when it does not (or cannot say).
   */
  function InitialTheme(saved: Option<string>, prefersDark: bool): (t: string)
    ensures t != ""
    ensures saved.Some? && saved.value != "" ==> t == saved.value
    ensures !(saved.Some? && saved.value != "") ==> t == (if prefersDark then Dark else Light)
  {
    SavedOr(saved, if prefersDark then Dark else Light)
  }

  /** `localStorage.getItem('fontSize') || 'medium'` */
  function InitialFontSize(saved: Option<string>): (s: string)
    ensures s != ""
    ensures saved.Some? && saved.value != "" ==> s == saved.value
    ensures !(saved.Some? && saved.value != "") ==> s == Medium
  {
    SavedOr(saved, Medium)
  }

  /** `toggleTheme()`: `prev === 'light' ? 'dark' : 'light'` */
  function Toggle(t: string): (r: string)
    ensures r == Light || r == Dark
    ensures t == Light <==> r == Dark
  {
    if t == Light then Dark else Light
  }

  /** Toggling twice gives back a light or dark theme, and sends any other theme to `light`. */
  lemma ToggleInvolution(t: string)
    ensures t == Light || t == Dark ==> Toggle(Toggle(t)) == t && Toggle(t) != t
    ensures t != Light && t != Dark ==> Toggle(t) == Light && Toggle(Toggle(t)) == Dark
  {
  }

  /** `setSpecificTheme(next)`: only `light` and `dark` are taken. */
  function SetSpecificTheme(current: string, next: string): (r: string)
    ensures next == Light || next == Dark ==> r == next
    ensures next != Light && next != Dark ==> r == current
  {
    if next == Light || next == Dark then next else current
  }

  /** `changeFontSize(size)`: only `small`, `medium` and `large` are taken. */
  function ChangeFontSize(current: string, size: string): (r: string)
    ensures size in Sizes ==> r == size
    ensures size !in Sizes ==> r == current
  {
    if size in Sizes then size else current
  }

  // ---------------------------------------------------------------------------------------
  // Effects
  // ---------------------------------------------------------------------------------------

  /** The theme effect: the root attribute, the stored value and the body's `dark-theme` class. */
  function ThemeEffect(w: World): (r: World)
    ensures r.ctx == w.ctx && r.store.fontSize == w.store.fontSize && r.doc.dataFontSize == w.doc.dataFontSize
    ensures r.doc.dataTheme == Some(w.ctx.theme) && r.store.theme == Some(w.ctx.theme)
    ensures DarkClass in r.doc.classes <==> w.ctx.theme == Dark
    ensures r.doc.classes - {DarkClass} == w.doc.classes - {DarkClass}
  {
    var classes := if w.ctx.theme == Dark then w.doc.classes + {DarkClass} else w.doc.classes - {DarkClass};
    World(w.ctx, w.store.(theme := Some(w.ctx.theme)), w.doc.(dataTheme := Some(w.ctx.theme), classes := classes))
  }

  /** `'font-' + a` determines `a`. */
  lemma FontClassInjective(a: string, b: string)
    ensures FontPrefix + a == FontPrefix + b <==> a == b
  {
    if FontPrefix + a == FontPrefix + b {
      assert a == (FontPrefix + a)[|FontPrefix|..];
    }
  }

  /** The font effect: the root attribute, the stored value, and one `font-*` class on the body. */
  function FontEffect(w: World): (r: World)
    ensures r.ctx == w.ctx && r.store.theme == w.store.theme && r.doc.dataTheme == w.doc.dataTheme
    ensures r.doc.dataFontSize == Some(w.ctx.fontSize) && r.store.fontSize == Some(w.ctx.fontSize)
    ensures FontPrefix + w.ctx.fontSize in r.doc.classes
    ensures forall c :: c in FontClasses ==> (c in r.doc.classes <==> c == FontPrefix + w.ctx.fontSize)
    ensures r.doc.classes - FontClasses - {FontPrefix + w.ctx.fontSize} == w.doc.classes - FontClasses - {FontPrefix + w.ctx.fontSize}
  {
    var classes := w.doc.classes - FontClasses + {FontPrefix + w.ctx.fontSize};
    World(w.ctx, w.store.(fontSize := Some(w.ctx.fontSize)), w.doc.(dataFontSize := Some(w.ctx.fontSize), classes := classes))
  }

  /** Both effects leave a world they have already been applied to as it is. */
  lemma EffectsIdempotent(w: World)
    ensures ThemeEffect(ThemeEffect(w)) == ThemeEffect(w)
    ensures FontEffect(FontEffect(w)) == FontEffect(w)
  {
  }

  // ---------------------------------------------------------------------------------------
  // The provider's life
  // ---------------------------------------------------------------------------------------

  /** The document and storage agree with the provider's state. */
  predicate Consistent(w: World) {
    && w.ctx.theme != "" && w.ctx.fontSize != ""
    && w.store == Store(Some(w.ctx.theme), Some(w.ctx.fontSize))
    && w.doc.dataTheme == Some(w.ctx.theme) && w.doc.dataFontSize == Some(w.ctx.fontSize)
    && (DarkClass in w.doc.classes <==> w.ctx.theme == Dark)
    && FontPrefix + w.ctx.fontSize in w.doc.classes
    && (forall c :: c in FontClasses ==> (c in w.doc.classes <==> c == FontPrefix + w.ctx.fontSize))
  }

  /** Mounting: the initial state from storage and the system preference, then both effects. */
  function Mount(store: Store, prefersDark: bool, doc: Doc): (w: World)
    ensures w.ctx == Ctx(InitialTheme(store.theme, prefersDark), InitialFontSize(store.fontSize))
    ensures Consistent(w)
  {
    var w0 := World(Ctx(InitialTheme(store.theme, prefersDark), InitialFontSize(store.fontSize)), store, doc);
    var w1 := FontEffect(ThemeEffect(w0));
    DarkClassIsNotAFontClass(w0.ctx.fontSize);
    w1
  }

  /** `toggleTheme()` followed by the theme effect. */
  function ToggleTheme(w: World): World {
    ThemeEffect(w.(ctx := w.ctx.(theme := Toggle(w.ctx.theme))))
  }

  /** `setTheme(next)` followed by the theme effect. */
  function SetTheme(w: World, next: string): World {
    ThemeEffect(w.(ctx := w.ctx.(theme := SetSpecificTheme(w.ctx.theme, next))))
  }

  /** `changeFontSize(size)` followed by the font effect. */
  function SetFontSize(w: World, size: string): World {
    FontEffect(w.(ctx := w.ctx.(fontSize := ChangeFontSize(w.ctx.fontSize, size))))
  }

  lemma DarkClassIsNotAFontClass(size: string)
    ensures DarkClass !in FontClasses && DarkClass != FontPrefix + size
  {
    assert DarkClass[0] != (FontPrefix + size)[0];
  }

  /** Every action keeps the document and storage in step with the state. */
  lemma ActionsKeepConsistent(w: World, next: string, size: string)
    requires Consistent(w)
    ensures Consistent(ToggleTheme(w)) && ToggleTheme(w).ctx.fontSize == w.ctx.fontSize
    ensures Consistent(SetTheme(w, next)) && SetTheme(w, next).ctx.fontSize == w.ctx.fontSize
    ensures Consistent(SetFontSize(w, size)) && SetFontSize(w, size).ctx.theme == w.ctx.theme
  {
    DarkClassIsNotAFontClass(w.ctx.fontSize);
    DarkClassIsNotAFontClass(ChangeFontSize(w.ctx.fontSize, size));
  }

  /**
    On a chosen size exactly one of the three font classes is on the body, the one named
    after it; a saved size outside the three leaves none of them.
   */
  lemma OneFontClass(w: World)
    requires Consistent(w)
    ensures w.ctx.fontSize in Sizes ==> forall c :: c in FontClasses ==> (c in w.doc.classes <==> c == FontPrefix + w.ctx.fontSize)
    ensures w.ctx.fontSize !in Sizes ==> forall c :: c in FontClasses ==> c !in w.doc.classes
  {
    if w.ctx.fontSize !in Sizes {
      forall c | c in FontClasses ensures c !in w.doc.classes {
        FontClassInjective(w.ctx.fontSize, c[|FontPrefix|..]);
        assert c == FontPrefix + c[|FontPrefix|..];
      }
    }
  }

  /** A reload reads back what the effects stored, so the theme and font size survive it whatever the system prefers. */
  lemma ReloadRestores(w: World, prefersDark: bool, doc: Doc)
    requires Consistent(w)
    ensures Mount(w.store, prefersDark, doc).ctx == w.ctx
  {
  }
}

=== FILE: uri.dfy ===
/**
  `encodeURIComponent` on text made of Unicode scalar values: characters of the unreserved
  set stay, every other character becomes the `%XX` escapes (upper-case hexadecimal) of its
  UTF-8 bytes. The decoder that undoes it (`decodeURIComponent`, which also accepts
  lower-case hexadecimal and rejects malformed escapes) is its partner: decoding an encoding
  gives back the text.
 */
module Uri {
  import opened Wrappers

  /** `A-Z a-z 0-9 - _ . ! ~ * ' ( )`: the characters `encodeURIComponent` leaves alone. */
  predicate Unreserved(c: char) {
    ('A' <= c <= 'Z') || ('a' <= c <= 'z') || ('0' <= c <= '9')
    || c == '-' || c == '_' || c == '.' || c == '!' || c == '~' || c == '*' || c == '\'' || c == '(' || c == ')'
  }

  predicate IsUpperHex(c: char) {
    ('0' <= c <= '9') || ('A' <= c <= 'F')
  }

  function HexDigit(d: nat): (c: char)
    requires d < 16
    ensures IsUpperHex(c)
  {
    if d < 10 then ('0' as int + d) as char else ('A' as int + d - 10) as char
  }

  /** The value of a hexadecimal digit of either case. */
  function HexValue(c: char): (r: Option<nat>)
    ensures r.Some? ==> r.value < 16
  {
    if '0' <= c <= '9' then Some(c as int - '0' as int)
    else if 'A' <= c <= 'F' then Some(c as int - 'A' as int + 10)
    else if 'a' <= c <= 'f' then Some(c as int - 'a' as int + 10)
    else None
  }

  /** `%XY` for a byte. */
  function PercentByte(b: nat): (r: string)
    requires b < 256
    ensures |r| == 3 && r[0] == '%' && IsUpperHex(r[1]) && IsUpperHex(r[2])
  {
    ['%', HexDigit(b / 16), HexDigit(b % 16)]
  }

  predicate Bytes(bs: seq<nat>) {
    forall i :: 0 <= i < |bs| ==> bs[i] < 256
  }

  function PercentBytes(bs: seq<nat>): (r: string)
    requires Bytes(bs)
    ensures |r| == 3 * |bs|
    decreases |bs|
  {
    if |bs| == 0 then "" else PercentByte(bs[0]) + PercentBytes(bs[1..])
  }

  /** The UTF-8 encoding of a scalar value. */
  function Utf8(c: char): (bs: seq<nat>)
    ensures 1 <= |bs| <= 4 && Bytes(bs)
  {
    var n := c as int;
    if n < 0x80 then [n]
    else if n < 0x800 then [0xC0 + n / 64, 0x80 + n % 64]
    else if n < 0x10000 then [0xE0 + n / 4096, 0x80 + (n / 64) % 64, 0x80 + n % 64]
    else [0xF0 + n / 262144, 0x80 + (n / 4096) % 64, 0x80 + (n / 64) % 64, 0x80 + n % 64]
  }

  function EncodeChar(c: char): (r: string)
    ensures |r| >= 1
  {
    if Unreserved(c) then [c] else PercentBytes(Utf8(c))
  }

  /** `encodeURIComponent(s)` */
  function Encode(s: string): (r: string)
    ensures |r| >= |s|
    decreases |s|
  {
    if |s| == 0 then "" else EncodeChar(s[0]) + Encode(s[1..])
  }

  /** What an encoding can contain: unreserved characters, `%` and upper-case hexadecimal digits. */
  lemma EncodeAlphabet(s: string)
    ensures forall i :: 0 <= i < |Encode(s)| ==> Unreserved(Encode(s)[i]) || Encode(s)[i] == '%'
  {
    if |s| > 0 {
      EncodeAlphabet(s[1..]);
      var c := s[0];
      if !Unreserved(c) {
        PercentBytesAlphabet(Utf8(c));
      }
    }
  }

  lemma PercentBytesAlphabet(bs: seq<nat>)
    requires Bytes(bs)
    ensures forall i :: 0 <= i < |PercentBytes(bs)| ==> Unreserved(PercentBytes(bs)[i]) || PercentBytes(bs)[i] == '%'
  {
    if |bs| > 0 {
      PercentBytesAlphabet(bs[1..]);
    }
  }

  // ---------------------------------------------------------------------------------------
  // Decoding
  // ---------------------------------------------------------------------------------------

  /** The byte written as `%XY` at index `i`, if there is one. */
  function ReadByte(s: string, i: nat): (r: Option<nat>)
    ensures r.Some? ==> r.value < 256
  {
    if i + 3 <= |s| && s[i] == '%' && HexValue(s[i + 1]).Some? && HexValue(s[i + 2]).Some? then
      Some(16 * HexValue(s[i + 1]).value + HexValue(s[i + 2]).value)
    else None
  }

  /** The payload bits of a continuation byte `10xxxxxx` at index `i`. */
  function ReadContinuation(s: string, i: nat): (r: Option<nat>)
    ensures r.Some? ==> r.value < 64
  {
    var b := ReadByte(s, i);
    if b.Some? && 0x80 <= b.value < 0xC0 then Some(b.value - 0x80) else None
  }

  /** A code point that is a Unicode scalar value. */
  function ScalarChar(n: int): Option<char> {
    if 0 <= n < 0xD800 || 0xE000 <= n < 0x110000 then Some(n as char) else None
  }

  /**
    The first character of a non-empty encoding and the number of characters it occupies;
    `None` for a malformed escape, an overlong sequence or a surrogate, which
    `decodeURIComponent` rejects.
   */
  function DecodeOne(s: string): (r: Option<(char, nat)>)
    requires |s| > 0
    ensures r.Some? ==> 1 <= r.value.1 <= |s|
  {
    if s[0] != '%' then Some((s[0], 1))
    else
      match ReadByte(s, 0)
      case None => None
      case Some(b0) =>
        if b0 < 0x80 then Some((b0 as char, 3))
        else if b0 < 0xC0 then None
        else if b0 < 0xE0 then
          match ReadContinuation(s, 3)
          case None => None
          case Some(x1) =>
            var n := (b0 - 0xC0) * 64 + x1;
            if n < 0x80 then None else Some((n as char, 6))
        else if b0 < 0xF0 then
          match (ReadContinuation(s, 3), ReadContinuation(s, 6))
          case (Some(x1), Some(x2)) =>
            var n := (b0 - 0xE0) * 4096 + x1 * 64 + x2;
            if n < 0x800 then None
            else (match ScalarChar(n) case None => None case Some(c) => Some((c, 9)))
          case _ => None
        else if b0 < 0xF8 then
          match (ReadContinuation(s, 3), ReadContinuation(s, 6), ReadContinuation(s, 9))
          case (Some(x1), Some(x2), Some(x3)) =>
            var n := (b0 - 0xF0) * 262144 + x1 * 4096 + x2 * 64 + x3;
            if n < 0x10000 then None
            else (match ScalarChar(n) case None => None case Some(c) => Some((c, 12)))
          case _ => None
        else None
  }

  /** `decodeURIComponent(s)`; `None` where it throws `URIError`. */
  function Decode(s: string): Option<string>
    decreases |s|
  {
    if |s| == 0 then Some("")
    else
      match DecodeOne(s)
      case None => None
      case Some((c, k)) =>
        match Decode(s[k..])
        case None => None
        case Some(rest) => Some([c] + rest)
  }

  lemma HexRoundTrip(d: nat)
    requires d < 16
    ensures HexValue(HexDigit(d)) == Some(d)
  {
  }

  /** The byte written by `PercentByte` at index `i` reads back. */
  lemma ReadPercentByte(s: string, i: nat, b: nat)
    requires b < 256 && i + 3 <= |s| && s[i..i + 3] == PercentByte(b)
    ensures ReadByte(s, i) == Some(b)
  {
    assert s[i] == '%' && s[i + 1] == HexDigit(b / 16) && s[i + 2] == HexDigit(b % 16);
    HexRoundTrip(b / 16);
    HexRoundTrip(b % 16);
  }

  /** The `k`-th escape of a byte string sits at `3 * k`. */
  lemma {:induction false} PercentBytesAt(bs: seq<nat>, k: nat, at: nat)
    requires Bytes(bs) && k < |bs| && at == 3 * k
    ensures at + 3 <= |PercentBytes(bs)| && PercentBytes(bs)[at..at + 3] == PercentByte(bs[k])
    decreases k
  {
    if k > 0 {
      PercentBytesAt(bs[1..], k - 1, at - 3);
      assert PercentBytes(bs) == PercentByte(bs[0]) + PercentBytes(bs[1..]);
    }
  }

  /** The escapes of a byte string read back byte by byte. */
  lemma ReadPercentBytes(bs: seq<nat>, rest: string, k: nat, at: nat)
    requires Bytes(bs) && k < |bs| && at == 3 * k
    ensures ReadByte(PercentBytes(bs) + rest, at) == Some(bs[k])
  {
    var p := PercentBytes(bs);
    PercentBytesAt(bs, k, at);
    SliceOfPrefix(p, rest, at, at + 3);
    ReadPercentByte(p + rest, at, bs[k]);
  }

  /** A slice that ends inside the first part of a concatenation is a slice of that part. */
  lemma SliceOfPrefix(a: string, b: string, i: nat, j: nat)
    requires i <= j <= |a|
    ensures (a + b)[i..j] == a[i..j]
  {
  }

  lemma DecodeTwo(s: string, n: int)
    requires 0x80 <= n < 0x800 && |s| >= 6 && s[0] == '%'
    requires ReadByte(s, 0) == Some(0xC0 + n / 64) && ReadContinuation(s, 3) == Some(n % 64)
    ensures DecodeOne(s) == Some((n as char, 6))
  {
  }

  lemma DecodeThree(s: string, n: int)
    requires 0x800 <= n < 0x10000 && (n < 0xD800 || 0xE000 <= n) && |s| >= 9 && s[0] == '%'
    requires ReadByte(s, 0) == Some(0xE0 + n / 4096)
    requires ReadContinuation(s, 3) == Some((n / 64) % 64) && ReadContinuation(s, 6) == Some(n % 64)
    ensures DecodeOne(s) == Some((n as char, 9))
  {
    ThreeDigits(n);
    var a, b, c := n / 4096, (n / 64) % 64, n % 64;
    assert a * 4096 + b * 64 + c == n;
    assert 0xE0 <= 0xE0 + a < 0xF0;
  }

  /** A code point below 0x10000 is three base-64 digits. */
  lemma ThreeDigits(n: int)
    requires 0 <= n < 0x10000
    ensures (n / 4096) * 4096 + ((n / 64) % 64) * 64 + n % 64 == n
    ensures n / 4096 < 16
  {
    var q := n / 64;
    assert n == q * 64 + n % 64;
    assert q == (q / 64) * 64 + q % 64;
    assert q / 64 == n / 4096;
  }

  lemma DecodeFour(s: string, n: int)
    requires 0x10000 <= n < 0x110000 && |s| >= 12 && s[0] == '%'
    requires ReadByte(s, 0) == Some(0xF0 + n / 262144)
    requires ReadContinuation(s, 3) == Some((n / 4096) % 64) && ReadContinuation(s, 6) == Some((n / 64) % 64)
    requires ReadContinuation(s, 9) == Some(n % 64)
    ensures DecodeOne(s) == Some((n as char, 12))
  {
    var a, b, c, d := n / 262144, (n / 4096) % 64, (n / 64) % 64, n % 64;
    FourDigits(n);
    assert a * 262144 + b * 4096 + c * 64 + d == n;
    assert 0xF0 + a < 0xF8;
  }

  /** A code point below 0x110000 is four base-64 digits. */
  lemma FourDigits(n: int)
    requires 0 <= n < 0x110000
    ensures (n / 262144) * 262144 + ((n / 4096) % 64) * 4096 + ((n / 64) % 64) * 64 + n % 64 == n
    ensures n / 262144 < 8
  {
    var q := n / 64;
    assert n == q * 64 + n % 64;
    var q2 := q / 64;
    assert q == q2 * 64 + q % 64;
    assert q2 == n / 4096;
    assert q2 == (q2 / 64) * 64 + q2 % 64;
    assert q2 / 64 == n / 262144;
  }

  /** Decoding the start of an encoding recovers its first character and its width. */
  lemma DecodeOneEncodeChar(c: char, rest: string)
    ensures DecodeOne(EncodeChar(c) + rest) == Some((c, |EncodeChar(c)|))
  {
    if !Unreserved(c) {
      var n := c as int;
      if n < 0x80 {
        DecodeEscapedOne(c, rest);
      } else if n < 0x800 {
        DecodeEscapedTwo(c, rest);
      } else if n < 0x10000 {
        DecodeEscapedThree(c, rest);
      } else {
        DecodeEscapedFour(c, rest);
      }
    }
  }

  lemma DecodeEscapedOne(c: char, rest: string)
    requires c as int < 0x80
    ensures DecodeOne(PercentBytes(Utf8(c)) + rest) == Some((c, 3))
  {
    ReadPercentBytes(Utf8(c), rest, 0, 0);
  }

  lemma DecodeEscapedTwo(c: char, rest: string)
    requires 0x80 <= c as int < 0x800
    ensures DecodeOne(PercentBytes(Utf8(c)) + rest) == Some((c, 6))
  {
    var bs, s := Utf8(c), PercentBytes(Utf8(c)) + rest;
    ReadPercentBytes(bs, rest, 0, 0);
    ReadPercentBytes(bs, rest, 1, 3);
    DecodeTwo(s, c as int);
  }

  lemma DecodeEscapedThree(c: char, rest: string)
    requires 0x800 <= c as int < 0x10000
    ensures DecodeOne(PercentBytes(Utf8(c)) + rest) == Some((c, 9))
  {
    var bs, s := Utf8(c), PercentBytes(Utf8(c)) + rest;
    ReadPercentBytes(bs, rest, 0, 0);
    ReadPercentBytes(bs, rest, 1, 3);
    ReadPercentBytes(bs, rest, 2, 6);
    DecodeThree(s, c as int);
  }

  lemma DecodeEscapedFour(c: char, rest: string)
    requires 0x10000 <= c as int
    ensures DecodeOne(PercentBytes(Utf8(c)) + rest) == Some((c, 12))
  {
    var bs, s := Utf8(c), PercentBytes(Utf8(c)) + rest;
    ReadPercentBytes(bs, rest, 0, 0);
    ReadPercentBytes(bs, rest, 1, 3);
    ReadPercentBytes(bs, rest, 2, 6);
    ReadPercentBytes(bs, rest, 3, 9);
    DecodeFour(s, c as int);
  }

  /** `decodeURIComponent(encodeURIComponent(s)) === s` */
  lemma {:induction false} DecodeEncode(s: string)
    ensures Decode(Encode(s)) == Some(s)
    decreases |s|
  {
    if |s| > 0 {
      var e := Encode(s);
      var head := EncodeChar(s[0]);
      DecodeOneEncodeChar(s[0], Encode(s[1..]));
      assert e[|head|..] == Encode(s[1..]);
      DecodeEncode(s[1..]);
      assert s == [s[0]] + s[1..];
    }
  }
}

=== FILE: use_auth.dfy ===
/**
  The authentication hook: the same transitions as the provider, except that every request
  is bracketed by `loading` (true while pending, false on every exit), the hook checks for a
  token before updating the profile, and its password-reset requests honour the `success` flag.
 */
module UseAuth {
  import opened Wrappers
  import opened Users
  import opened Backend
  import opened Session
  import AuthContext

  /** The state shown while a hook request is pending. */
  function Pending(st: State): State {
    st.(error := None, loading := true)
  }

  /** The `finally { setLoading(false) }` of every hook request. */
  function Settle<R>(s: Step<R>): Step<R> {
    s.(state := s.state.(loading := false))
  }

  /** `checkAuthStatus`: like the provider's check, but clears the user explicitly on every failure. */
  function CheckAuthStatus(stored: Store, reply: Outcome<Option<User>>): (s: Step<()>)
    ensures !HasToken(stored) ==> s.inflight.None? && s.state.currentUser.None? && !s.state.loading
    ensures HasToken(stored) && !reply.Success? ==> s.store.None? && s.state.currentUser.None?
    ensures HasToken(stored) && reply.Success? ==> s.state.currentUser == reply.payload
    ensures !s.state.loading
  {
    if !HasToken(stored) then
      Step(None, Initial.(currentUser := None, loading := false), stored, None, ())
    else
      match reply
      case Success(u) => Step(Some(Initial), Initial.(currentUser := u, loading := false), stored, None, ())
      case _ => Step(Some(Initial), Initial.(currentUser := None, loading := false), None, None, ())
  }

  /** `login`: the provider's login, with `loading` raised while the request is pending. */
  function Login(st: State, store: Store, reply: Outcome<LoginReply>): (s: Step<Option<LoginReply>>)
    ensures s.inflight == Some(Pending(st)) && !s.state.loading
    ensures reply.Success? && reply.payload.user.Some? ==>
              && s.store == Some(StoredText(reply.payload.token))
              && s.state.currentUser == reply.payload.user
              && s.navigate == Some(HomePath(RoleOf(reply.payload.user.value)))
    ensures !reply.Success? ==> s.store == store && s.state.currentUser == st.currentUser && s.result.None?
  {
    Settle(LoginFrom(Pending(st), store, reply))
  }

  /** `register`: never signs the user in. */
  function Register<P>(st: State, store: Store, reply: Outcome<P>): (s: Step<Option<P>>)
    ensures s.inflight == Some(Pending(st)) && !s.state.loading
    ensures s.store == store && s.state.currentUser == st.currentUser && s.navigate.None?
    ensures s.result.Some? <==> reply.Success?
    ensures reply.Failure? ==> s.state.error == Some(MessageOr(reply.message, "Registration failed"))
    ensures reply.Thrown? ==> s.state.error == Some(MessageOr(reply.message, "Registration failed. Please try again."))
  {
    Settle(RequestFrom(Pending(st), store, reply, "Registration failed", "Registration failed. Please try again."))
  }

  /** `logout` */
  function Logout(st: State, store: Store): (s: Step<()>)
    ensures s.store.None? && s.state.currentUser.None? && s.navigate == Some("/login")
  {
    SignOut(st)
  }

  /**
    `updateProfile`: without a stored token nothing is sent and the call fails with
    'Authentication required'; otherwise a success shallow-merges the returned user.
   */
  function UpdateProfile(st: State, store: Store, reply: Outcome<ProfileReply>): (s: Step<Option<ProfileReply>>)
    ensures !s.state.loading && s.store == store && s.navigate.None?
    ensures !HasToken(store) ==>
              && s.inflight.None? && s.result.None?
              && s.state == st.(error := Some("Authentication required"), loading := false)
    ensures HasToken(store) ==> s.inflight == Some(Pending(st))
    ensures HasToken(store) && reply.Success? ==>
              s.state.currentUser == Some(Merge(st.currentUser, reply.payload.user)) && s.state.error.None?
    ensures HasToken(store) && reply.Failure? ==>
              s.state.currentUser == st.currentUser && s.state.error == Some(MessageOr(reply.message, "Profile update failed"))
    ensures HasToken(store) && reply.Thrown? ==>
              s.state.currentUser == st.currentUser
              && s.state.error == Some(MessageOr(reply.message, "Profile update failed. Please try again."))
  {
    if !HasToken(store) then
      Step(None, st.(error := Some("Authentication required"), loading := false), store, None, None)
    else
      Settle(ProfileFrom(Pending(st), store, reply, "Profile update failed", "Profile update failed. Please try again."))
  }

  /** `forgotPassword`: returns the body only when `success` is set; never touches the session. */
  function ForgotPassword<P>(st: State, store: Store, reply: Outcome<P>): (s: Step<Option<P>>)
    ensures s.inflight == Some(Pending(st)) && !s.state.loading
    ensures s.store == store && s.state.currentUser == st.currentUser && s.navigate.None?
    ensures s.result.Some? <==> reply.Success?
    ensures reply.Success? ==> s.result == Some(reply.payload) && s.state.error.None?
    ensures reply.Failure? ==> s.state.error == Some(MessageOr(reply.message, "Password reset request failed"))
    ensures reply.Thrown? ==>
              s.state.error == Some(MessageOr(reply.message, "Password reset request failed. Please try again."))
  {
    Settle(RequestFrom(Pending(st), store, reply, "Password reset request failed",
                       "Password reset request failed. Please try again."))
  }

  /** `resetPassword`: returns the body only when `success` is set; never touches the session. */
  function ResetPassword<P>(st: State, store: Store, reply: Outcome<P>): (s: Step<Option<P>>)
    ensures s.inflight == Some(Pending(st)) && !s.state.loading
    ensures s.store == store && s.state.currentUser == st.currentUser && s.navigate.None?
    ensures s.result.Some? <==> reply.Success?
    ensures reply.Success? ==> s.result == Some(reply.payload) && s.state.error.None?
    ensures reply.Failure? ==> s.state.error == Some(MessageOr(reply.message, "Password reset failed"))
    ensures reply.Thrown? ==> s.state.error == Some(MessageOr(reply.message, "Password reset failed. Please try again."))
  {
    Settle(RequestFrom(Pending(st), store, reply, "Password reset failed", "Password reset failed. Please try again."))
  }

  /** The hook's startup ends exactly where the provider's does. */
  lemma StartupAgrees(stored: Store, reply: Outcome<Option<User>>)
    ensures CheckAuthStatus(stored, reply) == AuthContext.CheckLoggedIn(stored, reply)
  {
  }

  /**
    The hook's login stores the same token, sets the same user and error, navigates to the
    same place and returns the same value as the provider's; only `loading` differs.
   */
  lemma LoginAgrees(st: State, store: Store, reply: Outcome<LoginReply>)
    ensures Login(st, store, reply).state == AuthContext.Login(st, store, reply).state.(loading := false)
    ensures Login(st, store, reply).store == AuthContext.Login(st, store, reply).store
    ensures Login(st, store, reply).navigate == AuthContext.Login(st, store, reply).navigate
    ensures Login(st, store, reply).result == AuthContext.Login(st, store, reply).result
  {
  }

  /**
    Where the provider returns a password-reset body regardless of `success`, the hook
    returns it only on success: the two agree exactly on successful replies.
   */
  lemma ResetDiffersFromProvider<P>(st: State, store: Store, reply: Outcome<P>)
    ensures reply.Success? ==> AuthContext.ResetPassword(st, store, reply).result == Some(reply)
                                && ResetPassword(st, store, reply).result == Some(reply.payload)
    ensures reply.Failure? ==> AuthContext.ResetPassword(st, store, reply).result == Some(reply)
                                && ResetPassword(st, store, reply).result.None?
  {
  }
}

=== FILE: users.dfy ===
/**
  The signed-in user as the front end holds it: the decoded `user` object of the backend,
  its `role` property, the dashboard each role calls home, and the shallow merge a
  profile update applies.
 */
module Users {
  import opened Wrappers
  import opened Json

  /** A user record: property name to value. */
  datatype User = User(props: map<string, Json>)

  /** The three roles the pages know by name. */
  predicate IsKnownRole(role: string) {
    role == "doctor" || role == "patient" || role == "admin"
  }

  /** `user.role` when it is a string; any other value compares unequal to every role name. */
  function RoleOf(u: User): Option<string> {
    if "role" in u.props && u.props["role"].JStr? then Some(u.props["role"].s) else None
  }

  /**
    The dashboard root of a role: the `if` chain on `role === 'doctor'`, `'patient'`,
    `'admin'` that both the login redirect and the route guard use, each branch naming
    `/<role>-dashboard`; `/` for anything else.
   */
  function HomePath(role: Option<string>): string {
    if role.Some? && IsKnownRole(role.value) then "/" + role.value + "-dashboard" else "/"
  }

  /** Distinct roles have distinct homes, and no known role's home is `/`. */
  lemma HomePathInjective(a: Option<string>, b: Option<string>)
    requires a.Some? && IsKnownRole(a.value)
    ensures HomePath(a) != "/"
    ensures HomePath(a) == HomePath(b) ==> a == b
  {
    if HomePath(a) == HomePath(b) {
      assert HomePath(b) != "/";
      assert b.Some? && IsKnownRole(b.value);
      assert HomePath(a)[1..|HomePath(a)| - 10] == a.value;
      assert HomePath(b)[1..|HomePath(b)| - 10] == b.value;
    }
  }

  /**
    `{...prev, ...update}`: properties of `update` win, the others of `prev` are kept; a
    missing object spreads as nothing.
   */
  function Merge(prev: Option<User>, update: Option<User>): (u: User)
    ensures forall k :: k in u.props <==>
              (prev.Some? && k in prev.value.props) || (update.Some? && k in update.value.props)
    ensures forall k :: update.Some? && k in update.value.props ==> u.props[k] == update.value.props[k]
    ensures forall k :: prev.Some? && k in prev.value.props && !(update.Some? && k in update.value.props) ==>
              u.props[k] == prev.value.props[k]
  {
    var p := if prev.Some? then prev.value.props else map[];
    var q := if update.Some? then update.value.props else map[];
    User(p + q)
  }
}

=== FILE: validations.dfy ===
/**
  The form validators: the four regular expressions (email, password, phone, name), the
  single-field validators that return an error message or the empty string, the form
  validators that collect those messages into an `errors` object with an `isValid` flag,
  and the formatter that turns a failed request into one displayable message.

  Each regular expression is stated twice: as a declarative reading of the pattern, and as
  the single pass the validator performs; the two are proved to agree.
 */
module Validations {
  import opened Wrappers
  import opened Strings
  import opened Json

  const EmailRequired := "Email is required"
  const EmailInvalid := "Please enter a valid email address"
  const PasswordRequired := "Password is required"
  const PasswordWeak := "Password must be at least 8 characters long and contain at least one letter and one number"
  const ConfirmRequired := "Please confirm your password"
  const PasswordsDiffer := "Passwords do not match"
  const NameRequired := "Name is required"
  const NameInvalid := "Please enter a valid name"
  const NameTooShort := "Name must be at least 2 characters long"
  const PhoneRequired := "Phone number is required"
  const PhoneInvalid := "Please enter a valid phone number"
  const DateRequired := "Date is required"
  const DateInPast := "Date cannot be in the past"

  // ---------------------------------------------------------------------------------------
  // Character classes
  // ---------------------------------------------------------------------------------------

  /** `[a-zA-Z0-9._%+-]` */
  predicate LocalChar(c: char) {
    IsAsciiLetter(c) || IsDigit(c) || c == '.' || c == '_' || c == '%' || c == '+' || c == '-'
  }

  /** `[a-zA-Z0-9.-]` */
  predicate DomainChar(c: char) {
    IsAsciiLetter(c) || IsDigit(c) || c == '.' || c == '-'
  }

  /** `[A-Za-z\d@$!%*#?&]` */
  predicate PasswordChar(c: char) {
    IsAsciiLetter(c) || IsDigit(c) || c == '@' || c == '$' || c == '!' || c == '%' || c == '*'
    || c == '#' || c == '?' || c == '&'
  }

  /** `[a-zA-Z\s'-]` */
  predicate NameChar(c: char) {
    IsAsciiLetter(c) || IsWhitespace(c) || c == '\'' || c == '-'
  }

  predicate AllLocal(s: string) { forall i :: 0 <= i < |s| ==> LocalChar(s[i]) }
  predicate AllDomain(s: string) { forall i :: 0 <= i < |s| ==> DomainChar(s[i]) }
  predicate AllLetters(s: string) { forall i :: 0 <= i < |s| ==> IsAsciiLetter(s[i]) }

  // ---------------------------------------------------------------------------------------
  // Email: /^[a-zA-Z0-9._%+-]+@[a-zA-Z0-9.-]+\.[a-zA-Z]{2,}$/
  // ---------------------------------------------------------------------------------------

  /**
    The pattern matched with the `@` at `at` and the final `.` at `dot`: a non-empty local
    part, a non-empty domain, and a top-level label of at least two letters.
   */
  predicate EmailShape(s: string, at: int, dot: int) {
    && 0 < at && at + 1 < dot && dot + 3 <= |s|
    && s[at] == '@' && s[dot] == '.'
    && AllLocal(s[..at]) && AllDomain(s[at + 1..dot]) && AllLetters(s[dot + 1..])
  }

  /** The text matches the email pattern for some choice of `@` and final `.`. */
  ghost predicate MatchesEmail(s: string) {
    exists at, dot :: EmailShape(s, at, dot)
  }

  /** The index of the first `c` in `s`. */
  function FirstIndex(s: string, c: char): (r: Option<nat>)
    ensures r.None? <==> c !in s
    ensures r.Some? ==> r.value < |s| && s[r.value] == c && forall k :: 0 <= k < r.value ==> s[k] != c
    decreases |s|
  {
    if |s| == 0 then None
    else if s[0] == c then Some(0)
    else
      match FirstIndex(s[1..], c)
      case None => None
      case Some(k) => Some(k + 1)
  }

  /** The index of the last `c` in `s`. */
  function LastIndex(s: string, c: char): (r: Option<nat>)
    ensures r.None? <==> c !in s
    ensures r.Some? ==> r.value < |s| && s[r.value] == c && forall k :: r.value < k < |s| ==> s[k] != c
    decreases |s|
  {
    if |s| == 0 then None
    else if s[|s| - 1] == c then Some(|s| - 1)
    else
      var r := LastIndex(s[..|s| - 1], c);
      assert forall k :: 0 <= k < |s| - 1 ==> s[..|s| - 1][k] == s[k];
      r
  }

  /**
    The single pass: `@` cannot occur in the local part and `.` cannot occur in the final
    label, so the only candidates are the first `@` and the last `.`.
   */
  predicate IsEmail(s: string) {
    var at := FirstIndex(s, '@');
    var dot := LastIndex(s, '.');
    at.Some? && dot.Some? && EmailShape(s, at.value, dot.value)
  }

  lemma IsEmailMatchesPattern(s: string)
    ensures IsEmail(s) <==> MatchesEmail(s)
  {
    if MatchesEmail(s) {
      var at, dot :| EmailShape(s, at, dot);
      var a := FirstIndex(s, '@');
      var d := LastIndex(s, '.');
      assert s[at] == '@';
      assert a.Some? && a.value <= at;
      assert d.Some? && d.value >= dot;
    }
  }

  /** `validateEmail(email)`: the empty string when valid, else the first failing rule's message. */
  function ValidateEmail(email: string): (r: string)
    ensures email == "" ==> r == EmailRequired
    ensures email != "" ==> (r == "" <==> MatchesEmail(email))
    ensures email != "" && !MatchesEmail(email) ==> r == EmailInvalid
    ensures r == "" || r == EmailRequired || r == EmailInvalid
  {
    IsEmailMatchesPattern(email);
    if email == "" then EmailRequired
    else if !IsEmail(email) then EmailInvalid
    else ""
  }

  // ---------------------------------------------------------------------------------------
  // Password: /^(?=.*[A-Za-z])(?=.*\d)[A-Za-z\d@$!%*#?&]{8,}$/
  // ---------------------------------------------------------------------------------------

  /** At least eight allowed characters, among them a letter and a digit. */
  predicate StrongPassword(s: string) {
    && |s| >= 8
    && (forall i :: 0 <= i < |s| ==> PasswordChar(s[i]))
    && (exists i :: 0 <= i < |s| && IsAsciiLetter(s[i]))
    && (exists i :: 0 <= i < |s| && IsDigit(s[i]))
  }

  /** The single pass over the password the regular expression engine performs. */
  method ScanPassword(s: string) returns (ok: bool)
    ensures ok <==> StrongPassword(s)
  {
    var letter, digit, allowed := false, false, true;
    var i := 0;
    while i < |s|
      invariant 0 <= i <= |s|
      invariant letter <==> exists k :: 0 <= k < i && IsAsciiLetter(s[k])
      invariant digit <==> exists k :: 0 <= k < i && IsDigit(s[k])
      invariant allowed <==> forall k :: 0 <= k < i ==> PasswordChar(s[k])
    {
      letter := letter || IsAsciiLetter(s[i]);
      digit := digit || IsDigit(s[i]);
      allowed := allowed && PasswordChar(s[i]);
      i := i + 1;
    }
    ok := |s| >= 8 && allowed && letter && digit;
  }

  /** `validatePassword(password)` */
  method ValidatePassword(password: string) returns (r: string)
    ensures password == "" ==> r == PasswordRequired
    ensures r == "" <==> StrongPassword(password)
    ensures password != "" && !StrongPassword(password) ==> r == PasswordWeak
    ensures r == "" || r == PasswordRequired || r == PasswordWeak
  {
    if password == "" {
      return PasswordRequired;
    }
    var ok := ScanPassword(password);
    r := if ok then "" else PasswordWeak;
  }

  /** `validateConfirmPassword(password, confirmPassword)` */
  function ValidateConfirmPassword(password: string, confirm: string): (r: string)
    ensures r == "" <==> confirm != "" && confirm == password
    ensures confirm == "" ==> r == ConfirmRequired
    ensures confirm != "" && confirm != password ==> r == PasswordsDiffer
  {
    if confirm == "" then ConfirmRequired
    else if password != confirm then PasswordsDiffer
    else ""
  }

  // ---------------------------------------------------------------------------------------
  // Name: /^[a-zA-Z\s'-]+$/ and the two-character minimum
  // ---------------------------------------------------------------------------------------

  /** `NAME_REGEX` read left to right: an allowed character, then either the end or another match. */
  predicate NamePattern(s: string)
    decreases |s|
  {
    |s| > 0 && NameChar(s[0]) && (|s| == 1 || NamePattern(s[1..]))
  }

  /** The pattern holds exactly for a non-empty text of allowed characters. */
  lemma {:induction false} NamePatternAllowed(s: string)
    ensures NamePattern(s) <==> s != "" && forall i :: 0 <= i < |s| ==> NameChar(s[i])
    decreases |s|
  {
    if |s| > 1 {
      NamePatternAllowed(s[1..]);
      assert (forall i :: 0 <= i < |s| ==> NameChar(s[i])) <==>
             NameChar(s[0]) && forall i :: 0 <= i < |s[1..]| ==> NameChar(s[1..][i]) by {
        assert forall i :: 1 <= i < |s| ==> s[i] == s[1..][i - 1];
      }
    }
  }

  /** A name the registration form accepts: the pattern and at least two characters. */
  predicate NameAccepted(name: string) {
    |name| >= 2 && forall i :: 0 <= i < |name| ==> NameChar(name[i])
  }

  /**
    `validateName(name)`: emptiness first, then the pattern, then the length, each with
    its own message.
   */
  function ValidateName(name: string): (r: string)
    ensures r == "" <==> NameAccepted(name)
    ensures r == "" <==> NamePattern(name) && |name| >= 2
    ensures name == "" ==> r == NameRequired
    ensures name != "" && !NamePattern(name) ==> r == NameInvalid
    ensures NamePattern(name) && |name| < 2 ==> r == NameTooShort
    ensures |name| == 1 && NameChar(name[0]) ==> r == NameTooShort
    ensures (exists i :: 0 <= i < |name| && !NameChar(name[i])) ==> r == NameInvalid
  {
    NamePatternAllowed(name);
    if name == "" then NameRequired
    else if exists i :: 0 <= i < |name| && !NameChar(name[i]) then NameInvalid
    else if |name| < 2 then NameTooShort
    else ""
  }

  // ---------------------------------------------------------------------------------------
  // Phone: /^\+?[0-9]{10,15}$/
  // ---------------------------------------------------------------------------------------

  /** The pattern read left to right: an optional `+`, then 10 to 15 digits and nothing else. */
  predicate PhonePattern(s: string) {
    var digits := if |s| > 0 && s[0] == '+' then s[1..] else s;
    10 <= |digits| <= 15 && AllDigits(digits)
  }

  /** `validatePhone(phone)` */
  function ValidatePhone(phone: string): (r: string)
    ensures phone == "" ==> r == PhoneRequired
    ensures r == "" <==>
              && (forall i :: 0 <= i < |phone| ==> IsDigit(phone[i]) || (i == 0 && phone[i] == '+'))
              && 10 <= |phone| - (if |phone| > 0 && phone[0] == '+' then 1 else 0) <= 15
    ensures phone != "" && r != "" ==> r == PhoneInvalid
    ensures phone != "" && !PhonePattern(phone) ==> r == PhoneInvalid
    ensures r == "" || r == PhoneRequired || r == PhoneInvalid
  {
    if phone == "" then PhoneRequired
    else if !PhonePattern(phone) then
      assert !IsDigit('+');
      PhoneInvalid
    else
      assert phone[0] == '+' ==> forall i :: 1 <= i < |phone| ==> phone[i] == phone[1..][i - 1];
      ""
  }

  // ---------------------------------------------------------------------------------------
  // Dates: the comparison with today is a parameter
  // ---------------------------------------------------------------------------------------

  /**
    `validateDate(date)`; `beforeToday` is the value of `new Date(date) < today` (with
    `today` at local midnight), which is false for a text JavaScript cannot parse.
   */
  function ValidateDate(date: string, beforeToday: bool): (r: string)
    ensures r == "" <==> date != "" && !beforeToday
    ensures date == "" ==> r == DateRequired
    ensures date != "" && beforeToday ==> r == DateInPast
  {
    if date == "" then DateRequired
    else if beforeToday then DateInPast
    else ""
  }

  // ---------------------------------------------------------------------------------------
  // Forms
  // ---------------------------------------------------------------------------------------

  /** The property names of the error objects. */
  datatype Field =
    | Name | Email | Password | ConfirmPassword | Phone
    | DoctorId | Date | TimeSlot | Reason
    | PatientId | Diagnosis | Medications | StartDate | Dosage | Frequency

  /** `{ isValid, errors }`, the errors keyed by property name. */
  datatype FormResult<E> = FormResult(isValid: bool, errors: map<Field, E>)

  /** `if (fails) errors.field = value` */
  function Note<E>(errors: map<Field, E>, field: Field, fails: bool, value: E): map<Field, E> {
    if fails then errors[field := value] else errors
  }

  /**
    The `errors` object of checks run in order, each written `if (message) errors.field =
    message`: the empty message is the check passing.
   */
  function Collect(checks: seq<(Field, string)>): map<Field, string>
    decreases |checks|
  {
    if checks == [] then map[]
    else
      var last := checks[|checks| - 1];
      Note(Collect(checks[..|checks| - 1]), last.0, last.1 != "", last.1)
  }

  /** No two checks write the same property. */
  predicate DistinctFields(checks: seq<(Field, string)>) {
    forall i, j :: 0 <= i < j < |checks| ==> checks[i].0 != checks[j].0
  }

  /**
    With one check per property, a property is present exactly when its check failed, it
    holds that check's message, and no other property is present.
   */
  lemma {:induction false} CollectFacts(checks: seq<(Field, string)>)
    requires DistinctFields(checks)
    ensures forall i :: 0 <= i < |checks| ==> (checks[i].0 in Collect(checks) <==> checks[i].1 != "")
    ensures forall i :: 0 <= i < |checks| && checks[i].1 != "" ==> Collect(checks)[checks[i].0] == checks[i].1
    ensures forall k :: k in Collect(checks) ==> exists i :: 0 <= i < |checks| && checks[i].0 == k
    decreases |checks|
  {
    if checks != [] {
      var init := checks[..|checks| - 1];
      var last := checks[|checks| - 1];
      assert forall i :: 0 <= i < |init| ==> init[i] == checks[i];
      CollectFacts(init);
      forall i | 0 <= i < |checks| - 1 ensures checks[i].0 != last.0 {
        assert checks[i].0 != checks[|checks| - 1].0;
      }
    }
  }

  /** Empty or whitespace only, scanned from the front. */
  predicate Blank(s: string)
    decreases |s|
  {
    |s| == 0 || (IsWhitespace(s[0]) && Blank(s[1..]))
  }

  /**
    The forms' test `!x || x.trim() === ''` (a missing text counting as empty) is exactly
    `Blank`: the trimmed text is empty when every character is whitespace.
   */
  lemma {:induction false} BlankIsTrimEmpty(s: string)
    ensures Blank(s) <==> Trim(s) == ""
    ensures Blank(s) <==> AllWhitespace(s)
    decreases |s|
  {
    TrimCharacterization(s);
    if |s| > 0 {
      BlankIsTrimEmpty(s[1..]);
      assert AllWhitespace(s) <==> IsWhitespace(s[0]) && AllWhitespace(s[1..]) by {
        assert forall i :: 1 <= i < |s| ==> s[i] == s[1..][i - 1];
      }
    }
  }

  datatype LoginData = LoginData(email: string, password: string)

  /** `validateLoginForm(data)` */
  method ValidateLoginForm(data: LoginData) returns (r: FormResult<string>)
    ensures r.isValid <==> MatchesEmail(data.email) && StrongPassword(data.password)
    ensures r.isValid <==> r.errors == map[]
    ensures forall k :: k in r.errors <==>
              (k == Email && !MatchesEmail(data.email)) || (k == Password && !StrongPassword(data.password))
    ensures Email in r.errors ==> r.errors[Email] == (if data.email == "" then EmailRequired else EmailInvalid)
    ensures Password in r.errors ==> r.errors[Password] == (if data.password == "" then PasswordRequired else PasswordWeak)
  {
    IsEmailMatchesPattern("");
    var emailError := ValidateEmail(data.email);
    var passwordError := ValidatePassword(data.password);
    var errors := Note(map[], Email, emailError != "", emailError);
    errors := Note(errors, Password, passwordError != "", passwordError);
    assert Email in errors || Password in errors <==> errors != map[];
    r := FormResult(errors == map[], errors);
  }

  datatype RegistrationData = RegistrationData(name: string, email: string, password: string,
                                               confirmPassword: string, phone: string)

  /** What registration accepts: the phone is optional, everything else is checked. */
  ghost predicate RegistrationAcceptable(data: RegistrationData) {
    && NameAccepted(data.name)
    && MatchesEmail(data.email)
    && StrongPassword(data.password)
    && data.confirmPassword == data.password
    && (data.phone == "" || PhonePattern(data.phone))
  }

  /** The registration form's five checks, written in source order. */
  function RegistrationChecks(name: string, email: string, password: string, confirm: string, phone: string): seq<(Field, string)> {
    [(Name, name), (Email, email), (Password, password), (ConfirmPassword, confirm), (Phone, phone)]
  }

  /** Each of the five properties is present exactly when its message is, and holds it. */
  lemma RegistrationFields(name: string, email: string, password: string, confirm: string, phone: string)
    ensures var e := Collect(RegistrationChecks(name, email, password, confirm, phone));
            && (Name in e <==> name != "") && (Name in e ==> e[Name] == name)
            && (Email in e <==> email != "") && (Email in e ==> e[Email] == email)
            && (Password in e <==> password != "") && (Password in e ==> e[Password] == password)
            && (ConfirmPassword in e <==> confirm != "") && (ConfirmPassword in e ==> e[ConfirmPassword] == confirm)
            && (Phone in e <==> phone != "") && (Phone in e ==> e[Phone] == phone)
  {
    var checks := RegistrationChecks(name, email, password, confirm, phone);
    CollectFacts(checks);
    FiveFields(Collect(checks), name, email, password, confirm, phone);
  }

  /** The per-check facts about a map, read off for each of the five registration checks. */
  lemma FiveFields(e: map<Field, string>, name: string, email: string, password: string, confirm: string, phone: string)
    requires var checks := RegistrationChecks(name, email, password, confirm, phone);
             && (forall i :: 0 <= i < |checks| ==> (checks[i].0 in e <==> checks[i].1 != ""))
             && (forall i :: 0 <= i < |checks| && checks[i].1 != "" ==> e[checks[i].0] == checks[i].1)
    ensures && (Name in e <==> name != "") && (Name in e ==> e[Name] == name)
            && (Email in e <==> email != "") && (Email in e ==> e[Email] == email)
            && (Password in e <==> password != "") && (Password in e ==> e[Password] == password)
            && (ConfirmPassword in e <==> confirm != "") && (ConfirmPassword in e ==> e[ConfirmPassword] == confirm)
            && (Phone in e <==> phone != "") && (Phone in e ==> e[Phone] == phone)
  {
    var checks := RegistrationChecks(name, email, password, confirm, phone);
    assert checks[0].0 == Name && checks[1].0 == Email && checks[2].0 == Password;
    assert checks[3].0 == ConfirmPassword && checks[4].0 == Phone;
  }

  /** No other property is ever present, so the errors are empty exactly when every message is. */
  lemma RegistrationErrors(name: string, email: string, password: string, confirm: string, phone: string)
    ensures var e := Collect(RegistrationChecks(name, email, password, confirm, phone));
            && e.Keys <= {Name, Email, Password, ConfirmPassword, Phone}
            && (e == map[] <==> name == "" && email == "" && password == "" && confirm == "" && phone == "")
  {
    var checks := RegistrationChecks(name, email, password, confirm, phone);
    CollectFacts(checks);
    RegistrationFields(name, email, password, confirm, phone);
    FiveKeys(Collect(checks), name, email, password, confirm, phone);
  }

  /**
    A map whose keys all come from the five registration checks, each present exactly when
    its message is, has only those keys and is empty exactly when every message is.
   */
  lemma FiveKeys(e: map<Field, string>, name: string, email: string, password: string, confirm: string, phone: string)
    requires var checks := RegistrationChecks(name, email, password, confirm, phone);
             forall k :: k in e ==> exists i :: 0 <= i < |checks| && checks[i].0 == k
    requires && (Name in e <==> name != "") && (Email in e <==> email != "") && (Password in e <==> password != "")
             && (ConfirmPassword in e <==> confirm != "") && (Phone in e <==> phone != "")
    ensures e.Keys <= {Name, Email, Password, ConfirmPassword, Phone}
    ensures e == map[] <==> name == "" && email == "" && password == "" && confirm == "" && phone == ""
  {
    var checks := RegistrationChecks(name, email, password, confirm, phone);
    forall k | k in e ensures k in {Name, Email, Password, ConfirmPassword, Phone} {
      var i :| 0 <= i < |checks| && checks[i].0 == k;
      assert i == 0 || i == 1 || i == 2 || i == 3 || i == 4;
    }
    if e == map[] {
      assert Name !in e && Email !in e && Password !in e && ConfirmPassword !in e && Phone !in e;
    }
  }

  /** `validateRegistrationForm(data)`: the phone is validated only when one was given. */
  method ValidateRegistrationForm(data: RegistrationData) returns (r: FormResult<string>)
    ensures r.isValid <==> RegistrationAcceptable(data)
    ensures r.isValid <==> r.errors == map[]
    ensures r.errors.Keys <= {Name, Email, Password, ConfirmPassword, Phone}
    ensures data.phone == "" ==> Phone !in r.errors
    ensures Name in r.errors <==> !NameAccepted(data.name)
    ensures Email in r.errors <==> !MatchesEmail(data.email)
    ensures Password in r.errors <==> !StrongPassword(data.password)
    ensures ConfirmPassword in r.errors <==> data.confirmPassword == "" || data.confirmPassword != data.password
    ensures Phone in r.errors <==> data.phone != "" && !PhonePattern(data.phone)
    ensures Name in r.errors ==> r.errors[Name] == ValidateName(data.name)
    ensures Email in r.errors ==> r.errors[Email] == ValidateEmail(data.email)
    ensures Password in r.errors ==> r.errors[Password] == (if data.password == "" then PasswordRequired else PasswordWeak)
    ensures ConfirmPassword in r.errors ==> r.errors[ConfirmPassword] == ValidateConfirmPassword(data.password, data.confirmPassword)
    ensures Phone in r.errors ==> r.errors[Phone] == PhoneInvalid
  {
    IsEmailMatchesPattern("");
    var nameError := ValidateName(data.name);
    var emailError := ValidateEmail(data.email);
    var passwordError := ValidatePassword(data.password);
    var confirmError := ValidateConfirmPassword(data.password, data.confirmPassword);
    var phoneError := if data.phone != "" then ValidatePhone(data.phone) else "";
    assert data.phone != "" ==> (phoneError == "" <==> PhonePattern(data.phone));
    var errors := Collect(RegistrationChecks(nameError, emailError, passwordError, confirmError, phoneError));
    RegistrationFields(nameError, emailError, passwordError, confirmError, phoneError);
    RegistrationErrors(nameError, emailError, passwordError, confirmError, phoneError);
    r := FormResult(errors == map[], errors);
  }

  datatype AppointmentData = AppointmentData(doctorId: string, date: string, timeSlot: string, reason: string)

  /** `validateAppointmentForm(data)`; `beforeToday` as for `ValidateDate`. */
  function ValidateAppointmentForm(data: AppointmentData, beforeToday: bool): (r: FormResult<string>)
    ensures r.isValid <==>
              data.doctorId != "" && data.date != "" && !beforeToday && data.timeSlot != "" && !Blank(data.reason)
    ensures r.isValid <==> r.errors == map[]
    ensures Reason in r.errors <==> Blank(data.reason)
    ensures r.errors.Keys <= {DoctorId, Date, TimeSlot, Reason}
    ensures DoctorId in r.errors <==> data.doctorId == ""
    ensures Date in r.errors <==> data.date == "" || beforeToday
    ensures TimeSlot in r.errors <==> data.timeSlot == ""
    ensures DoctorId in r.errors ==> r.errors[DoctorId] == "Please select a doctor"
    ensures Date in r.errors ==> r.errors[Date] == ValidateDate(data.date, beforeToday)
    ensures TimeSlot in r.errors ==> r.errors[TimeSlot] == "Please select a time slot"
    ensures Reason in r.errors ==> r.errors[Reason] == "Please provide a reason for the appointment"
  {
    var dateError := ValidateDate(data.date, beforeToday);
    var e0 := Note(map[], DoctorId, data.doctorId == "", "Please select a doctor");
    var e1 := Note(e0, Date, dateError != "", dateError);
    var e := Note(e1, TimeSlot, data.timeSlot == "", "Please select a time slot");
    var noReason := Blank(data.reason);
    var e' := Note(e, Reason, noReason, "Please provide a reason for the appointment");
    assert e' == map[] <==> !(DoctorId in e' || Date in e' || TimeSlot in e' || Reason in e');
    FormResult(e' == map[], e')
  }

  /** One row of a prescription's medication list. */
  datatype Medication = Medication(name: string, dosage: string, frequency: string, duration: string, instructions: string)

  /** A medication has a name, a dosage and a frequency that are not blank. */
  predicate Complete(m: Medication) {
    !Blank(m.name) && !Blank(m.dosage) && !Blank(m.frequency)
  }

  /** The `medErrors` object of one medication: one entry per blank required field. */
  function MedicationErrors(m: Medication): (r: map<Field, string>)
    ensures Name in r <==> Blank(m.name)
    ensures Dosage in r <==> Blank(m.dosage)
    ensures Frequency in r <==> Blank(m.frequency)
    ensures forall k :: k in r ==> k == Name || k == Dosage || k == Frequency
    ensures r == map[] <==> Complete(m)
  {
    var noName, noDosage, noFrequency := Blank(m.name), Blank(m.dosage), Blank(m.frequency);
    var e := Note(map[], Name, noName, "Medication name is required");
    var e := Note(e, Dosage, noDosage, "Dosage is required");
    var e := Note(e, Frequency, noFrequency, "Frequency is required");
    assert e == map[] <==> !(Name in e || Dosage in e || Frequency in e);
    e
  }

  /** The sparse `medicationErrors` array: an entry at every index whose medication is incomplete. */
  function MedicationItems(meds: seq<Medication>): (r: map<nat, map<Field, string>>)
    ensures forall i: nat :: i in r <==> i < |meds| && !Complete(meds[i])
    ensures forall i :: i in r ==> r[i] == MedicationErrors(meds[i])
    ensures r == map[] <==> forall i :: 0 <= i < |meds| ==> Complete(meds[i])
  {
    var r := map i: nat | i < |meds| && !Complete(meds[i]) :: MedicationErrors(meds[i]);
    assert r == map[] ==> forall i :: 0 <= i < |meds| ==> i !in r;
    r
  }

  /** `errors.medications`: a message, or a sparse array of per-medication error objects. */
  datatype FieldError = Message(text: string) | PerItem(items: map<nat, map<Field, string>>)

  datatype PrescriptionData = PrescriptionData(patientId: string, diagnosis: string,
                                               medications: Option<seq<Medication>>, startDate: string)

  /** What the prescription form accepts. */
  predicate PrescriptionAcceptable(data: PrescriptionData) {
    && data.patientId != ""
    && !Blank(data.diagnosis)
    && data.medications.Some? && |data.medications.value| > 0
    && (forall i :: 0 <= i < |data.medications.value| ==> Complete(data.medications.value[i]))
    && data.startDate != ""
  }

  /** The `medications` entry of the errors, if any. */
  function MedicationsError(meds: Option<seq<Medication>>): (r: Option<FieldError>)
    ensures r.None? <==> meds.Some? && |meds.value| > 0 && forall i :: 0 <= i < |meds.value| ==> Complete(meds.value[i])
    ensures meds.None? || meds.value == [] ==> r == Some(Message("At least one medication is required"))
    ensures meds.Some? && meds.value != [] && r.Some? ==> r == Some(PerItem(MedicationItems(meds.value)))
  {
    if meds.None? || |meds.value| == 0 then Some(Message("At least one medication is required"))
    else if MedicationItems(meds.value) != map[] then Some(PerItem(MedicationItems(meds.value)))
    else None
  }

  /** `validatePrescriptionForm(data)`; `None` medications stands for a missing list. */
  function ValidatePrescriptionForm(data: PrescriptionData): (r: FormResult<FieldError>)
    ensures r.isValid <==> PrescriptionAcceptable(data)
    ensures r.isValid <==> r.errors == map[]
    ensures r.errors.Keys <= {PatientId, Diagnosis, Medications, StartDate}
    ensures PatientId in r.errors <==> data.patientId == ""
    ensures Diagnosis in r.errors <==> Blank(data.diagnosis)
    ensures Medications in r.errors <==> MedicationsError(data.medications).Some?
    ensures StartDate in r.errors <==> data.startDate == ""
    ensures PatientId in r.errors ==> r.errors[PatientId] == Message("Please select a patient")
    ensures Diagnosis in r.errors ==> r.errors[Diagnosis] == Message("Diagnosis is required")
    ensures StartDate in r.errors ==> r.errors[StartDate] == Message("Start date is required")
    ensures Medications in r.errors ==> r.errors[Medications] == MedicationsError(data.medications).value
  {
    var medications := MedicationsError(data.medications);
    var e := Note(map[], PatientId, data.patientId == "", Message("Please select a patient"));
    var noDiagnosis := Blank(data.diagnosis);
    var e := Note(e, Diagnosis, noDiagnosis, Message("Diagnosis is required"));
    var e := Note(e, Medications, medications.Some?, medications.GetOr(Message("")));
    var e := Note(e, StartDate, data.startDate == "", Message("Start date is required"));
    assert e == map[] <==> !(PatientId in e || Diagnosis in e || Medications in e || StartDate in e);
    FormResult(e == map[], e)
  }

  // ---------------------------------------------------------------------------------------
  // Server errors
  // ---------------------------------------------------------------------------------------

  /** The part of an HTTP client error the formatter reads: `error.response.data`, each possibly missing. */
  datatype Response = Response(data: Option<Json>)
  datatype ServerError = ServerError(response: Option<Response>)

  const Unexpected := "An unexpected error occurred. Please try again."
  const CheckInput := "An error occurred. Please check your input and try again."

  /** The body's `errors`, when it is an array. */
  function ErrorList(data: Json): Option<seq<Json>> {
    var e := Get(data, "errors");
    if e.Some? && e.value.JArr? then Some(e.value.items) else None
  }

  /**
    `formatServerErrors(error)`: a string body is the message itself, else a truthy
    `message` (returned as is, whatever its type), else the `errors` array joined with ", ".
   */
  function FormatServerErrors(error: ServerError): (r: Json)
    ensures error.response.None? || error.response.value.data.None? || !Truthy(error.response.value.data.value) ==>
              r == JStr(Unexpected)
    ensures r.JStr? || (error.response.Some? && error.response.value.data.Some? &&
                        Get(error.response.value.data.value, "message") == Some(r) && Truthy(r))
    ensures error.response.Some? && error.response.value.data.Some? && Truthy(error.response.value.data.value) ==>
              var data := error.response.value.data.value;
              var m := Get(data, "message");
              && (data.JStr? ==> r == data)
              && (!data.JStr? && m.Some? && Truthy(m.value) ==> r == m.value)
              && (!data.JStr? && !(m.Some? && Truthy(m.value)) && ErrorList(data).Some? ==>
                    r == JStr(JoinText(ErrorList(data).value, ", ")))
              && (!data.JStr? && !(m.Some? && Truthy(m.value)) && ErrorList(data).None? ==> r == JStr(CheckInput))
  {
    if error.response.None? || error.response.value.data.None? || !Truthy(error.response.value.data.value) then
      JStr(Unexpected)
    else
      var data := error.response.value.data.value;
      if data.JStr? then data
      else
        var m := Get(data, "message");
        if m.Some? && Truthy(m.value) then m.value
        else if ErrorList(data).Some? then JStr(JoinText(ErrorList(data).value, ", "))
        else JStr(CheckInput)
  }

  /**
    The formatter yields a usable (truthy) message except in one case: a body whose `errors`
    array joins to the empty text, such as `{errors: []}`.
   */
  lemma FormatServerErrorsTruthy(error: ServerError)
    ensures !Truthy(FormatServerErrors(error)) <==>
              && error.response.Some? && error.response.value.data.Some?
              && var data := error.response.value.data.value;
                 && Truthy(data) && !data.JStr?
                 && !(Get(data, "message").Some? && Truthy(Get(data, "message").value))
                 && ErrorList(data).Some? && JoinText(ErrorList(data).value, ", ") == ""
  {
  }

  /** A JSON array of strings. */
  function StringArray(items: seq<string>): (r: Json)
    ensures r.JArr? && |r.items| == |items| && forall i :: 0 <= i < |items| ==> r.items[i] == JStr(items[i])
  {
    JArr(seq(|items|, i requires 0 <= i < |items| => JStr(items[i])))
  }

  /** A body `{errors: [...]}` of strings and no message yields the strings joined with ", ". */
  lemma FormatServerErrorsList(items: seq<string>)
    ensures FormatServerErrors(ServerError(Some(Response(Some(JObj([("errors", StringArray(items))])))))) ==
            JStr(Join(items, ", "))
  {
    var arr := StringArray(items).items;
    JoinTextOfStrings(arr, ", ");
    assert seq(|arr|, i requires 0 <= i < |arr| => arr[i].s) == items;
  }
}

=== FILE: wrappers.dfy ===
/** Optional values, standing in for JavaScript's `null` / `undefined`. */
module Wrappers {

  datatype Option<+T> = None | Some(value: T) {

    /** The wrapped value, or `default` when there is none (JavaScript's `x ?? default`). */
    function GetOr(default: T): T {
      match this
      case Some(v) => v
      case None => default
    }
  }
}
